=== FILE: README.md ===
# AI-readiness questionnaire: a Dafny model of its logic

The questionnaire application asks a business owner a handful of questions. The answers are:

- segment;
- team size;
- feeling about AI;
- tools;
- main pain point;
- monthly value;
- urgency.

From these it computes a score profile, a tier and an offer, and it shows a personalised plan and
a community link. A signed report link is emailed to the visitor, and the lead is posted to an
external webhook. An older, framework-free version of the same flow (`DataManager`,
`ValidationManager`, `ResultsGenerator`) is still in the repository and is modelled as well.

The model is written as pure functions over immutable datatypes. There is one module per source
file:

| module | models |
|---|---|
| `Store` | the quiz answer record and the store's `set` / `reset` |
| `Scoring` | `scoreProfile`: five sub-scores, the tier and the offer |
| `Questions` | the segment list, the pain options and prompts per segment, and the pain step's fallback |
| `Plan` | `generatePersonalizedPlan`: strategy and pain-solution look-ups, urgency-paced steps, summary |
| `Format` | `humanSegment` and `humanCurrency` |
| `Urls` | `buildSkoolLink` and the query it serialises |
| `SecureLink` | `createSecureLink` / `validateSecureLink` |
| `Email` | `generateEmailTemplate` and the branches of `sendEmail` |
| `EmailReport` | the report-email endpoint |
| `SubmitEmail` | the email-capture endpoint and its webhook signature |
| `Webhook` | `sendWebhook`'s status classification and `testWebhookWithRetry`'s retry policy |
| `Validation` | `ValidationManager`'s rules, field and form validation, page validation |
| `DataManager` | `DataManager`'s record, its storage keys, resume tokens and webhook data |
| `ResultsGenerator` | `ResultsGenerator`'s clamp, bands, recommendation lists, packages, steps and call to action |
| `MultiSelect` | `toggleSelection` and `canContinue` of the multi-select page |

Shared modules model the JavaScript and web-platform behaviour the code relies on:

- `Json`: JSON values. `undefined` is `None`; `JSON.stringify`/`JSON.parse` are a codec parameter with a round-trip law.
- `JsNumber`: `parseInt`, as section 19.2.5 of ECMA-262 defines it, over integers.
- `FormUrlencoded`: the `application/x-www-form-urlencoded` serializer and parser of sections 5.2 and 5.1 of the WHATWG URL Standard, which `URLSearchParams` uses. UTF-8 decoding is a parameter.
- `Text`: whitespace classes, trimming, splitting, joining and decimal printing.
- `Wrappers`: `Option`.

Things the code cannot know are passed in as arguments: the clock, `Math.random`, `localStorage`,
environment variables, network outcomes, HMAC-SHA256 and base64. Laws about them (a lawful JSON
codec, a UTF-8 decoder that inverts the encoder, base64 output alphabets) are predicates that
the lemmas take as hypotheses.

Where the design notes and the code disagree, the model follows the code:

- A link expires only when `now > expires`; at `now == expires` it is still accepted.
- `JSON.parse` of the payload runs before the signature comparison, so a garbage token gives "Token validation failed", not "Invalid token".
- `expires` is outside the signature.
- An `expires` that does not parse (`NaN`) never expires.
- The live submit route posts to the webhook exactly once, with no retry, and its answer carries no `webhookSent` field.
- The test script's backoff is linear (`attempt * 1000` ms), despite its comment saying "exponential".
- `scoreProfile` returns no `score` field, and `pain_intensity` is always 2.
- The consent message is "You must accept to proceed".
- `validateEmailCaptureForm` throws, rather than reporting an error, when `name` is missing or not a string (`name.trim()`).
- `formatPainPointsList([])` yields ", and undefined". Its only caller never passes an empty list.
- The constructor's initial record holds a `null` resume token, so before `loadSavedData` brings in a saved token, `resumeFromToken(null)` succeeds.
- A phone number made only of separators is rejected.
- `lastSaved` is written to storage by every autosave but never set in memory.
- The webhook "signature" is `base64(payload + secret)`, so it discloses the secret.
- The submit route reports success whenever the report request does not throw. It does so even when the report endpoint refuses the request, for example because the form had no segment.
- `testWebhookWithRetry` with `maxRetries <= 0` returns `undefined` without sending anything.

## Model

| member | source | states |
|---|---|---|
| Store.Initial | web/lib/store.ts:19 | The initial record has every field absent. |
| Store.Set | web/lib/store.ts:19 | `set(k, v)` makes field `k` read `v` and every other field read as before. |
| Store.Reset | web/lib/store.ts:19 | After `reset` every field is absent, whatever the record held. |
| Store.SetIdempotent | web/lib/store.ts:19 | Setting the same value twice is setting it once. |
| Store.SetCommutes | web/lib/store.ts:19 | Sets of two different fields commute. |
| Store.SetOverrides | web/lib/store.ts:19 | A later set of the same field overrides an earlier one. |
| Store.Extensionality | web/lib/store.ts:5-16 | Two records whose fields all read the same are equal: the record is exactly its optional fields. |
| Scoring.IntegrationScore | web/config/scoring.ts:8 | Always 1..3. It is 3 exactly when there are at least three tools or the sentiment is `daily`, and 1 exactly when there are no tools and the sentiment is not `daily`. |
| Scoring.BudgetBands | web/config/scoring.ts:10-11 | The budget score is 0, 1, 2 or 3 at the thresholds 500, 2000 and 5000, and 0 without an answer. |
| Scoring.BudgetMonotone | web/config/scoring.ts:10-11 | The budget score never decreases as the monthly value grows. |
| Scoring.UrgencyScore | web/config/scoring.ts:12 | 2 exactly for `asap`/`30d`, 1 exactly for `quarter`, otherwise 0, including no answer. |
| Scoring.ScoreProfileOf | web/config/scoring.ts:6-17 | Sub-scores within their ranges, `pain_intensity` always 2, a total within 3..12, and a tier and offer determined by the total. |
| Scoring.OfferBijection | web/config/scoring.ts:15 | Tier to offer is one-to-one, and `TierOfOffer` inverts it. |
| Scoring.TierMonotone | web/config/scoring.ts:14 | A larger total never gives a lower tier. |
| Scoring.IdentityMonotone | web/config/scoring.ts:7 | A larger team never lowers identity maturity. |
| Scoring.IntegrationMonotone | web/config/scoring.ts:8 | More tools never lower the integration score. |
| Scoring.TierDependsOnlyOnTotal | web/config/scoring.ts:13-15 | Two answer sets with the same total get the same tier and offer. |
| Scoring.HighTierScenario | web/config/scoring.ts:6-17 | finance / 21+ / five tools / daily / 8000 / asap scores 2,3,2,3,2: high tier, Playbook Plus. |
| Scoring.LowTierScenario | web/config/scoring.ts:6-17 | solo / no tools / starting / 200 / research scores 0,1,2,0,0: low tier, Plinko Pocket. |
| Scoring.EmptyAnswersScore | web/config/scoring.ts:6-17 | The empty record scores 0,1,2,0,0: low tier, Plinko Pocket. |
| Questions.SegmentsMatchType | web/config/questions.ts:1-9 | Seven segments with distinct keys, exactly the keys of the `Segment` type. |
| Questions.SegmentKeyInjective | web/lib/store.ts:4 | Different segments are stored under different keys. |
| Questions.SegmentsAreKeys | web/config/questions.ts:1-9 | The list holds the seven segments in the type's order. |
| Questions.EverySegmentCovered | web/config/questions.ts:11-68 | Every segment key has pain options (at least three) and a prompt. |
| Questions.PainKeysUnique | web/config/questions.ts:11-58 | Pain keys are unique within each segment's list. |
| Questions.PainOptionsFor | web/app/quiz/4/page.tsx:13-17 | A listed key gets its own options; any other key gets the `other` options. |
| Questions.PromptFor | web/app/quiz/4/page.tsx:19 | A listed key gets its own prompt; any other key gets the `other` prompt. |
| Questions.AbsentSegmentFallsBack | web/app/quiz/4/page.tsx:13-19 | Without a segment answer the pain step shows the `other` options and prompt. |
| Plan.SolutionFor | web/lib/personalized-plan.ts:163 | A listed pain key gets its solution; any other key gets the fallback. |
| Plan.PainKey | web/lib/personalized-plan.ts:23 | A non-empty pain answer is used as the key; the key is never empty, because an empty or missing answer is replaced. |
| Plan.NextSteps | web/lib/personalized-plan.ts:166-222 | Always three steps. For `asap`/`30d` they start with the first quick win and then the solution's implementation; for `quarter` the second step is the implementation plus " + quick wins rollout". |
| Plan.Summary | web/lib/personalized-plan.ts:225-239 | Opens with the solo sentence exactly when the team size is `solo` or missing, else with the team sentence. Ends with the bought-in sentence for `excited` or `daily`, and with the overwhelmed sentence ending in `your <pain> problem.` for `overwhelmed`. Ends with the skepticism sentence for `skeptical`, and with the learn-what-works sentence for `curious`, `starting` or a missing sentiment. |
| Plan.AbsentSentimentIsCurious | web/lib/personalized-plan.ts:26 | A missing sentiment gives the same summary as `curious`, and so does `starting`, which no branch names. |
| Plan.PlanFrom | web/lib/personalized-plan.ts:162-248 | Headline, quick wins and tools are the segment's strategy (`other` without a segment). The pain solution is the listed one or the fallback. Three steps and three quick wins. |
| Plan.PlanIgnoresScoreAndTools | web/lib/personalized-plan.ts:21-27 | Neither the score profile nor the tools answer changes the plan. |
| Plan.EmptyPainIsAbsent | web/lib/personalized-plan.ts:23 | An empty pain answer gives the same plan as no answer. |
| Plan.AbsentPainFallsBack | web/lib/personalized-plan.ts:162-163 | With no pain answer the plan carries the fallback solution. |
| Plan.PainCoverage | web/lib/personalized-plan.ts:97-160 | The generic pain keys have their own solutions; `showing_sched` and `unknown` fall back. |
| Plan.UrgentStepsFollowTables | web/lib/personalized-plan.ts:167-184 | For `asap`/`30d` the first step is the plan's first quick win and the second is its solution's implementation. |
| Plan.RelaxedStepsAreGeneric | web/lib/personalized-plan.ts:203-221 | With no urgency or `research`, the steps depend on neither the strategy nor the pain solution. |
| Format.HumanSegment | web/lib/format.ts:1-4 | `Unknown` for a missing or empty segment, the label for a known key, the text itself otherwise. |
| Format.HumanSegmentAgreesWithSegmentList | web/lib/format.ts:2 | The display labels are the segment list's labels. |
| Format.HumanCurrency | web/lib/format.ts:5 | Always starts with `$`; `$0` without a number; otherwise, commas removed, the number's decimal digits. |
| Format.GroupedDigits | web/lib/format.ts:5 | Grouping by thousands only inserts commas between the decimal digits. |
| Format.LocaleStringDigits | web/lib/format.ts:5 | With the commas removed, `toLocaleString` gives the plain decimal form, sign included. |
| Urls.UtmContent | web/lib/urls.ts:14 | The content tag is the segment key (`unknown` when unanswered), `_`, then the pain answer (`na` when unanswered); case by case, `unknown_na` with neither. |
| Urls.SkoolParams | web/lib/urls.ts:9-19 | Nine parameters in order: `ref`, the fixed tags `utm_source=quiz`, `utm_medium=web` and `utm_campaign=skool_onboarding`, the content tag, then lead id, join code, tier name and offer name. |
| Urls.BuildSkoolLink | web/lib/urls.ts:4-22 | The link is the fixed community address, then `?`, then the query. |
| Urls.SkoolLinkRoundTrip | web/lib/urls.ts:9-21 | Parsing the link's query gives back exactly the nine parameters, in order. |
| Urls.SkoolLinkFields | web/lib/urls.ts:9-21 | Looking up any of the nine names in the parsed query gives its value. |
| Urls.ParamNamesDistinct | web/lib/urls.ts:9-19 | The nine parameter names are distinct. |
| FormUrlencoded.FromSerialized | web/lib/urls.ts:9-21 | Parsing a serialised list gives the list back, for any decoder that inverts UTF-8 encoding. |
| FormUrlencoded.Get | web/lib/secure-link.ts:36-37 | `get(name)` gives the value of the first pair with that name, and nothing when no pair has it. |
| JsNumber.ParseInt | web/lib/secure-link.ts:44-45 | `parseInt` is `NaN` exactly when no digit follows the whitespace, the sign and the hex prefix. |
| JsNumber.ParseIntOfDecimal | web/lib/secure-link.ts:26-29 | Reading a printed integer gives the integer back. |
| SecureLink.ExpiryTimestamp | web/lib/secure-link.ts:13-27 | `NaN` exactly when the configured day count does not parse; otherwise the current time plus that many days of 86,400,000 ms. An unset or empty day count gives seven days. |
| SecureLink.ReadCreatedLink | web/lib/secure-link.ts:10-37 | Reading a created link gives the combined token, with `+` read as space, and the expiry text. |
| SecureLink.ExpiryReadsBack | web/lib/secure-link.ts:27-44 | The expiry printed into a link parses back to the same timestamp. |
| SecureLink.Check | web/lib/secure-link.ts:39-68 | Each verdict exactly under its condition, checked in order. Format error when a parameter is missing or empty. Expired when `now` is past a parseable expiry. "Token validation failed" when the decoded payload is not JSON. Signature error when the piece after the first `.` is not the payload's HMAC. Otherwise valid with the parsed payload. |
| SecureLink.GarbageTokenFails | web/lib/secure-link.ts:50-68 | An unexpired token whose payload does not parse gets "Token validation failed", not the signature error. |
| SecureLink.MismatchIsSignatureError | web/lib/secure-link.ts:53-62 | An unexpired token whose payload parses but whose signature piece differs gets "Invalid token signature". |
| SecureLink.CheckSignedToken | web/lib/secure-link.ts:16-64 | An unexpired token signed with the same secret is valid and carries its data. |
| SecureLink.ExpiresNotSigned | web/lib/secure-link.ts:16-60 | Rewriting `expires` to any unexpired value never changes the verdict. |
| SecureLink.ExpiredBeforeSignature | web/lib/secure-link.ts:44-47 | Once expired, the token is reported expired whatever its payload or signature. |
| SecureLink.ExpiryBoundary | web/lib/secure-link.ts:44-45 | At `now == expires`, or with an unparseable expiry, the token is not reported expired. |
| SecureLink.DotlessTokenRejected | web/lib/secure-link.ts:58-62 | A token without a `.` is never valid. |
| SecureLink.SpacedSignatureRejected | web/lib/secure-link.ts:53-62 | A signature piece containing a space never matches a base64 HMAC. |
| SecureLink.PlusInSignatureRejected | web/lib/secure-link.ts:29-60 | A created link whose signature contains `+` is rejected by validation (see Findings). |
| SecureLink.CreatedLinkExpires | web/lib/secure-link.ts:26-47 | A created link that is read after its expiry time is rejected as expired, whatever its token holds. |
| SecureLink.UnpaddedPayloadFails | web/lib/secure-link.ts:50-51 | Under Node's decoder, which skips `.` and stops only at `=`, a correctly signed, unexpired link whose payload encodes without padding is refused with `Token validation failed` whenever the payload followed by the signature's bytes does not parse (see Findings). |
| SecureLink.CreateThenValidateCorrected | web/lib/secure-link.ts:10-64 | With `+` restored and only the payload half of the token decoded, every created link validates before it expires, and carries its data, for any base64 decoder that inverts the encoder. |
| Email.FullLink | web/lib/email.ts:83-84 | The link starts with the application address (`http://localhost:3000` by default) and contains the secure link. |
| Email.LinkReachesReportPage | web/lib/email.ts:84 | The report page's query is exactly the secure link. |
| Email.GenerateEmailTemplate | web/lib/email.ts:74-162 | Empty recipient, fixed subject. Both bodies greet by name and show the segment; the HTML links to the full link and the text gives it on its link line. |
| Email.FromAddress | web/lib/email.ts:18 | The message's sender, else `EMAIL_FROM`, else `noreply@example.com`. |
| Email.SendEmail | web/lib/email.ts:16-72 | Without a key: success with `console-logged`. With one: success exactly when the call answered ok with a readable body, else an error result. |
| Email.RejectedSendNamesStatus | web/lib/email.ts:42-45 | A non-ok answer becomes an error naming the status and the body text. |
| Email.UnconfiguredIgnoresApi | web/lib/email.ts:20-23 | Without a key the outcome does not depend on the API. |
| Email.RequestCarriesMessage | web/lib/email.ts:27-40 | The API request carries the message unchanged, addressed to its one recipient. |
| EmailReport.Post | web/app/api/email-report/route.ts:4-50 | Unreadable body: 500. Missing or falsy field: 400. Otherwise sent exactly when `sendEmail` succeeds, with its message id, and 500 with an error otherwise. |
| EmailReport.ReportEmail | web/app/api/email-report/route.ts:18-28 | The template with its recipient replaced by the requested one. |
| EmailReport.FailureCarriesError | web/app/api/email-report/route.ts:30-35 | A failed send answers 500 with the service's error, or "Failed to send email". |
| EmailReport.UnconfiguredReportsLogged | web/app/api/email-report/route.ts:24-41 | Without an API key a complete request is answered as sent with `console-logged`. |
| EmailReport.SentToRequestedRecipient | web/app/api/email-report/route.ts:18-28 | The email reaches the API for the requested recipient, with the full link in its text. |
| SubmitEmail.Post | web/app/api/submit-email/route.ts:4-99 | Unreadable body: 500. Missing name, email or consent: 400. Malformed email: 400. No more than one webhook post and one report request, and success only when the report request did not throw. |
| SubmitEmail.WebhookPosts | web/app/api/submit-email/route.ts:37-62 | One signed post of the lead payload when a URL is configured, none otherwise. |
| SubmitEmail.AcceptedForm | web/app/api/submit-email/route.ts:29-90 | An accepted form makes exactly one report request. The answer is success exactly when that request does not throw, and otherwise 500. There is one webhook post exactly when a URL is configured. |
| SubmitEmail.AnsweredLink | web/app/api/submit-email/route.ts:30-34 | When the submission succeeds, the answered link is the secure link over the email, the segment and one reading of the clock. Its expiry counts from a separate reading. |
| SubmitEmail.MissingBeforeFormat | web/app/api/submit-email/route.ts:10-24 | A missing email is reported as missing before its shape is checked. |
| SubmitEmail.NoSegmentStillSubmitted | web/app/api/submit-email/route.ts:65-90 | A form without a segment is answered as submitted, though the report endpoint answers its request with 400. |
| SubmitEmail.SignatureDisclosesSecret | web/app/api/submit-email/route.ts:101-105 | Decoding the signature header gives the body followed by the secret (`default-secret` when unset). |
| Webhook.SendWebhook | test-webhook.js:47-99 | Delivered exactly when answered with a status in [200, 300); timeouts and request errors are rejections. |
| Webhook.ErrorStatusRejected | test-webhook.js:77-81 | Any other status is rejected as `HTTP <status>: <message>`. |
| Webhook.TestWebhookWithRetry | test-webhook.js:102-125 | Between 1 and `maxRetries` identical sends, stopping at the first delivery. After `maxRetries` failures the last error is thrown. The pause after failed attempt k is k seconds, with none after the last. |
| Webhook.TwoFailuresThenSuccess | test-webhook.js:102-125 | Two failures then a success: three sends, pauses of 1000 and 2000 ms, and the success returned. |
| Webhook.AlwaysFailing | test-webhook.js:102-125 | Three failures: three sends, two pauses, and the last error thrown. |
| Validation.NameRule | validation.js:14-18 | Throws unless the value is a string; otherwise holds exactly when the trimmed text is two or more letters, spaces, hyphens or apostrophes. |
| Validation.StripPhone | validation.js:23 | The result contains no separator and only characters of the input; an input without separators is returned unchanged. |
| Validation.PhoneRule | validation.js:20-24 | A falsy value passes; a non-string throws; a rejected phone fails the pattern once separators are stripped. |
| Validation.PhoneShape | validation.js:22 | An accepted phone has 1 to 17 characters, does not end in `+`, and is all digits after its first character. |
| Validation.BlankPhoneRejected | validation.js:20-24 | A non-empty phone made only of separators is rejected; the empty one passes. |
| Validation.PhoneFormattingIrrelevant | validation.js:23 | Separators never change the phone verdict. |
| Validation.ValidEmailIsPattern | validation.js:11-12 | The email check accepts exactly the strings `^[^\s@]+@[^\s@]+\.[^\s@]+$` matches. |
| Validation.EmailRuleIsRequired | validation.js:9-13 | A value that passes the email rule also passes `required`. |
| Validation.KnownRules | validation.js:8-25 | Exactly the five rule names are known. |
| Validation.Check | validation.js:9-24 | Only the `name` and `phone` rules can throw. |
| Validation.FieldLabel | validation.js:168-178 | The listed fields have their labels; any other field name is its own label. |
| Validation.RuleOutcome | validation.js:35-54 | One rule gives at most one message, none exactly when the rule passes, and throws exactly when the rule throws. |
| Validation.ValidateField | validation.js:31-59 | Answers exactly when no rule throws. There is at most one message per rule, and none exactly when every rule passes. |
| Validation.ValidateFieldConcat | validation.js:34-56 | The messages for a list of rules are the messages for each part, in order. |
| Validation.SingleRule | validation.js:35-54 | One failing rule gives exactly its own message. |
| Validation.ValidateEmailCaptureForm | validation.js:64-89 | Defined exactly when `name` is a string; valid exactly when there are no errors; errors only for name, email and consent. |
| Validation.NameError | validation.js:68-71 | A name error exactly when the name rule fails: the `required` message for an empty name, else the name message. |
| Validation.EmailError | validation.js:74-77 | An email error exactly when the email rule fails: the `required` message for a missing email, else the email message. |
| Validation.ConsentError | validation.js:80-83 | A consent error exactly when `acceptPrivacy` is not `true`, with "You must accept to proceed". |
| Validation.FormValidIff | validation.js:64-89 | The form is valid exactly when name, email and consent all pass. |
| Validation.ValidateEmailPage | validation.js:211-223 | No stored form: invalid with the "No data found" message. Valid only for a stored form without errors. A general error always means invalid. |
| Validation.ValidatePage | validation.js:190-209 | Every page but 9 is valid with no errors; page 9 validates the stored form. |
| Validation.EmailPageUsesSavedForm | validation.js:211-222 | For a stored form, page 9 gives the form validator's verdict and errors, or "Invalid saved data" when validating the form throws. |
| DataManager.AutoSave | data-manager.js:82-101 | Writes the questionnaire key only, and leaves the in-memory record and the other keys unchanged. |
| DataManager.AutoSaveReadsBack | data-manager.js:85-93 | The saved entry parses to an object with exactly the keys `responses`, `currentPage`, `resumeToken`, `completedAt` and `lastSaved`. Its responses and token are the manager's, and its save time is the current time. |
| DataManager.UpdateCurrentPage | data-manager.js:119-122 | Sets the page; nothing else in the record changes. |
| DataManager.UpdateResponse | data-manager.js:127-130 | Sets one response; every other response, the rest of the record and every other storage key are unchanged. |
| DataManager.UpdateThenGet | data-manager.js:127-137 | `getAllResponses` reads the set value back, and every other answer as before. |
| DataManager.UpdateResponseIdempotent | data-manager.js:127-130 | Setting the same response twice is setting it once. |
| DataManager.MarkCompleted | data-manager.js:177-180 | Stamps the completion time; nothing else changes. |
| DataManager.ResetData | data-manager.js:185-197 | The constructor's record, both storage keys removed, other keys kept. |
| DataManager.ResetForgets | data-manager.js:185-197 | After a reset, no prior state remains visible: no webhook record, no responses. |
| DataManager.SaveEmailCapture | data-manager.js:215-227 | The email record is the form with the stamps. The form is stored under `emailCaptureData`, and the rest of the record is unchanged. |
| DataManager.Stamped | data-manager.js:216-221 | The form's fields plus `submittedAt`, `webhookSent = false` and `reportLink = null`, and no other field. |
| DataManager.GetEmailCaptureState | data-manager.js:232-234 | `{}` without an email record. |
| DataManager.MarkWebhookSent | data-manager.js:246-251 | Without a record nothing at all changes; with one, only its `webhookSent` flag becomes true. |
| DataManager.SetReportLink | data-manager.js:256-261 | Without a record nothing at all changes; with one, only its `reportLink` changes. |
| DataManager.SaveEmail | data-manager.js:362-366 | Sets the address on the record, creating `{email}` when there is none. |
| DataManager.ClearEmailData | data-manager.js:281-283 | Removes `emailCaptureData` only; every other key keeps its value. |
| DataManager.SavedFormIsPartial | data-manager.js:266-276 | After a form is saved, partial data is reported exactly when it has a truthy name or email. |
| DataManager.ClearedHasNoPartial | data-manager.js:266-283 | After clearing or resetting, no partial form is reported. |
| DataManager.ResumeFromToken | data-manager.js:288-296 | The resume data exactly when the token equals the stored one, else `null`. |
| DataManager.GenerateResumeToken | data-manager.js:155-160 | Sets the resume token to the drawn one; nothing else in the record changes. |
| DataManager.ResumeWithGeneratedToken | data-manager.js:288-296 | After generating a token, resuming succeeds with exactly that token. |
| DataManager.FreshManagerResumesOnNull | data-manager.js:288-296 | The constructor's initial record, before any saved questionnaire is loaded, resumes on `null`. |
| DataManager.SubmittedAfterSave | data-manager.js:239-241 | After the form is saved it counts as submitted (for a non-empty time). The webhook flag and report link leave that unchanged, and a reset clears it. |
| DataManager.GetWebhookData | data-manager.js:340-357 | `null` exactly when there is no email record. |
| DataManager.SavedFormReachesWebhook | data-manager.js:340-357 | A saved form's name, email and opt-in, the current answers and the submission time reach the webhook record. |
| DataManager.FlagsLeaveWebhookData | data-manager.js:246-261 | Marking the webhook sent or setting the report link leaves the webhook record unchanged. |
| DataManager.AlphabetShape | data-manager.js:166 | The alphabet has 62 characters, all ASCII letters or digits. |
| DataManager.AlphabetDistinct | data-manager.js:166 | No character repeats in the alphabet. |
| DataManager.Slot | data-manager.js:169 | A draw in [0, 1) lands in one of the 62 slots. |
| DataManager.PickFromAlphabet | data-manager.js:169 | A draw picks the alphabet's character at its slot. |
| DataManager.GenerateSecureToken | data-manager.js:165-172 | 32 characters, the i-th picked from the alphabet by the i-th draw. |
| ResultsGenerator.FinalScore | results-generator.js:233-234 | The score is always within 10..100, and equals the rounded product when that is in range. |
| ResultsGenerator.FinalScoreMonotone | results-generator.js:234 | Clamping keeps the order of scores and is idempotent. |
| ResultsGenerator.TitleAgreesWithTemplate | results-generator.js:264-285 | The title always falls in the template's band and names the industry (`Business` without one). |
| ResultsGenerator.DisplayName | results-generator.js:618-630 | `Business` for `other` and any unlisted industry. |
| ResultsGenerator.Budget | results-generator.js:385 | Never 0; 1500 for a missing, unparseable or zero budget, else the parsed value. |
| ResultsGenerator.PainLabels | results-generator.js:337-340 | One label per pain point, in order. |
| ResultsGenerator.PainLabelChoice | results-generator.js:338-339 | A matched value shows its first option's label in lower case. |
| ResultsGenerator.FormatIsSerial | results-generator.js:342-348 | Three or more labels form the serial-comma list "a, b, …, and z". |
| ResultsGenerator.EmptyListPrintsUndefined | results-generator.js:346-347 | The empty list prints ", and undefined". |
| ResultsGenerator.SpecificRecommendations | results-generator.js:381-455 | Exactly two categories: one chosen by budget (3000 and 1500 thresholds), one by technical level. |
| ResultsGenerator.DefaultBudgetIsProfessional | results-generator.js:385-399 | Without a budget the professional tools are recommended. |
| ResultsGenerator.KeysRoundTrip | results-generator.js:108-188 | The industry keys and industries correspond one to one. |
| ResultsGenerator.InsightOrOther | results-generator.js:253 | A listed industry shows its own texts; any other shows `other`'s. |
| ResultsGenerator.TailoredSolutions | results-generator.js:460-529 | 1 to 4 packages in rank order, the starter always among them. The lead packages come first. A specialist package is present exactly when the industry has texts, and it is for that industry. |
| ResultsGenerator.LeadPackages | results-generator.js:467-497 | The rapid package exactly for an immediate timeline with a budget of at least 3000; the professional one exactly for a budget of at least 1500. |
| ResultsGenerator.SolutionsByBudget | results-generator.js:467-497 | Professional listed exactly when the budget is at least 1500; rapid exactly when rapid conditions hold. |
| ResultsGenerator.RapidImpliesProfessional | results-generator.js:468-484 | When rapid is listed it is first and professional second. |
| ResultsGenerator.SpecialistFeatures | results-generator.js:519-522 | At most the first three automations, then the industry-templates line. |
| ResultsGenerator.NextSteps | results-generator.js:534-579 | Three or four steps. The strategy call comes first exactly for an immediate timeline. The training step appears exactly for a beginner or missing level. The last two steps are fixed. |
| ResultsGenerator.MissingLevelGetsTraining | results-generator.js:537-562 | Without a level, the training step is second of four. |
| ResultsGenerator.CtaMessage | results-generator.js:584-613 | The rapid call exactly under rapid conditions. Otherwise the community at 80 and above, the plan for 60..79, and the free resources below 60. |
| ResultsGenerator.CtaAgreesWithSolutions | results-generator.js:584-613 | The rapid call is offered exactly when the rapid package is listed. Otherwise the call follows the template band. |
| MultiSelect.Toggle | web/components/questions/MultiSelectPage.tsx:28-34 | A selected key is removed, everything else kept. An unselected key is appended below the maximum; at the maximum the click does nothing. |
| MultiSelect.DeselectKeepsOrder | web/components/questions/MultiSelectPage.tsx:29-30 | Deselecting removes the key from its place and keeps the rest in order. |
| MultiSelect.ToggleValid | web/components/questions/MultiSelectPage.tsx:28-34 | Toggling keeps the selection duplicate-free and within the maximum. |
| MultiSelect.ToggleTwice | web/components/questions/MultiSelectPage.tsx:28-34 | Toggling a key on and off restores the selection. |
| MultiSelect.Reachable | web/components/questions/MultiSelectPage.tsx:26-34 | Every selection reachable by clicks has no duplicates and respects the maximum. |
| MultiSelect.Continue | web/components/questions/MultiSelectPage.tsx:36 | The selection is handed on exactly when it meets the minimum. |
| MultiSelect.DefaultNeedsOne | web/components/questions/MultiSelectPage.tsx:23-36 | With default bounds one selection is needed. |
| MultiSelect.ToolsStep | web/app/quiz/3.5/page.tsx:40-41 | The tools step can always continue and never holds more than ten tools. |

## Findings

| source | as written | input that shows it | evidently intended | confidence | as-written member | corrected member |
|---|---|---|---|---|---|---|
| web/lib/secure-link.ts:29-35 | The link embeds the base64 signature unescaped. `URLSearchParams` then reads each `+` in it as a space, so the piece after `.` never equals the recomputed signature. | Any payload and secret whose HMAC-SHA256 in base64 contains `+` (42 of the 43 characters before the `=` are each `+` with probability 1/64; the 43rd can only be `A`, `Q`, `g` or `w`. So about 48% of links are affected) | Every link the application creates validates until it expires | not executed | SecureLink.PlusInSignatureRejected (about SecureLink.ValidateSecureLink) | SecureLink.CreateThenValidateCorrected (about SecureLink.ValidateSecureLinkCorrected) |
| web/lib/secure-link.ts:50-51 | The whole `payload.signature` token is base64-decoded, not only the part before the `.`. Node's decoder skips the `.` and stops only at `=` padding, so an unpadded payload encoding runs on into the signature: the signature's 32 bytes follow the JSON text and `JSON.parse` throws. | A link made the moment `Date.now()` is 1700000000000 for `ab@b.co` in segment `other`: its 63-byte payload encodes without padding. In general, any payload whose UTF-8 length is a multiple of 3, about a third of links | Every link the application creates validates until it expires | not executed | SecureLink.UnpaddedPayloadFails (about SecureLink.ValidateSecureLink) | SecureLink.CreateThenValidateCorrected (about SecureLink.ValidateSecureLinkCorrected) |

`ValidateSecureLinkCorrected` turns the spaces of the read token back into `+`. Base64 text never
contains a space, so this restores exactly what was written. The same effect could be had by
escaping the token when the link is built. It then decodes only `token.split('.')[0]`, so its
promise rests on the plain base64 round trip and not on how a decoder treats what follows.

## Left out

- Presentation: the React pages and components, the animation, the DOM wiring of the older questionnaire, the autosave indicator, progress display and router calls.
- `calculateAutomationScore`'s multiplier product (results-generator.js:194-232): floating-point arithmetic. Only the final rounding clamp over an integer is modelled.
- `generateResults`, `generateAssessmentSummary`, `generateRecommendations` and `generatePDFContent` (results-generator.js): these only combine the modelled parts into texts. The summary also needs `ConditionalLogic`, which is not part of this model. Its option lookup is the `options` parameter of `PainLabels`.
- `loadSavedData`, `scheduleAutoSave`, `showAutoSaveIndicator`, `updateProgress`, `setupDataCleanup`, `cleanupExpiredData`, `generateSaveLink`, `exportData`, and `getResumeData` as its own entry point: DOM, timers and `window.location`, or getters used only by the modelled members.
- The validator's DOM methods (showing and clearing errors) and the `validatePage1`–`validatePage5` stubs beyond the fact that they answer valid.
- `generateResumeToken` in web/lib/secure-link.ts and web/lib/ids.ts: random bytes and nanoid, with no logic to model.
- The time stamps: the clock is an argument (an ISO string or milliseconds). `new Date().toISOString()` and `Date.now()` are not computed.
- HMAC-SHA256, base64, `JSON.stringify`/`JSON.parse` and UTF-8 decoding: parameters constrained by stated laws. Nothing shows that real implementations satisfy them.
- `Math.random`: a sequence of draws in [0, 1). Doubles and the exact rounding of `r * 62` are real arithmetic here.
- `fetch`, the Resend API, `https.request`, the rate-limit IP lookup, console logging and the retry sleeps: each outcome is a parameter, and the pauses are returned as data.
- Numbers are integers. `humanCurrency` prints `toLocaleString` with comma grouping (the en-US style); other locales, fractions and exponent notation are not modelled.
- Strings entering templates from non-string JSON values use a simplified `String(value)`. Prototype properties of objects (`toString`, `__proto__`) are not modelled as keys.
- EmailReport.ReportEmail: the recipient is passed through the same simplified `String(value)`. The source hands the raw JSON value of `to` to the email API as `to: [to]`, so a truthy non-string recipient (a number, an object) is sent as that value and not as text. The model's email options hold the recipient as text.
- The texts of packages, steps, categories and calls to action in `ResultsGenerator` are identified by constructors rather than their strings. The industry insight texts are kept.
- `Text.AsciiLower` lowers ASCII letters only; `toLowerCase` on other scripts is not modelled.
- `Plan.PlanFrom`: the segment answer is one of the seven `Segment` values, so an unknown segment string from a tampered store (which would also fall back to `other`) is not representable.
- `Validation.ValidateEmailPage`: a present but empty `emailCaptureData` entry is read as absent, as JavaScript's falsy check does.
- `SecureLink.CreateSecureLink` carries no contract of its own. What it builds is stated by `ReadCreatedLink`, `CreatedLinkExpires` and `CreateThenValidateCorrected`, and its expiry time by `ExpiryTimestamp`.
- SecureLink.UnpaddedPayloadFails: rests on `LegacyDecoder`, a description of Node's `Buffer.from(s, 'base64')` that is not derived from its implementation. It also assumes that `JSON.parse` rejects the payload followed by the signature's bytes, which fails only if all 32 bytes decode to JSON whitespace.
- `ResultsGenerator.FormatLabels`: for exactly one label the source returns the one-element array itself rather than a string. Interpolated into the summary it prints the same text, so the model returns the label.
- `Email.SendEmail`: `await response.text()` on a rejected answer could itself throw, which would reach the outer catch. The model takes the error text as always readable.

=== FILE: data_manager.dfy ===
/** The original questionnaire's `DataManager`: the in-memory record of an attempt, mirrored into
    `localStorage`, modelled here as a map from keys to strings. The clock is an ISO timestamp
    argument, `JSON.stringify` / `JSON.parse` a codec argument, `Math.random` a sequence of draws. */
module DataManager {
  import opened Wrappers
  import Json

  type Object = map<string, Json.Json>

  /** `this.currentData`. The email record is `null` (`None`) or an object. */
  datatype Data = Data(
    responses: Object,
    currentPage: Json.Json,
    email: Option<Object>,
    resumeToken: Json.Json,
    completedAt: Json.Json,
    lastSaved: Json.Json)

  /** The constructor's record. */
  const InitialData := Data(map[], Json.JNum(1), None, Json.JNull, Json.JNull, Json.JNull)

  /** The manager's record together with the storage it writes. */
  datatype Manager = Manager(data: Data, storage: map<string, string>)

  const QuestionnaireKey := "questionnaireData"
  const EmailCaptureKey := "emailCaptureData"

  // --- Autosave

  /** The object `performAutoSave` stores: the attempt without its email record, stamped with the
      save time. */
  function SavedRecord(d: Data, now: string): Object {
    map[
      "responses" := Json.JObj(d.responses),
      "currentPage" := d.currentPage,
      "resumeToken" := d.resumeToken,
      "completedAt" := d.completedAt,
      "lastSaved" := Json.JStr(now)
    ]
  }

  /** `performAutoSave`: writes the saved record under the questionnaire key. The in-memory
      `lastSaved` is not updated. */
  function AutoSave(m: Manager, now: string, codec: Json.Codec): (r: Manager)
    ensures r.data == m.data
    ensures QuestionnaireKey in r.storage
    ensures forall k :: k != QuestionnaireKey ==> (k in r.storage <==> k in m.storage)
    ensures forall k :: k != QuestionnaireKey && k in m.storage ==> r.storage[k] == m.storage[k]
  {
    m.(storage := m.storage[QuestionnaireKey := codec.stringify(Json.JObj(SavedRecord(m.data, now)))])
  }

  /** What an autosave leaves in storage reads back, under a lawful codec, as the responses, page,
      resume token and completion time of the attempt, with the save time as `lastSaved` and no
      email record. */
  lemma AutoSaveReadsBack(m: Manager, now: string, codec: Json.Codec)
    requires Json.Lawful(codec)
    ensures var saved := codec.parse(AutoSave(m, now, codec).storage[QuestionnaireKey]);
      saved.Some? && saved.value.JObj?
      && saved.value.fields.Keys == {"responses", "currentPage", "resumeToken", "completedAt", "lastSaved"}
      && saved.value.fields["responses"] == Json.JObj(m.data.responses)
      && saved.value.fields["resumeToken"] == m.data.resumeToken
      && saved.value.fields["lastSaved"] == Json.JStr(now)
      && "email" !in saved.value.fields
  {
    var j := Json.JObj(SavedRecord(m.data, now));
    assert codec.parse(codec.stringify(j)) == Some(j);
  }

  // --- Updates of the attempt

  /** `updateCurrentPage(page)`. */
  function UpdateCurrentPage(m: Manager, page: Json.Json, now: string, codec: Json.Codec): (r: Manager)
    ensures r.data.currentPage == page
    ensures r.data.(currentPage := m.data.currentPage) == m.data
  {
    AutoSave(m.(data := m.data.(currentPage := page)), now, codec)
  }

  /** `updateResponse(key, value)`: sets one response and saves. */
  function UpdateResponse(m: Manager, key: string, value: Json.Json, now: string, codec: Json.Codec): (r: Manager)
    ensures key in r.data.responses && r.data.responses[key] == value
    ensures forall k :: k != key ==> (k in r.data.responses <==> k in m.data.responses)
    ensures forall k :: k != key && k in m.data.responses ==> r.data.responses[k] == m.data.responses[k]
    ensures r.data.(responses := m.data.responses) == m.data
    ensures forall k :: k != QuestionnaireKey && k in m.storage ==> k in r.storage && r.storage[k] == m.storage[k]
  {
    AutoSave(m.(data := m.data.(responses := m.data.responses[key := value])), now, codec)
  }

  /** `getAllResponses`: a shallow copy of the responses. */
  function GetAllResponses(m: Manager): Object {
    m.data.responses
  }

  /** A response reads back as it was set, and setting one key leaves every other answer as
      `getAllResponses` reported it. */
  lemma UpdateThenGet(m: Manager, key: string, value: Json.Json, other: string, now: string, codec: Json.Codec)
    requires other != key
    ensures GetAllResponses(UpdateResponse(m, key, value, now, codec))[key] == value
    ensures Json.Prop(GetAllResponses(UpdateResponse(m, key, value, now, codec)), other)
         == Json.Prop(GetAllResponses(m), other)
  {
  }

  /** Setting the same response twice is setting it once. */
  lemma UpdateResponseIdempotent(m: Manager, key: string, value: Json.Json, now: string, codec: Json.Codec)
    ensures var once := UpdateResponse(m, key, value, now, codec);
      UpdateResponse(once, key, value, now, codec) == once
  {
    var once := UpdateResponse(m, key, value, now, codec);
    assert once.data.responses[key := value] == once.data.responses;
    assert once.storage[QuestionnaireKey := codec.stringify(Json.JObj(SavedRecord(once.data, now)))] == once.storage;
  }

  /** `markCompleted()`: stamps the completion time and saves. */
  function MarkCompleted(m: Manager, now: string, codec: Json.Codec): (r: Manager)
    ensures r.data.completedAt == Json.JStr(now)
    ensures r.data.(completedAt := m.data.completedAt) == m.data
  {
    AutoSave(m.(data := m.data.(completedAt := Json.JStr(now))), now, codec)
  }

  /** `resetData()`: the constructor's record, and both storage keys removed. No autosave. */
  function ResetData(m: Manager): (r: Manager)
    ensures r.data == InitialData
    ensures QuestionnaireKey !in r.storage && EmailCaptureKey !in r.storage
    ensures forall k :: k != QuestionnaireKey && k != EmailCaptureKey ==>
      (k in r.storage <==> k in m.storage) && (k in m.storage ==> r.storage[k] == m.storage[k])
  {
    Manager(InitialData, m.storage - {QuestionnaireKey, EmailCaptureKey})
  }

  // --- The email capture record

  /** The fields `saveEmailCapture` adds to the form. */
  const Stamps: set<string> := {"submittedAt", "webhookSent", "reportLink"}

  /** `saveEmailCapture(formData)`: the form's fields, then the submission time and fresh
      webhook and report flags (these three win over fields of the same name); an autosave;
      and the bare form stored under the email capture key. */
  function SaveEmailCapture(m: Manager, form: Object, now: string, codec: Json.Codec): (r: Manager)
    ensures r.data.email.Some?
    ensures var e := r.data.email.value;
      Json.Prop(e, "submittedAt") == Some(Json.JStr(now))
      && Json.Prop(e, "webhookSent") == Some(Json.JBool(false))
      && Json.Prop(e, "reportLink") == Some(Json.JNull)
      && (forall k :: k in form && k !in Stamps ==> Json.Prop(e, k) == Some(form[k]))
      && e.Keys == form.Keys + Stamps
    ensures r.data.(email := m.data.email) == m.data
    ensures EmailCaptureKey in r.storage && r.storage[EmailCaptureKey] == codec.stringify(Json.JObj(form))
    ensures QuestionnaireKey in r.storage
  {
    var email := Stamped(form, now);
    var saved := AutoSave(m.(data := m.data.(email := Some(email))), now, codec);
    saved.(storage := saved.storage[EmailCaptureKey := codec.stringify(Json.JObj(form))])
  }

  /** The form with the submission time and fresh webhook and report flags laid over it. */
  function Stamped(form: Object, now: string): (e: Object)
    ensures Json.Prop(e, "submittedAt") == Some(Json.JStr(now))
    ensures Json.Prop(e, "webhookSent") == Some(Json.JBool(false))
    ensures Json.Prop(e, "reportLink") == Some(Json.JNull)
    ensures forall k :: k in form && k !in Stamps ==> Json.Prop(e, k) == Some(form[k])
    ensures e.Keys == form.Keys + Stamps
  {
    form + map["submittedAt" := Json.JStr(now), "webhookSent" := Json.JBool(false), "reportLink" := Json.JNull]
  }

  /** `getEmailCaptureState()`: the email record, or `{}` without one. */
  function GetEmailCaptureState(m: Manager): (r: Object)
    ensures m.data.email.None? ==> r == map[]
  {
    if m.data.email.Some? then m.data.email.value else map[]
  }

  /** `isEmailSubmitted()`, read for its truthiness. */
  predicate IsEmailSubmitted(m: Manager) {
    m.data.email.Some? && Json.Truthy(Json.Prop(m.data.email.value, "submittedAt"))
  }

  /** `markWebhookSent()`: sets the flag and saves, and does nothing at all without a record. */
  function MarkWebhookSent(m: Manager, now: string, codec: Json.Codec): (r: Manager)
    ensures m.data.email.None? ==> r == m
    ensures m.data.email.Some? ==> r.data.email == Some(m.data.email.value["webhookSent" := Json.JBool(true)])
    ensures r.data.(email := m.data.email) == m.data
  {
    if m.data.email.Some? then
      AutoSave(m.(data := m.data.(email := Some(m.data.email.value["webhookSent" := Json.JBool(true)]))), now, codec)
    else m
  }

  /** `setReportLink(link)`: records the link and saves, and does nothing without a record. */
  function SetReportLink(m: Manager, link: Json.Json, now: string, codec: Json.Codec): (r: Manager)
    ensures m.data.email.None? ==> r == m
    ensures m.data.email.Some? ==> r.data.email == Some(m.data.email.value["reportLink" := link])
    ensures r.data.(email := m.data.email) == m.data
  {
    if m.data.email.Some? then
      AutoSave(m.(data := m.data.(email := Some(m.data.email.value["reportLink" := link]))), now, codec)
    else m
  }

  /** `saveEmail(email)` (the older entry point): sets the address on the record, creating an
      empty one first if needed, and saves. */
  function SaveEmail(m: Manager, email: Json.Json, now: string, codec: Json.Codec): (r: Manager)
    ensures r.data.email.Some? && Json.Prop(r.data.email.value, "email") == Some(email)
    ensures m.data.email.None? ==> r.data.email == Some(map["email" := email])
    ensures r.data.(email := m.data.email) == m.data
  {
    AutoSave(m.(data := m.data.(email := Some(GetEmailCaptureState(m)["email" := email]))), now, codec)
  }

  /** `hasPartialEmailData()`: whether the stored form has a truthy name or email. An absent or
      empty entry, text that does not parse, and a stored `null` (reading its name throws) all
      give false. */
  predicate HasPartialEmailData(storage: map<string, string>, codec: Json.Codec) {
    if EmailCaptureKey !in storage || storage[EmailCaptureKey] == "" then false
    else match codec.parse(storage[EmailCaptureKey])
      case None => false
      case Some(data) =>
        !data.JNull? && (Json.Truthy(Json.Get(data, "name")) || Json.Truthy(Json.Get(data, "email")))
  }

  /** `clearEmailData()`. */
  function ClearEmailData(m: Manager): (r: Manager)
    ensures r.data == m.data && EmailCaptureKey !in r.storage
    ensures forall k :: k != EmailCaptureKey ==> (k in r.storage <==> k in m.storage)
    ensures forall k :: k in r.storage ==> r.storage[k] == m.storage[k]
  {
    m.(storage := m.storage - {EmailCaptureKey})
  }

  /** After a form is saved, partial data is reported exactly when the form had a truthy name
      or email (given a lawful codec that prints the form as non-empty text). */
  lemma SavedFormIsPartial(m: Manager, form: Object, now: string, codec: Json.Codec)
    requires Json.Lawful(codec) && codec.stringify(Json.JObj(form)) != ""
    ensures HasPartialEmailData(SaveEmailCapture(m, form, now, codec).storage, codec)
        <==> Json.Truthy(Json.Prop(form, "name")) || Json.Truthy(Json.Prop(form, "email"))
  {
    var j := Json.JObj(form);
    assert codec.parse(codec.stringify(j)) == Some(j);
  }

  /** Clearing or resetting forgets any partial form. */
  lemma ClearedHasNoPartial(m: Manager, codec: Json.Codec)
    ensures !HasPartialEmailData(ClearEmailData(m).storage, codec)
    ensures !HasPartialEmailData(ResetData(m).storage, codec)
  {
  }

  /** Saving the form stamps it as submitted (for any non-empty time), the webhook flag and the
      report link leave that unchanged, and a reset forgets it. */
  lemma SubmittedAfterSave(m: Manager, form: Object, link: Json.Json, now: string, codec: Json.Codec)
    ensures IsEmailSubmitted(SaveEmailCapture(m, form, now, codec)) <==> now != ""
    ensures IsEmailSubmitted(MarkWebhookSent(m, now, codec)) == IsEmailSubmitted(m)
    ensures IsEmailSubmitted(SetReportLink(m, link, now, codec)) == IsEmailSubmitted(m)
    ensures !IsEmailSubmitted(ResetData(m))
  {
  }

  // --- Resume and webhook views

  datatype ResumeData = ResumeData(
    responses: Object,
    currentPage: Json.Json,
    email: Option<Object>,
    resumeToken: Json.Json,
    completedAt: Json.Json)

  /** `getResumeData()`: the attempt without its `lastSaved` stamp. */
  function GetResumeData(m: Manager): ResumeData {
    ResumeData(m.data.responses, m.data.currentPage, m.data.email, m.data.resumeToken, m.data.completedAt)
  }

  /** `resumeFromToken(token)`: the resume data when the token is strictly equal to the stored
      one, `null` otherwise. */
  function ResumeFromToken(m: Manager, token: Json.Json): (r: Option<ResumeData>)
    ensures r.Some? <==> token == m.data.resumeToken
    ensures r.Some? ==> r.value.responses == m.data.responses && r.value.email == m.data.email
  {
    var d := GetResumeData(m);
    if d.resumeToken == token then Some(d) else None
  }

  /** `generateResumeToken()`, given the token `generateSecureToken` drew: stores it and saves. */
  function GenerateResumeToken(m: Manager, token: string, now: string, codec: Json.Codec): (r: Manager)
    ensures r.data.resumeToken == Json.JStr(token)
    ensures r.data.(resumeToken := m.data.resumeToken) == m.data
  {
    AutoSave(m.(data := m.data.(resumeToken := Json.JStr(token))), now, codec)
  }

  /** After a token is generated, resuming succeeds with exactly that token. */
  lemma ResumeWithGeneratedToken(m: Manager, token: string, other: Json.Json, now: string, codec: Json.Codec)
    requires other != Json.JStr(token)
    ensures ResumeFromToken(GenerateResumeToken(m, token, now, codec), Json.JStr(token)).Some?
    ensures ResumeFromToken(GenerateResumeToken(m, token, now, codec), other).None?
  {
  }

  /** The constructor's initial record, before `loadSavedData` merges any saved questionnaire,
      holds a `null` token, so `resumeFromToken(null)` hands out the attempt. */
  lemma FreshManagerResumesOnNull(storage: map<string, string>)
    ensures ResumeFromToken(Manager(InitialData, storage), Json.JNull) == Some(GetResumeData(Manager(InitialData, storage)))
  {
  }

  /** `getWebhookData()`'s record; a field the attempt does not have is `undefined`. */
  datatype WebhookData = WebhookData(
    name: Option<Json.Json>,
    email: Option<Json.Json>,
    optInEmails: Option<Json.Json>,
    segment: Option<Json.Json>,
    teamSize: Option<Json.Json>,
    sentiment: Option<Json.Json>,
    pain: Option<Json.Json>,
    valuePerMonth: Option<Json.Json>,
    urgency: Option<Json.Json>,
    submittedAt: Option<Json.Json>)

  /** `getWebhookData()`: `null` without an email record, else the contact fields, six answers
      and the submission time. */
  function GetWebhookData(m: Manager): (r: Option<WebhookData>)
    ensures r.Some? <==> m.data.email.Some?
  {
    match m.data.email
    case None => None
    case Some(e) =>
      var answers := m.data.responses;
      Some(WebhookData(
        Json.Prop(e, "name"), Json.Prop(e, "email"), Json.Prop(e, "optInEmails"),
        Json.Prop(answers, "segment"), Json.Prop(answers, "teamSize"), Json.Prop(answers, "sentiment"),
        Json.Prop(answers, "pain"), Json.Prop(answers, "valuePerMonth"), Json.Prop(answers, "urgency"),
        Json.Prop(e, "submittedAt")))
  }

  /** A saved form reaches the webhook record: its name, email and opt-in, the current answers,
      and the time of saving (never a `submittedAt` the form itself carried). */
  lemma SavedFormReachesWebhook(m: Manager, form: Object, now: string, codec: Json.Codec)
    ensures var w := GetWebhookData(SaveEmailCapture(m, form, now, codec));
      w.Some?
      && w.value.name == Json.Prop(form, "name")
      && w.value.email == Json.Prop(form, "email")
      && w.value.optInEmails == Json.Prop(form, "optInEmails")
      && w.value.segment == Json.Prop(m.data.responses, "segment")
      && w.value.urgency == Json.Prop(m.data.responses, "urgency")
      && w.value.submittedAt == Some(Json.JStr(now))
  {
    var e := SaveEmailCapture(m, form, now, codec).data.email.value;
    StampedField(form, e, "name");
    StampedField(form, e, "email");
    StampedField(form, e, "optInEmails");
  }

  /** A field other than the three stamps reads the same in the saved record as in the form. */
  lemma StampedField(form: Object, e: Object, k: string)
    requires e.Keys == form.Keys + Stamps
    requires forall k :: k in form && k !in Stamps ==> Json.Prop(e, k) == Some(form[k])
    requires k !in Stamps
    ensures Json.Prop(e, k) == Json.Prop(form, k)
  {
  }

  /** Marking the webhook sent or attaching a report link does not change the webhook record. */
  lemma FlagsLeaveWebhookData(m: Manager, link: Json.Json, now: string, codec: Json.Codec)
    ensures GetWebhookData(MarkWebhookSent(m, now, codec)) == GetWebhookData(m)
    ensures GetWebhookData(SetReportLink(m, link, now, codec)) == GetWebhookData(m)
  {
  }

  /** After a reset there is no email record and so no webhook record, whatever came before. */
  lemma ResetForgets(m: Manager, n: Manager)
    ensures ResetData(m).data == ResetData(n).data
    ensures GetWebhookData(ResetData(m)).None?
    ensures GetAllResponses(ResetData(m)) == map[]
  {
  }

  // --- Tokens

  /** `n` consecutive characters from `first` on. */
  function Run(first: char, n: nat): (r: string)
    requires first as int + n <= 0xD800
    ensures |r| == n && forall i :: 0 <= i < n ==> r[i] as int == first as int + i
  {
    if n == 0 then "" else Run(first, n - 1) + [(first as int + n - 1) as char]
  }

  /** The source's `chars`: the upper-case letters, the lower-case letters, the digits. */
  const TokenAlphabet: string := Run('A', Letters) + Run('a', Letters) + Run('0', Digits)
  const Letters := 26
  const Digits := 10
  const TokenLength := 32

  predicate AlphaNumeric(c: char) {
    ('A' <= c <= 'Z') || ('a' <= c <= 'z') || ('0' <= c <= '9')
  }

  /** The alphabet has 62 characters, all of them ASCII letters or digits. */
  lemma AlphabetShape()
    ensures |TokenAlphabet| == 62
    ensures forall i :: 0 <= i < |TokenAlphabet| ==> AlphaNumeric(TokenAlphabet[i])
  {
    forall i | 0 <= i < |TokenAlphabet| ensures AlphaNumeric(TokenAlphabet[i]) {
      if i < 26 {
        assert TokenAlphabet[i] == Run('A', 26)[i];
      } else if i < 52 {
        assert TokenAlphabet[i] == Run('a', 26)[i - 26];
      } else {
        assert TokenAlphabet[i] == Run('0', 10)[i - 52];
      }
    }
  }

  /** The alphabet has no repeated character, so each of the 62 draws' slots is a different
      character. */
  lemma AlphabetDistinct()
    ensures forall i, j :: 0 <= i < j < |TokenAlphabet| ==> TokenAlphabet[i] != TokenAlphabet[j]
  {
    forall i, j | 0 <= i < j < |TokenAlphabet| ensures TokenAlphabet[i] != TokenAlphabet[j] {
      assert TokenAlphabet[i] as int < TokenAlphabet[j] as int || (i < 26 <= j) || (i < 52 <= j) by {
        if j < 26 {
          assert TokenAlphabet[i] == Run('A', 26)[i] && TokenAlphabet[j] == Run('A', 26)[j];
        } else if 26 <= i && j < 52 {
          assert TokenAlphabet[i] == Run('a', 26)[i - 26] && TokenAlphabet[j] == Run('a', 26)[j - 26];
        } else if 52 <= i {
          assert TokenAlphabet[i] == Run('0', 10)[i - 52] && TokenAlphabet[j] == Run('0', 10)[j - 52];
        }
      }
      AlphabetClass(i);
      AlphabetClass(j);
    }
  }

  /** Which class of character each slot of the alphabet holds. */
  lemma AlphabetClass(i: int)
    requires 0 <= i < 62
    ensures i < 26 ==> 'A' <= TokenAlphabet[i] <= 'Z' && TokenAlphabet[i] as int == 'A' as int + i
    ensures 26 <= i < 52 ==> 'a' <= TokenAlphabet[i] <= 'z' && TokenAlphabet[i] as int == 'a' as int + i - 26
    ensures 52 <= i ==> '0' <= TokenAlphabet[i] <= '9' && TokenAlphabet[i] as int == '0' as int + i - 52
  {
    if i < 26 {
      assert TokenAlphabet[i] == Run('A', 26)[i];
    } else if i < 52 {
      assert TokenAlphabet[i] == Run('a', 26)[i - 26];
    } else {
      assert TokenAlphabet[i] == Run('0', 10)[i - 52];
    }
  }

  /** The character at slot `i` of the alphabet, by arithmetic on the three runs. */
  function AlphabetChar(i: nat): (c: char)
    requires i < 62
    ensures AlphaNumeric(c)
  {
    if i < 26 then ('A' as int + i) as char
    else if i < 52 then ('a' as int + i - 26) as char
    else ('0' as int + i - 52) as char
  }

  /** The slots of the alphabet hold the characters `AlphabetChar` computes. */
  lemma AlphabetAt(i: int)
    requires 0 <= i < 62
    ensures i < |TokenAlphabet| && TokenAlphabet[i] == AlphabetChar(i)
  {
    AlphabetShape();
    AlphabetClass(i);
  }

  /** The character `chars.charAt(Math.floor(r * chars.length))` for a draw `r` in [0, 1). */
  function Pick(r: real): (c: char)
    requires 0.0 <= r < 1.0
    ensures AlphaNumeric(c)
  {
    AlphabetChar(Slot(r))
  }

  /** A draw picks the alphabet's character at the slot the draw falls in. */
  lemma PickFromAlphabet(r: real)
    requires 0.0 <= r < 1.0
    ensures Slot(r) < |TokenAlphabet| && Pick(r) == TokenAlphabet[Slot(r)]
  {
    AlphabetAt(Slot(r));
  }

  /** `Math.floor(r * chars.length)`: a draw in [0, 1) picks one of the 62 positions. */
  function Slot(r: real): (i: nat)
    requires 0.0 <= r < 1.0
    ensures i < 62 && i as real <= r * 62.0 < i as real + 1.0
  {
    assert 0.0 <= r * 62.0 < 62.0;
    (r * 62.0).Floor
  }

  /** `generateSecureToken()`: 32 characters drawn from the alphabet, one per draw of
      `Math.random`. */
  method GenerateSecureToken(draws: seq<real>) returns (token: string)
    requires |draws| >= TokenLength
    requires forall i :: 0 <= i < |draws| ==> 0.0 <= draws[i] < 1.0
    ensures |token| == TokenLength
    ensures forall i :: 0 <= i < TokenLength ==> AlphaNumeric(token[i]) && token[i] == Pick(draws[i])
  {
    token := "";
    var i := 0;
    while i < TokenLength
      invariant 0 <= i <= TokenLength && |token| == i
      invariant forall j :: 0 <= j < i ==> token[j] == Pick(draws[j])
    {
      token := token + [Pick(draws[i])];
      i := i + 1;
    }
  }
}

=== FILE: email.dfy ===
/** The email service (web/lib/email.ts): the report email's template, and `sendEmail`'s
    branches around the Resend API. The HTTP call is a parameter that maps the request to what
    came back; the environment variables are an argument. */
module Email {
  import opened Wrappers
  import Text

  /** The message handed to `sendEmail`. */
  datatype EmailOptions = EmailOptions(to: string, subject: string, html: string, text: Option<string>,
                                       from: Option<string>)

  datatype EmailResult = EmailResult(success: bool, messageId: Option<string>, error: Option<string>)

  /** `EMAIL_SERVICE_API_KEY`, `EMAIL_FROM` and `NEXT_PUBLIC_APP_URL`. */
  datatype EmailEnv = EmailEnv(apiKey: Option<string>, emailFrom: Option<string>, appUrl: Option<string>)

  // --- The template

  const Subject := "Your Personalized AI Automation Report"
  const DefaultAppUrl := "http://localhost:3000"
  const ResultPage := "/quiz/result"

  /** The greeting both bodies open with, and the lead-in of the plain text's link line. */
  const Greeting := "Hi "
  const LinkLead := "View your complete report here: "

  /** The fixed text of a body around its values: before the greeting, between the name and the
      segment, between the segment and the link slot, and after the link slot. */
  datatype Layout = Layout(beforeGreeting: string, beforeSegment: string, beforeLink: string, after: string)

  /** The fixed wording of both bodies. */
  datatype Layouts = Layouts(html: Layout, text: Layout)

  /** A body: the layout with the greeting and name, the segment and the link slot filled in. */
  function Fill(l: Layout, name: string, segment: string, slot: string): string {
    l.beforeGreeting + Greeting + name + l.beforeSegment + segment + l.beforeLink + slot + l.after
  }

  /** The wording of the real template. The plain text's link slot holds its link line, lead-in and
      link. */
  function RealLayouts(): Layouts {
    Layouts(HtmlLayout(), TextLayout())
  }

  function HtmlLayout(): Layout {
    Layout(
      "\n" +
      "    <div style=\"max-width: 600px; margin: 0 auto; font-family: Arial, sans-serif;\">\n" +
      "      <h1 style=\"color: #333; margin-bottom: 20px;\">",
      "! \U{1F44B}</h1>\n" +
      "      \n" +
      "      <p style=\"font-size: 16px; line-height: 1.6; color: #555;\">\n" +
      "        Thanks for completing your AI readiness assessment! Here's your personalized automation report.\n" +
      "      </p>\n" +
      "      \n" +
      "      <div style=\"background: #f8f9fa; padding: 20px; border-radius: 8px; margin: 20px 0;\">\n" +
      "        <h3 style=\"margin-top: 0; color: #333;\">Your Results Summary</h3>\n" +
      "        <p><strong>Business Segment:</strong> ",
      "</p>\n" +
      "        <p><strong>Report Status:</strong> Ready for download</p>\n" +
      "      </div>\n" +
      "      \n" +
      "      <div style=\"text-align: center; margin: 30px 0;\">\n" +
      "        <a href=\"",
      "\" \n" +
      "           style=\"background: linear-gradient(45deg, #3b82f6, #8b5cf6); color: white; padding: 15px 30px; \n" +
      "                  text-decoration: none; border-radius: 8px; font-weight: bold; display: inline-block;\">\n" +
      "          View Your Complete Report\n" +
      "        </a>\n" +
      "      </div>\n" +
      "      \n" +
      "      <p style=\"font-size: 14px; color: #666; line-height: 1.6;\">\n" +
      "        <strong>Important:</strong> This link will expire in 7 days for security. If you need to access your \n" +
      "        report again, simply visit our website and complete the assessment.\n" +
      "      </p>\n" +
      "      \n" +
      "      <div style=\"background: #e8f4f8; padding: 15px; border-radius: 8px; margin: 20px 0;\">\n" +
      "        <h4 style=\"margin-top: 0; color: #333;\">\U{1F680} What's Next?</h4>\n" +
      "        <ul style=\"margin: 0; padding-left: 20px; color: #555;\">\n" +
      "          <li>Download your personalized automation plan</li>\n" +
      "          <li>Join our exclusive AI automation community</li>\n" +
      "          <li>Get actionable steps to start automating today</li>\n" +
      "        </ul>\n" +
      "      </div>\n" +
      "      \n" +
      "      <hr style=\"border: none; border-top: 1px solid #eee; margin: 30px 0;\">\n" +
      "      \n" +
      "      <p style=\"font-size: 12px; color: #999; text-align: center;\">\n" +
      "        If you have any questions, just reply to this email. We're here to help! <br>\n" +
      "        \U{00A9} 2024 AI Automation Assessment. All rights reserved.\n" +
      "      </p>\n" +
      "    </div>\n" +
      "  ")
  }

  function TextLayout(): Layout {
    Layout(
      "\n",
      "!\n" +
      "\n" +
      "Thanks for completing your AI readiness assessment! Here's your personalized automation report.\n" +
      "\n" +
      "Your Results Summary:\n" +
      "- Business Segment: ",
      "\n" +
      "- Report Status: Ready for download\n" +
      "\n",
      "\n" +
      "\n" +
      "Important: This link will expire in 7 days for security.\n" +
      "\n" +
      "What's Next?\n" +
      "- Download your personalized automation plan\n" +
      "- Join our exclusive AI automation community\n" +
      "- Get actionable steps to start automating today\n" +
      "\n" +
      "If you have any questions, just reply to this email. We're here to help!\n" +
      "\n" +
      "\U{00A9} 2024 AI Automation Assessment. All rights reserved.\n" +
      "  ")
  }

  /** `${appUrl}/quiz/result?${secureLink}`, with the application's address defaulting to the local one. */
  function FullLink(appUrl: Option<string>, secureLink: string): (r: string)
    ensures var base := TextOr(appUrl, DefaultAppUrl); |r| >= |base| && r[..|base|] == base
    ensures Text.IsInfix(secureLink, r)
  {
    var link := TextOr(appUrl, DefaultAppUrl) + ResultPage + "?" + secureLink;
    Text.InfixOfConcat(TextOr(appUrl, DefaultAppUrl) + ResultPage + "?", secureLink, "");
    assert link + "" == link;
    link
  }

  /** The query the report page receives: everything after the first `?` of its address. */
  function Query(url: string): (q: Option<string>)
    ensures q.Some? <==> '?' in url
    ensures q.Some? ==> |q.value| < |url| && url[|url| - |q.value|..] == q.value
  {
    if url == [] then None
    else if url[0] == '?' then Some(url[1..])
    else Query(url[1..])
  }

  /** With an application address that has no `?`, the report page is handed exactly the secure
      link as its query. */
  lemma {:induction false} LinkReachesReportPage(appUrl: Option<string>, secureLink: string)
    requires '?' !in TextOr(appUrl, DefaultAppUrl)
    ensures Query(FullLink(appUrl, secureLink)) == Some(secureLink)
  {
    var base := TextOr(appUrl, DefaultAppUrl);
    assert '?' !in ResultPage by {
      assert forall i :: 0 <= i < |ResultPage| ==> ResultPage[i] != '?';
    }
    var p := base + ResultPage;
    assert forall i :: 0 <= i < |p| ==> p[i] == if i < |base| then base[i] else ResultPage[i - |base|];
    QueryAfterPlain(p, secureLink);
  }

  lemma {:induction false} QueryAfterPlain(p: string, q: string)
    requires '?' !in p
    ensures Query(p + "?" + q) == Some(q)
  {
    var u := p + "?" + q;
    if p == [] {
      assert u == "?" + q;
      assert u[0] == '?' && u[1..] == q;
    } else {
      assert u[0] == p[0] && u[1..] == p[1..] + "?" + q;
      QueryAfterPlain(p[1..], q);
    }
  }

  /** `generateEmailTemplate({name, secureLink, segment})` with the given wording (`RealLayouts()`
      is the real one): the recipient is left empty for the caller, the subject is fixed, both
      bodies greet by name and show the segment, the HTML body links to the full link and the plain
      text gives it on its link line. */
  function GenerateEmailTemplate(name: string, secureLink: string, segment: string, env: EmailEnv,
                                 layouts: Layouts): (r: EmailOptions)
    ensures r.to == "" && r.subject == Subject && r.from.None? && r.text.Some?
    ensures var link := FullLink(env.appUrl, secureLink);
      Text.IsInfix(link, r.html) && Text.IsInfix(LinkLead + link, r.text.value)
    ensures Text.IsInfix(Greeting + name, r.html) && Text.IsInfix(Greeting + name, r.text.value)
    ensures Text.IsInfix(segment, r.html) && Text.IsInfix(segment, r.text.value)
  {
    var link := FullLink(env.appUrl, secureLink);
    FilledParts(layouts.html, name, segment, link);
    FilledParts(layouts.text, name, segment, LinkLead + link);
    EmailOptions("", Subject, Fill(layouts.html, name, segment, link),
                 Some(Fill(layouts.text, name, segment, LinkLead + link)), None)
  }

  /** A filled body contains the greeting with the name, the segment and the link slot. */
  lemma FilledParts(l: Layout, name: string, segment: string, slot: string)
    ensures Text.IsInfix(Greeting + name, Fill(l, name, segment, slot))
    ensures Text.IsInfix(segment, Fill(l, name, segment, slot))
    ensures Text.IsInfix(slot, Fill(l, name, segment, slot))
  {
    var body := Fill(l, name, segment, slot);
    var afterName := l.beforeSegment + segment + l.beforeLink + slot + l.after;
    assert body == l.beforeGreeting + (Greeting + name) + afterName;
    Text.InfixOfConcat(l.beforeGreeting, Greeting + name, afterName);
    var front := l.beforeGreeting + Greeting + name + l.beforeSegment;
    assert body == front + segment + (l.beforeLink + slot + l.after);
    Text.InfixOfConcat(front, segment, l.beforeLink + slot + l.after);
    assert body == (front + segment + l.beforeLink) + slot + l.after;
    Text.InfixOfConcat(front + segment + l.beforeLink, slot, l.after);
  }

  // --- Sending

  /** The request sent to the Resend API. */
  datatype ResendRequest = ResendRequest(apiKey: string, from: string, to: seq<string>, subject: string,
                                         html: string, text: Option<string>)

  /** What `(await response.json()).id` gives: the id, possibly missing, or the message of what
      reading it throws. */
  datatype IdRead = Id(id: Option<string>) | ReadThrew(message: string)

  /** How the call to the Resend API ends: it throws (an `Error` with its message, or some other
      value), or a response comes back. */
  datatype SendOutcome =
    | FetchThrew(message: Option<string>)
    | Responded(ok: bool, status: int, errorText: string, body: IdRead)

  const DefaultFrom := "noreply@example.com"
  const ConsoleMessageId := "console-logged"
  const UnknownError := "Unknown email error"

  /** `options.from || process.env.EMAIL_FROM || 'noreply@example.com'`. */
  function FromAddress(options: EmailOptions, env: EmailEnv): (r: string)
    ensures options.from.Some? && options.from.value != "" ==> r == options.from.value
    ensures TextOr(options.from, "") == "" && env.emailFrom.Some? && env.emailFrom.value != "" ==> r == env.emailFrom.value
    ensures TextOr(options.from, "") == "" && TextOr(env.emailFrom, "") == "" ==> r == DefaultFrom
  {
    TextOr(options.from, TextOr(env.emailFrom, DefaultFrom))
  }

  /** The request `sendEmail` makes with a configured key. */
  function Request(options: EmailOptions, env: EmailEnv, key: string): ResendRequest {
    ResendRequest(key, FromAddress(options, env), [options.to], options.subject, options.html, options.text)
  }

  /** `sendEmail(options)`: without an API key the email is only logged, and reported sent; with
      one, the result of the Resend call, every failure turned into an error result. */
  function SendEmail(options: EmailOptions, env: EmailEnv, send: ResendRequest -> SendOutcome): (r: EmailResult)
    ensures TextOr(env.apiKey, "") == "" ==> r == EmailResult(true, Some(ConsoleMessageId), None)
    ensures TextOr(env.apiKey, "") != "" ==>
      var outcome := send(Request(options, env, env.apiKey.value));
      && (r.success <==> outcome.Responded? && outcome.ok && outcome.body.Id?)
      && (r.success ==> r == EmailResult(true, outcome.body.id, None))
      && (!r.success ==> r.messageId.None? && r.error.Some?)
    ensures r.success || r.error.Some?
  {
    if TextOr(env.apiKey, "") == "" then
      EmailResult(true, Some(ConsoleMessageId), None)
    else
      match send(Request(options, env, env.apiKey.value))
      case FetchThrew(message) => EmailResult(false, None, Some(message.GetOr(UnknownError)))
      case Responded(ok, status, errorText, body) =>
        if !ok then
          EmailResult(false, None, Some("Resend API error: " + Text.IntToDecimal(status) + " - " + errorText))
        else
          match body
          case Id(id) => EmailResult(true, id, None)
          case ReadThrew(message) => EmailResult(false, None, Some(message))
  }

  /** A response that is not ok becomes an error naming its status and body text. */
  lemma RejectedSendNamesStatus(options: EmailOptions, env: EmailEnv, send: ResendRequest -> SendOutcome)
    requires TextOr(env.apiKey, "") != ""
    requires var o := send(Request(options, env, env.apiKey.value)); o.Responded? && !o.ok
    ensures var o := send(Request(options, env, env.apiKey.value));
      SendEmail(options, env, send).error == Some("Resend API error: " + Text.IntToDecimal(o.status) + " - " + o.errorText)
  {
  }

  /** Without a key nothing is sent: the outcome does not depend on the API at all. */
  lemma UnconfiguredIgnoresApi(options: EmailOptions, env: EmailEnv, s1: ResendRequest -> SendOutcome,
                               s2: ResendRequest -> SendOutcome)
    requires TextOr(env.apiKey, "") == ""
    ensures SendEmail(options, env, s1) == SendEmail(options, env, s2)
  {
  }

  /** The request carries the message as given, addressed to the one recipient. */
  lemma RequestCarriesMessage(options: EmailOptions, env: EmailEnv, key: string)
    ensures var q := Request(options, env, key);
      q.to == [options.to] && q.subject == options.subject && q.html == options.html && q.text == options.text
      && q.apiKey == key && q.from != ""
  {
  }
}

=== FILE: email_report.dfy ===
/** The report-email endpoint (web/app/api/email-report/route.ts): it checks the request, fills
    in the template for the requested recipient and reports how sending went. */
module EmailReport {
  import opened Wrappers
  import Json
  import Email
  import Text

  /** What the endpoint answers: the message id of a sent email, or an error with its status. */
  datatype ReportResponse = ReportSent(messageId: Option<string>) | ReportError(status: int, error: string)

  function Status(r: ReportResponse): int {
    match r
    case ReportSent(_) => 200
    case ReportError(status, _) => status
  }

  const MissingFields := "Missing required fields"
  const SendFailed := "Failed to send email"
  const InternalError := "Internal server error"

  /** The four fields the request must carry. */
  datatype Fields = Fields(to: Option<Json.Json>, name: Option<Json.Json>, secureLink: Option<Json.Json>,
                           segment: Option<Json.Json>)

  /** `const { to, name, secureLink, segment } = body` on a body that is not null. */
  function Destructure(body: Json.Json): (f: Fields)
    requires !body.JNull?
    ensures f.to == Json.Get(body, "to") && f.name == Json.Get(body, "name")
    ensures f.secureLink == Json.Get(body, "secureLink") && f.segment == Json.Get(body, "segment")
  {
    Fields(Json.Get(body, "to"), Json.Get(body, "name"), Json.Get(body, "secureLink"), Json.Get(body, "segment"))
  }

  predicate Complete(f: Fields) {
    Json.Truthy(f.to) && Json.Truthy(f.name) && Json.Truthy(f.secureLink) && Json.Truthy(f.segment)
  }

  /** The email the endpoint sends: the template for the request's name, link and segment, with the
      recipient set to the requested one. Values enter the template as `String(value)` does. */
  function ReportEmail(f: Fields, env: Email.EmailEnv, layouts: Email.Layouts): (o: Email.EmailOptions)
    ensures o.to == Json.ToJsString(f.to)
    ensures var t := Email.GenerateEmailTemplate(Json.ToJsString(f.name), Json.ToJsString(f.secureLink),
                                                 Json.ToJsString(f.segment), env, layouts);
      o.subject == t.subject && o.html == t.html && o.text == t.text && o.from == t.from
  {
    var t := Email.GenerateEmailTemplate(Json.ToJsString(f.name), Json.ToJsString(f.secureLink),
                                         Json.ToJsString(f.segment), env, layouts);
    t.(to := Json.ToJsString(f.to))
  }

  /** `POST` on the request body (`None` where `request.json()` throws). A body that cannot be read
      or is null ends in the catch-all error; a missing or falsy field is refused before anything
      is sent; otherwise the answer follows `sendEmail`'s result. */
  function Post(body: Option<Json.Json>, env: Email.EmailEnv, layouts: Email.Layouts,
                send: Email.ResendRequest -> Email.SendOutcome): (r: ReportResponse)
    ensures (body.None? || body == Some(Json.JNull)) ==> r == ReportError(500, InternalError)
    ensures body.Some? && !body.value.JNull? ==>
      var f := Destructure(body.value);
      && (!Complete(f) ==> r == ReportError(400, MissingFields))
      && (Complete(f) ==>
            var result := Email.SendEmail(ReportEmail(f, env, layouts), env, send);
            && (r.ReportSent? <==> result.success)
            && (r.ReportSent? ==> r.messageId == result.messageId)
            && (r.ReportError? ==> r.status == 500 && r.error != ""))
  {
    match body
    case None => ReportError(500, InternalError)
    case Some(b) =>
      if b.JNull? then ReportError(500, InternalError)
      else
        var f := Destructure(b);
        if !Complete(f) then ReportError(400, MissingFields)
        else
          var result := Email.SendEmail(ReportEmail(f, env, layouts), env, send);
          if !result.success then ReportError(500, TextOr(result.error, SendFailed))
          else ReportSent(result.messageId)
  }

  /** A failed send passes the service's error on, or the generic one when it gave none. */
  lemma FailureCarriesError(body: Json.Json, env: Email.EmailEnv, layouts: Email.Layouts,
                            send: Email.ResendRequest -> Email.SendOutcome)
    requires !body.JNull? && Complete(Destructure(body))
    requires !Email.SendEmail(ReportEmail(Destructure(body), env, layouts), env, send).success
    ensures var result := Email.SendEmail(ReportEmail(Destructure(body), env, layouts), env, send);
      Post(Some(body), env, layouts, send) == ReportError(500, TextOr(result.error, SendFailed))
  {
  }

  /** Without an API key every complete request is answered as sent with the logged id. */
  lemma UnconfiguredReportsLogged(body: Json.Json, env: Email.EmailEnv, layouts: Email.Layouts,
                                  send: Email.ResendRequest -> Email.SendOutcome)
    requires !body.JNull? && Complete(Destructure(body))
    requires TextOr(env.apiKey, "") == ""
    ensures Post(Some(body), env, layouts, send) == ReportSent(Some(Email.ConsoleMessageId))
  {
  }

  /** With a key, the email reaches the API addressed to the requested recipient, and its plain
      text carries the full link on its link line. */
  lemma SentToRequestedRecipient(f: Fields, env: Email.EmailEnv, layouts: Email.Layouts, key: string)
    ensures var q := Email.Request(ReportEmail(f, env, layouts), env, key);
      q.to == [Json.ToJsString(f.to)]
      && q.text.Some?
      && Text.IsInfix(Email.LinkLead + Email.FullLink(env.appUrl, Json.ToJsString(f.secureLink)), q.text.value)
  {
  }
}

=== FILE: form_urlencoded.dfy ===
/**
 * The `application/x-www-form-urlencoded` format behind `URLSearchParams`, as section 5 of the
 * WHATWG URL Standard defines it: the serializer (section 5.2) that `toString()` uses and the
 * parser (section 5.1) that the string constructor uses.
 *
 * Decoding UTF-8 is a parameter: the parser hands each percent-decoded byte sequence to it.
 * The round trip is proved for every decoder that inverts `Utf8Encode`.
 */
module FormUrlencoded {
  import opened Wrappers
  import Text

  type Byte = x: int | 0 <= x < 256

  type Pair = (string, string)

  // --- UTF-8 encoding (section 3 of RFC 3629) ----------------------------------------------

  /** The UTF-8 encoding of one scalar value: one to four bytes. */
  function Utf8EncodeChar(c: char): (r: seq<Byte>)
    ensures 1 <= |r| <= 4
    ensures (c as int < 0x80) <==> |r| == 1
    ensures |r| == 1 ==> r[0] == c as int
    ensures |r| > 1 ==> forall i :: 0 <= i < |r| ==> r[i] >= 0x80
  {
    var n := c as int;
    if n < 0x80 then [n]
    else if n < 0x800 then [0xC0 + n / 0x40, 0x80 + n % 0x40]
    else if n < 0x1_0000 then [0xE0 + n / 0x1000, 0x80 + (n / 0x40) % 0x40, 0x80 + n % 0x40]
    else [0xF0 + n / 0x4_0000, 0x80 + (n / 0x1000) % 0x40, 0x80 + (n / 0x40) % 0x40, 0x80 + n % 0x40]
  }

  function Utf8Encode(s: string): (r: seq<Byte>)
    ensures |r| >= |s|
  {
    if |s| == 0 then [] else Utf8EncodeChar(s[0]) + Utf8Encode(s[1..])
  }

  lemma {:induction false} Utf8EncodeConcat(a: string, b: string)
    ensures Utf8Encode(a + b) == Utf8Encode(a) + Utf8Encode(b)
    decreases |a|
  {
    if |a| == 0 {
      assert a + b == b;
    } else {
      assert (a + b)[0] == a[0];
      assert (a + b)[1..] == a[1..] + b;
      Utf8EncodeConcat(a[1..], b);
    }
  }

  /** A decoder that gives back every string whose encoding it is handed. */
  ghost predicate Utf8Lawful(decode: seq<Byte> -> string) {
    forall s :: decode(Utf8Encode(s)) == s
  }

  // --- Bytes and hexadecimal digits --------------------------------------------------------

  const Percent: Byte := 0x25
  const Plus: Byte := 0x2B
  const Space: Byte := 0x20

  /** The bytes the serializer leaves as they are: `*`, `-`, `.`, `_`, digits and letters. */
  predicate Unreserved(b: Byte) {
    b == 0x2A || b == 0x2D || b == 0x2E || b == 0x5F
    || (0x30 <= b <= 0x39) || (0x41 <= b <= 0x5A) || (0x61 <= b <= 0x7A)
  }

  predicate IsHexByte(b: Byte) {
    (0x30 <= b <= 0x39) || (0x41 <= b <= 0x46) || (0x61 <= b <= 0x66)
  }

  function HexByteValue(b: Byte): (v: nat)
    requires IsHexByte(b)
    ensures v < 16
  {
    if b <= 0x39 then b - 0x30 else if b <= 0x46 then b - 0x41 + 10 else b - 0x61 + 10
  }

  /** The upper-case hexadecimal digit for `d`. */
  function HexDigit(d: nat): (c: char)
    requires d < 16
    ensures 0x30 <= c as int <= 0x46 && IsHexByte(c as int) && HexByteValue(c as int) == d
  {
    "0123456789ABCDEF"[d]
  }

  // --- Serializer (section 5.2) ------------------------------------------------------------

  /** One byte of a name or value: unreserved bytes as themselves, a space as `+`, any
      other byte as `%` and two upper-case hexadecimal digits. */
  function SerializeByte(b: Byte): (r: string)
    ensures |r| == 1 || |r| == 3
    ensures forall i :: 0 <= i < |r| ==> r[i] as int < 0x80 && r[i] != '&' && r[i] != '='
  {
    if Unreserved(b) then [b as char]
    else if b == Space then "+"
    else ['%', HexDigit(b / 16), HexDigit(b % 16)]
  }

  function SerializeBytes(bs: seq<Byte>): (r: string)
    ensures forall i :: 0 <= i < |r| ==> r[i] as int < 0x80 && r[i] != '&' && r[i] != '='
  {
    if |bs| == 0 then "" else SerializeByte(bs[0]) + SerializeBytes(bs[1..])
  }

  /** A name or a value as it appears in the serialized output. */
  function SerializeText(s: string): (r: string)
    ensures forall i :: 0 <= i < |r| ==> r[i] != '&' && r[i] != '='
  {
    SerializeBytes(Utf8Encode(s))
  }

  function SerializePair(p: Pair): (r: string)
    ensures '=' in r && '&' !in r
  {
    var r := SerializeText(p.0) + "=" + SerializeText(p.1);
    assert r[|SerializeText(p.0)|] == '=';
    r
  }

  /** `URLSearchParams.prototype.toString()`: the serialized pairs joined by `&`. */
  function Serialize(pairs: seq<Pair>): (r: string)
    ensures |pairs| == 0 <==> r == ""
  {
    if |pairs| == 0 then ""
    else if |pairs| == 1 then SerializePair(pairs[0])
    else SerializePair(pairs[0]) + "&" + Serialize(pairs[1..])
  }

  // --- Parser (section 5.1) ----------------------------------------------------------------

  /** The position of the first `d` in `s`. */
  function IndexOf(s: string, d: char): (r: Option<nat>)
    ensures r.None? <==> d !in s
    ensures r.Some? ==> r.value < |s| && s[r.value] == d && d !in s[..r.value]
  {
    if |s| == 0 then None
    else if s[0] == d then Some(0)
    else match IndexOf(s[1..], d)
      case None => None
      case Some(i) => assert s[1..][..i] == s[1..i + 1]; Some(i + 1)
  }

  function PlusToSpace(bs: seq<Byte>): (r: seq<Byte>)
    ensures |r| == |bs|
    ensures forall i :: 0 <= i < |bs| ==> r[i] == if bs[i] == Plus then Space else bs[i]
  {
    if |bs| == 0 then [] else [if bs[0] == Plus then Space else bs[0]] + PlusToSpace(bs[1..])
  }

  /** Percent-decoding (section 1.3 of the URL Standard): `%` and two hexadecimal digits
      become the byte they spell; every other byte, a stray `%` included, is kept. */
  function PercentDecode(bs: seq<Byte>): (r: seq<Byte>)
    ensures |r| <= |bs|
  {
    if |bs| == 0 then []
    else if bs[0] == Percent && |bs| >= 3 && IsHexByte(bs[1]) && IsHexByte(bs[2]) then
      [HexByteValue(bs[1]) * 16 + HexByteValue(bs[2])] + PercentDecode(bs[3..])
    else [bs[0]] + PercentDecode(bs[1..])
  }

  /** A name or value as the parser recovers it: `+` to space, percent-decoded, UTF-8 decoded.
      The parser splits the UTF-8 bytes of its input on `&` and `=`; as those are ASCII and
      UTF-8 never uses an ASCII byte inside a multi-byte sequence, splitting the characters
      first and encoding each piece gives the same bytes. */
  function DecodeText(s: string, decode: seq<Byte> -> string): string {
    decode(PercentDecode(PlusToSpace(Utf8Encode(s))))
  }

  /** One non-empty piece between `&`s: the name up to the first `=` and the value after it,
      or the whole piece as the name and an empty value. */
  function ParsePiece(piece: string, decode: seq<Byte> -> string): (p: Pair)
    ensures '=' !in piece ==> p == (DecodeText(piece, decode), DecodeText("", decode))
  {
    match IndexOf(piece, '=')
    case None => (DecodeText(piece, decode), DecodeText("", decode))
    case Some(i) => (DecodeText(piece[..i], decode), DecodeText(piece[i + 1..], decode))
  }

  function ParsePieces(pieces: seq<string>, decode: seq<Byte> -> string): (r: seq<Pair>)
    ensures |r| <= |pieces|
  {
    if |pieces| == 0 then []
    else if pieces[0] == "" then ParsePieces(pieces[1..], decode)
    else [ParsePiece(pieces[0], decode)] + ParsePieces(pieces[1..], decode)
  }

  /** The parser: the input's `&`-separated pieces, empty ones skipped, each split into a pair. */
  function Parse(input: string, decode: seq<Byte> -> string): seq<Pair> {
    ParsePieces(Text.Split(input, '&'), decode)
  }

  /** `new URLSearchParams(init)` with a string: a leading `?` is dropped before parsing. */
  function FromString(init: string, decode: seq<Byte> -> string): (r: seq<Pair>)
    ensures |init| > 0 && init[0] == '?' ==> r == Parse(init[1..], decode)
    ensures (|init| == 0 || init[0] != '?') ==> r == Parse(init, decode)
  {
    if |init| > 0 && init[0] == '?' then Parse(init[1..], decode) else Parse(init, decode)
  }

  /** `URLSearchParams.prototype.get(name)`: the value of the first pair named `name`. */
  function Get(pairs: seq<Pair>, name: string): (r: Option<string>)
    ensures r.None? <==> forall i :: 0 <= i < |pairs| ==> pairs[i].0 != name
    ensures r.Some? ==> (exists i :: 0 <= i < |pairs| && pairs[i] == (name, r.value)
                           && forall j :: 0 <= j < i ==> pairs[j].0 != name)
  {
    if |pairs| == 0 then None
    else if pairs[0].0 == name then
      assert pairs[0] == (name, pairs[0].1);
      Some(pairs[0].1)
    else
      var r := Get(pairs[1..], name);
      if r.Some? then
        var i :| 0 <= i < |pairs[1..]| && pairs[1..][i] == (name, r.value)
          && forall j :: 0 <= j < i ==> pairs[1..][j].0 != name;
        assert pairs[i + 1] == (name, r.value);
        r
      else r
  }

  /** `get` finds the first pair with the name, and only that one. */
  lemma GetFirst(pairs: seq<Pair>, name: string, i: int)
    requires 0 <= i < |pairs| && pairs[i].0 == name
    requires forall j :: 0 <= j < i ==> pairs[j].0 != name
    ensures Get(pairs, name) == Some(pairs[i].1)
  {
  }

  /** `get` on two pairs with different names. */
  lemma GetOfTwo(p: Pair, q: Pair)
    requires p.0 != q.0
    ensures Get([p, q], p.0) == Some(p.1) && Get([p, q], q.0) == Some(q.1)
  {
    assert [p, q][1..] == [q];
  }

  /** With no name repeated, `get` of any pair's name gives that pair's value. */
  lemma GetDistinct(pairs: seq<Pair>, k: int)
    requires forall i, j :: 0 <= i < j < |pairs| ==> pairs[i].0 != pairs[j].0
    requires 0 <= k < |pairs|
    ensures Get(pairs, pairs[k].0) == Some(pairs[k].1)
  {
    GetFirst(pairs, pairs[k].0, k);
  }

  // --- Round trip --------------------------------------------------------------------------

  lemma {:induction false} PlusToSpaceConcat(a: seq<Byte>, b: seq<Byte>)
    ensures PlusToSpace(a + b) == PlusToSpace(a) + PlusToSpace(b)
  {
  }

  /** The bytes one serialized byte turns into once `+` is read as a space: the byte itself, or a
      percent sign and its two hexadecimal digits. */
  lemma SerializedByteBytes(b: Byte)
    ensures Unreserved(b) || b == Space ==> PlusToSpace(Utf8Encode(SerializeByte(b))) == [b]
    ensures !Unreserved(b) && b != Space ==>
      PlusToSpace(Utf8Encode(SerializeByte(b))) == [Percent, HexDigit(b / 16) as int, HexDigit(b % 16) as int]
  {
    var head := SerializeByte(b);
    if Unreserved(b) || b == Space {
      assert Utf8Encode(head) == Utf8EncodeChar(head[0]) by { assert head[1..] == []; }
    } else {
      EscapeBytes(HexDigit(b / 16), HexDigit(b % 16));
    }
  }

  /** A percent sign and two ASCII characters encode to their three bytes. */
  lemma EscapeBytes(h: char, l: char)
    requires h as int < 0x80 && l as int < 0x80
    ensures Utf8Encode(['%', h, l]) == [Percent, h as int, l as int]
  {
    var t := ['%', h, l];
    assert t[1..] == [h, l] && t[1..][1..] == [l];
    assert Utf8Encode([l]) == [l as int] by { assert [l][1..] == []; }
    assert Utf8Encode([h, l]) == [h as int] + Utf8Encode([l]);
  }

  /** One serialized byte, read back in front of any further bytes, decodes to itself. */
  lemma DecodeSerializedByte(b: Byte, rest: seq<Byte>)
    ensures PercentDecode(PlusToSpace(Utf8Encode(SerializeByte(b))) + rest) == [b] + PercentDecode(rest)
  {
    SerializedByteBytes(b);
    if Unreserved(b) || b == Space {
      assert ([b] + rest)[1..] == rest;
    } else {
      var enc := [Percent, HexDigit(b / 16) as int, HexDigit(b % 16) as int] + rest;
      assert enc[3..] == rest;
      assert HexByteValue(enc[1]) * 16 + HexByteValue(enc[2]) == b;
    }
  }

  /** Percent-decoding undoes the serializer's byte escaping, once `+` is read as a space. */
  lemma {:induction false} DecodeSerializedBytes(bs: seq<Byte>)
    ensures PercentDecode(PlusToSpace(Utf8Encode(SerializeBytes(bs)))) == bs
    decreases |bs|
  {
    if |bs| > 0 {
      var head := SerializeByte(bs[0]);
      var tail := SerializeBytes(bs[1..]);
      Utf8EncodeConcat(head, tail);
      PlusToSpaceConcat(Utf8Encode(head), Utf8Encode(tail));
      DecodeSerializedByte(bs[0], PlusToSpace(Utf8Encode(tail)));
      DecodeSerializedBytes(bs[1..]);
      assert [bs[0]] + bs[1..] == bs;
    }
  }

  lemma DecodeSerializedText(s: string, decode: seq<Byte> -> string)
    requires Utf8Lawful(decode)
    ensures DecodeText(SerializeText(s), decode) == s
  {
    DecodeSerializedBytes(Utf8Encode(s));
  }

  lemma {:induction false} SplitJoined(pairs: seq<Pair>)
    requires |pairs| > 0
    ensures Text.Split(Serialize(pairs), '&') == SerializedPieces(pairs)
    decreases |pairs|
  {
    if |pairs| == 1 {
      Text.SplitWithout(SerializePair(pairs[0]), '&');
    } else {
      SplitJoined(pairs[1..]);
      Text.SplitPrefix(SerializePair(pairs[0]), '&', Serialize(pairs[1..]));
    }
  }

  function SerializedPieces(pairs: seq<Pair>): (r: seq<string>)
    ensures |r| == |pairs|
    ensures forall i :: 0 <= i < |pairs| ==> r[i] == SerializePair(pairs[i])
  {
    if |pairs| == 0 then [] else [SerializePair(pairs[0])] + SerializedPieces(pairs[1..])
  }

  lemma ParseSerializedPiece(p: Pair, decode: seq<Byte> -> string)
    requires Utf8Lawful(decode)
    ensures ParsePiece(SerializePair(p), decode) == p
  {
    var n := SerializeText(p.0);
    var piece := SerializePair(p);
    assert '=' !in n;
    assert IndexOf(piece, '=') == Some(|n|) by {
      assert piece[|n|] == '=';
      assert piece[..|n|] == n;
    }
    assert piece[..|n|] == n;
    assert piece[|n| + 1..] == SerializeText(p.1);
    DecodeSerializedText(p.0, decode);
    DecodeSerializedText(p.1, decode);
  }

  lemma {:induction false} ParseSerializedPieces(pairs: seq<Pair>, decode: seq<Byte> -> string)
    requires Utf8Lawful(decode)
    ensures ParsePieces(SerializedPieces(pairs), decode) == pairs
    decreases |pairs|
  {
    if |pairs| > 0 {
      var pieces := SerializedPieces(pairs);
      assert pieces[0] != "" by { assert '=' in pieces[0]; }
      assert pieces[1..] == SerializedPieces(pairs[1..]);
      ParseSerializedPiece(pairs[0], decode);
      ParseSerializedPieces(pairs[1..], decode);
    }
  }

  /** Parsing the serialization gives back the same pairs, in the same order, for any names
      and values, empty ones included. */
  lemma ParseSerialize(pairs: seq<Pair>, decode: seq<Byte> -> string)
    requires Utf8Lawful(decode)
    ensures Parse(Serialize(pairs), decode) == pairs
  {
    if |pairs| > 0 {
      SplitJoined(pairs);
      ParseSerializedPieces(pairs, decode);
    }
  }

  /** A serialization never starts with `?`, so the constructor parses it unchanged. */
  lemma FromSerialized(pairs: seq<Pair>, decode: seq<Byte> -> string)
    requires Utf8Lawful(decode)
    ensures FromString(Serialize(pairs), decode) == pairs
  {
    ParseSerialize(pairs, decode);
    var s := Serialize(pairs);
    if |s| > 0 {
      assert s[0] != '?' by { SerializeHead(pairs); }
    }
  }

  lemma SerializeHead(pairs: seq<Pair>)
    requires |pairs| > 0
    ensures |Serialize(pairs)| > 0 && Serialize(pairs)[0] != '?'
  {
    var n := SerializeText(pairs[0].0);
    var piece := SerializePair(pairs[0]);
    assert Serialize(pairs)[..|piece|] == piece;
    if |n| > 0 {
      SerializeBytesHead(Utf8Encode(pairs[0].0));
      assert piece[0] == n[0];
    } else {
      assert piece[0] == '=';
    }
  }

  lemma SerializeBytesHead(bs: seq<Byte>)
    requires |SerializeBytes(bs)| > 0
    ensures SerializeBytes(bs)[0] != '?'
  {
    assert |bs| > 0;
    assert SerializeBytes(bs)[0] == SerializeByte(bs[0])[0];
  }

  // --- Text without escapes ----------------------------------------------------------------

  /** Every `+` read as a space, character by character. */
  function PlusAsSpace(s: string): string {
    Text.ReplaceChar(s, '+', ' ')
  }

  /** ASCII text with no `%` in it. */
  predicate Plain(s: string) {
    forall i :: 0 <= i < |s| ==> s[i] as int < 0x80 && s[i] != '%'
  }

  lemma {:induction false} PlainBytes(s: string)
    requires Plain(s)
    ensures PercentDecode(PlusToSpace(Utf8Encode(s))) == Utf8Encode(PlusAsSpace(s))
    decreases |s|
  {
    if |s| > 0 {
      var c := if s[0] == '+' then ' ' else s[0];
      assert Utf8EncodeChar(s[0]) == [s[0] as int];
      assert Utf8EncodeChar(c) == [c as int];
      var rest := PlusToSpace(Utf8Encode(s[1..]));
      PlusToSpaceConcat([s[0] as int], Utf8Encode(s[1..]));
      assert PlusToSpace(Utf8Encode(s)) == [c as int] + rest;
      assert ([c as int] + rest)[1..] == rest;
      PlainBytes(s[1..]);
      assert PlusAsSpace(s)[1..] == PlusAsSpace(s[1..]);
    }
  }

  /** Plain text is only touched by the parser where it holds a `+`. */
  lemma DecodePlainText(s: string, decode: seq<Byte> -> string)
    requires Utf8Lawful(decode)
    requires Plain(s)
    ensures DecodeText(s, decode) == PlusAsSpace(s)
  {
    PlainBytes(s);
  }

  /** The pairs of a two-piece input whose pieces each hold an `=`. */
  lemma ParseTwoPieces(n1: string, v1: string, n2: string, v2: string, decode: seq<Byte> -> string)
    requires '&' !in n1 + v1 && '&' !in n2 + v2 && '=' !in n1 && '=' !in n2
    ensures Parse(n1 + "=" + v1 + "&" + n2 + "=" + v2, decode)
            == [(DecodeText(n1, decode), DecodeText(v1, decode)), (DecodeText(n2, decode), DecodeText(v2, decode))]
  {
    var a := n1 + "=" + v1;
    var b := n2 + "=" + v2;
    PieceWithoutAmpersand(n1, v1);
    PieceWithoutAmpersand(n2, v2);
    assert n1 + "=" + v1 + "&" + n2 + "=" + v2 == a + ['&'] + b;
    SplitTwo(a, b);
    PieceAtFirstEquals(n1, v1, decode);
    PieceAtFirstEquals(n2, v2, decode);
    ParseTwo(a, b, decode);
  }

  /** A name, `=` and a value hold an `&` only if the name or the value does. */
  lemma PieceWithoutAmpersand(n: string, v: string)
    requires '&' !in n + v
    ensures '&' !in n + "=" + v && n + "=" + v != ""
  {
    var piece := n + "=" + v;
    assert forall c :: c in piece ==> c in n + v || c == '=';
    assert piece[|n|] == '=';
  }

  /** Two pieces without `&`, joined by one, split back into the two. */
  lemma SplitTwo(a: string, b: string)
    requires '&' !in a && '&' !in b
    ensures Text.Split(a + ['&'] + b, '&') == [a, b]
  {
    Text.SplitPrefix(a, '&', b);
    Text.SplitWithout(b, '&');
  }

  /** Two non-empty pieces parse to two pairs. */
  lemma ParseTwo(a: string, b: string, decode: seq<Byte> -> string)
    requires a != "" && b != ""
    ensures ParsePieces([a, b], decode) == [ParsePiece(a, decode), ParsePiece(b, decode)]
  {
    var last: seq<string> := [b];
    assert [a, b][1..] == last && |last[1..]| == 0;
    assert ParsePieces([b], decode) == [ParsePiece(b, decode)];
  }

  lemma PieceAtFirstEquals(n: string, v: string, decode: seq<Byte> -> string)
    requires '=' !in n
    ensures ParsePiece(n + "=" + v, decode) == (DecodeText(n, decode), DecodeText(v, decode))
  {
    var piece := n + "=" + v;
    assert piece[|n|] == '=' && piece[..|n|] == n && piece[|n| + 1..] == v;
    assert IndexOf(piece, '=') == Some(|n|);
  }
}

=== FILE: format.dfy ===
/** Display helpers for segments and amounts (web/lib/format.ts). */
module Format {
  import opened Wrappers
  import Text
  import Questions

  const SegmentLabels: map<string, string> := map[
    "real_estate" := "Real Estate",
    "consulting" := "Consulting / Coaching",
    "personal_brand" := "Personal Brand / Creator",
    "agency" := "Creative / Marketing Agency",
    "finance" := "Private Equity / Finance",
    "construction" := "Home Construction / Contractor",
    "other" := "Other"
  ]

  /** `humanSegment(seg)`: `Unknown` for a missing or empty key, the label of a known key,
      and any other key unchanged. */
  function HumanSegment(seg: Option<string>): (r: string)
    ensures seg == None || seg == Some("") ==> r == "Unknown"
    ensures seg.Some? && seg.value in SegmentLabels ==> r == SegmentLabels[seg.value]
    ensures seg.Some? && seg.value != "" && seg.value !in SegmentLabels ==> r == seg.value
  {
    match seg
    case None => "Unknown"
    case Some(s) => if s == "" then "Unknown" else if s in SegmentLabels then SegmentLabels[s] else s
  }

  /** Every entry of the segment list is displayed with the label the list gives it. */
  lemma HumanSegmentAgreesWithSegmentList(i: int)
    requires 0 <= i < |Questions.Segments|
    ensures HumanSegment(Some(Questions.Segments[i].key)) == Questions.Segments[i].caption
  {
  }

  /** The three decimal digits of `m`, with leading zeros. */
  function ThreeDigits(m: nat): (r: string)
    requires m < 1000
    ensures |r| == 3
    ensures forall i :: 0 <= i < |r| ==> Text.IsAsciiDigit(r[i])
  {
    [Text.DigitChar(m / 100), Text.DigitChar((m / 10) % 10), Text.DigitChar(m % 10)]
  }

  /** The decimal digits of `n` in groups of three separated by commas (the en-US format). */
  function Grouped(n: nat): (r: string)
    ensures |r| > 0 && r[0] != ','
  {
    if n < 1000 then Text.NatToDecimal(n) else Grouped(n / 1000) + "," + ThreeDigits(n % 1000)
  }

  /** `n.toLocaleString()` for an integral number in the en-US locale. */
  function LocaleString(n: int): string {
    if n < 0 then "-" + Grouped(-n) else Grouped(n)
  }

  /** `humanCurrency(n)`: a dollar sign and the grouped amount, or `$0` with no number. */
  function HumanCurrency(n: Option<int>): (r: string)
    ensures |r| > 1 && r[0] == '$'
    ensures n.None? ==> r == "$0"
    ensures n.Some? ==> WithoutCommas(r[1..]) == Text.IntToDecimal(n.value)
  {
    match n
    case None => "$0"
    case Some(v) =>
      LocaleStringDigits(v);
      "$" + LocaleString(v)
  }

  function WithoutCommas(s: string): (r: string)
    ensures |r| <= |s|
  {
    if |s| == 0 then "" else (if s[0] == ',' then "" else [s[0]]) + WithoutCommas(s[1..])
  }

  lemma {:induction false} WithoutCommasConcat(a: string, b: string)
    ensures WithoutCommas(a + b) == WithoutCommas(a) + WithoutCommas(b)
    decreases |a|
  {
    if |a| == 0 {
      assert a + b == b;
    } else {
      var head := if a[0] == ',' then "" else [a[0]];
      assert (a + b)[0] == a[0];
      assert (a + b)[1..] == a[1..] + b;
      calc {
        WithoutCommas(a + b);
        head + WithoutCommas(a[1..] + b);
        { WithoutCommasConcat(a[1..], b); }
        head + (WithoutCommas(a[1..]) + WithoutCommas(b));
        WithoutCommas(a) + WithoutCommas(b);
      }
    }
  }

  lemma {:induction false} DigitsHaveNoCommas(s: string)
    requires forall i :: 0 <= i < |s| ==> Text.IsAsciiDigit(s[i])
    ensures WithoutCommas(s) == s
    decreases |s|
  {
    if |s| > 0 {
      DigitsHaveNoCommas(s[1..]);
    }
  }

  /** Three more decimal places: the digits of `n` are those of `n / 1000` followed by the
      three digits of `n % 1000`. */
  lemma NatToDecimalThousands(n: nat)
    requires n >= 1000
    ensures Text.NatToDecimal(n) == Text.NatToDecimal(n / 1000) + ThreeDigits(n % 1000)
  {
    var a := n / 10;
    var b := a / 10;
    ThousandsDigits(n);
    var m := n % 1000;
    assert Text.NatToDecimal(n) == Text.NatToDecimal(a) + [Text.DigitChar(n % 10)];
    assert Text.NatToDecimal(a) == Text.NatToDecimal(b) + [Text.DigitChar(a % 10)];
    assert Text.NatToDecimal(b) == Text.NatToDecimal(n / 1000) + [Text.DigitChar(m / 100)];
  }

  /** The last three decimal digits of `n` are the digits of `n % 1000`. */
  lemma ThousandsDigits(n: nat)
    ensures n / 10 / 10 / 10 == n / 1000
    ensures (n % 1000) / 100 == (n / 10 / 10) % 10
    ensures ((n % 1000) / 10) % 10 == (n / 10) % 10
    ensures (n % 1000) % 10 == n % 10
  {
    var q, r := n / 1000, n % 1000;
    var d2, d1, d0 := r / 100, (r / 10) % 10, r % 10;
    assert r == 100 * d2 + 10 * d1 + d0;
    assert n == 10 * (100 * q + 10 * d2 + d1) + d0;
    assert n / 10 == 100 * q + 10 * d2 + d1;
    assert n / 10 == 10 * (10 * q + d2) + d1;
    assert n / 10 / 10 == 10 * q + d2;
  }

  /** Removing the group separators gives back the plain decimal digits. */
  lemma {:induction false} GroupedDigits(n: nat)
    ensures WithoutCommas(Grouped(n)) == Text.NatToDecimal(n)
    decreases n
  {
    if n < 1000 {
      DigitsHaveNoCommas(Text.NatToDecimal(n));
    } else {
      var head := Grouped(n / 1000);
      var tail := ThreeDigits(n % 1000);
      assert WithoutCommas(",") == "" by {
        assert WithoutCommas(","[1..]) == "";
      }
      calc {
        WithoutCommas(Grouped(n));
        { assert Grouped(n) == head + "," + tail == head + ("," + tail); }
        WithoutCommas(head + ("," + tail));
        { WithoutCommasConcat(head, "," + tail); WithoutCommasConcat(",", tail); }
        WithoutCommas(head) + WithoutCommas(tail);
        { GroupedDigits(n / 1000); DigitsHaveNoCommas(tail); }
        Text.NatToDecimal(n / 1000) + tail;
        { NatToDecimalThousands(n); }
        Text.NatToDecimal(n);
      }
    }
  }

  lemma LocaleStringDigits(n: int)
    ensures WithoutCommas(LocaleString(n)) == Text.IntToDecimal(n)
  {
    if n < 0 {
      GroupedDigits(-n);
      WithoutCommasConcat("-", Grouped(-n));
      assert WithoutCommas("-") == "-" by {
        assert WithoutCommas("-"[1..]) == "";
      }
    } else {
      GroupedDigits(n);
    }
  }
}

=== FILE: jsnumber.dfy ===
/** `parseInt` with no radix argument (section 19.2.5 of ECMA-262), over integral values. */
module JsNumber {
  import opened Wrappers
  import Text

  predicate IsHexDigit(c: char) {
    Text.IsAsciiDigit(c) || ('a' <= c <= 'f') || ('A' <= c <= 'F')
  }

  function HexDigitValue(c: char): (v: nat)
    requires IsHexDigit(c)
    ensures v < 16
  {
    if Text.IsAsciiDigit(c) then c as int - '0' as int
    else if 'a' <= c <= 'f' then c as int - 'a' as int + 10
    else c as int - 'A' as int + 10
  }

  predicate IsRadixDigit(c: char, hex: bool) {
    if hex then IsHexDigit(c) else Text.IsAsciiDigit(c)
  }

  /** The length of the longest prefix of `s` made of digits of the radix. */
  function DigitPrefixLength(s: string, hex: bool): (n: nat)
    ensures n <= |s|
    ensures forall i :: 0 <= i < n ==> IsRadixDigit(s[i], hex)
    ensures n < |s| ==> !IsRadixDigit(s[n], hex)
  {
    if |s| > 0 && IsRadixDigit(s[0], hex) then 1 + DigitPrefixLength(s[1..], hex) else 0
  }

  /** The value of a string of radix digits, read most significant first. */
  function DigitsValue(s: string, hex: bool): nat
    requires forall i :: 0 <= i < |s| ==> IsRadixDigit(s[i], hex)
  {
    if |s| == 0 then 0
    else
      assert IsRadixDigit(s[|s| - 1], hex);
      var d := if hex then HexDigitValue(s[|s| - 1]) else s[|s| - 1] as int - '0' as int;
      DigitsValue(s[..|s| - 1], hex) * (if hex then 16 else 10) + d
  }

  /** `parseInt(s)`: `None` stands for NaN. Leading whitespace and one sign are skipped, a
      `0x`/`0X` prefix selects base 16, and the longest run of digits that follows is read. */
  function ParseInt(s: string): (r: Option<int>)
    ensures r.None? <==> DigitPrefixLength(Unprefixed(Unsigned(s)), HexPrefixed(Unsigned(s))) == 0
  {
    var u := Unsigned(s);
    var body := Unprefixed(u);
    var hex := HexPrefixed(u);
    var n := DigitPrefixLength(body, hex);
    if n == 0 then None
    else
      var v: int := DigitsValue(body[..n], hex);
      Some(if IsNegative(s) then -v else v)
  }

  /** The text after leading whitespace and an optional sign. */
  function Unsigned(s: string): string {
    var t := Text.TrimStart(s);
    if |t| > 0 && (t[0] == '-' || t[0] == '+') then t[1..] else t
  }

  predicate IsNegative(s: string) {
    var t := Text.TrimStart(s);
    |t| > 0 && t[0] == '-'
  }

  /** Unsigned text that starts with `0x` or `0X` is read in base 16. */
  predicate HexPrefixed(u: string) {
    |u| >= 2 && u[0] == '0' && (u[1] == 'x' || u[1] == 'X')
  }

  /** The digits `parseInt` reads, once the radix prefix is gone. */
  function Unprefixed(u: string): string {
    if HexPrefixed(u) then u[2..] else u
  }

  lemma {:induction false} DecimalValueOfNat(n: nat)
    ensures forall i :: 0 <= i < |Text.NatToDecimal(n)| ==> IsRadixDigit(Text.NatToDecimal(n)[i], false)
    ensures DigitsValue(Text.NatToDecimal(n), false) == n
    decreases n
  {
    var s := Text.NatToDecimal(n);
    if n >= 10 {
      DecimalValueOfNat(n / 10);
      assert s[..|s| - 1] == Text.NatToDecimal(n / 10);
    }
  }

  /** Printing an integral number and reading it back with `parseInt` gives the number. */
  lemma {:induction false} ParseIntOfDecimal(n: int)
    ensures ParseInt(Text.IntToDecimal(n)) == Some(n)
  {
    var m: nat := if n < 0 then -n else n;
    DecimalValueOfNat(m);
    PrintedSign(n);
    ReadDecimal(Text.IntToDecimal(n), Text.NatToDecimal(m));
  }

  /** Text whose unsigned part is a run of decimal digits is read as their value, negated after
      a `-`. */
  lemma ReadDecimal(s: string, digits: string)
    requires Unsigned(s) == digits
    requires |digits| > 0 && forall i :: 0 <= i < |digits| ==> Text.IsAsciiDigit(digits[i])
    ensures ParseInt(s) == Some(if IsNegative(s) then -(DigitsValue(digits, false) as int) else DigitsValue(digits, false))
  {
    DecimalDigitsRead(digits);
    assert digits[..|digits|] == digits;
  }

  /** A run of decimal digits has no radix prefix and is read whole. */
  lemma DecimalDigitsRead(digits: string)
    requires |digits| > 0 && forall i :: 0 <= i < |digits| ==> Text.IsAsciiDigit(digits[i])
    ensures !HexPrefixed(digits) && Unprefixed(digits) == digits
    ensures DigitPrefixLength(digits, false) == |digits|
  {
    if |digits| >= 2 {
      assert Text.IsAsciiDigit(digits[1]);
    }
  }

  /** A printed number has no whitespace to skip, and its sign is `-` exactly when negative. */
  lemma PrintedSign(n: int)
    ensures Unsigned(Text.IntToDecimal(n)) == Text.NatToDecimal(if n < 0 then -n else n)
    ensures IsNegative(Text.IntToDecimal(n)) <==> n < 0
  {
    var s := Text.IntToDecimal(n);
    PrintedUntrimmed(n);
    if n < 0 {
      assert s == "-" + Text.NatToDecimal(-n);
      assert s[1..] == Text.NatToDecimal(-n);
    } else {
      assert s[0] != '-' && s[0] != '+';
    }
  }

  lemma PrintedUntrimmed(n: int)
    ensures Text.TrimStart(Text.IntToDecimal(n)) == Text.IntToDecimal(n)
    ensures n >= 0 ==> Text.IsAsciiDigit(Text.IntToDecimal(n)[0])
  {
    var s := Text.IntToDecimal(n);
    if n < 0 {
      assert s[0] == '-';
    } else {
      assert Text.IsAsciiDigit(Text.NatToDecimal(n)[0]);
    }
    NothingToTrim(s);
  }

  /** Text that does not start with whitespace is left as it is by `trimStart`. */
  lemma NothingToTrim(s: string)
    requires |s| > 0 && (s[0] == '-' || Text.IsAsciiDigit(s[0]))
    ensures Text.TrimStart(s) == s
  {
    assert !Text.IsJsWhitespace(s[0]);
  }
}

=== FILE: json.dfy ===
/** JavaScript values as they cross JSON boundaries, and the JSON codec as an abstract parameter. */
module Json {
  import opened Wrappers
  import Text

  /** A JSON value. Numbers are integral; an object is a map from property names to values.
      JavaScript's `undefined` is not a value here: it is `None` of an `Option<Json>`. */
  datatype Json =
    | JNull
    | JBool(b: bool)
    | JNum(n: int)
    | JStr(s: string)
    | JArr(items: seq<Json>)
    | JObj(fields: map<string, Json>)

  /** JavaScript truthiness of a possibly-undefined value. */
  predicate Truthy(v: Option<Json>) {
    match v
    case None => false
    case Some(JNull) => false
    case Some(JBool(b)) => b
    case Some(JNum(n)) => n != 0
    case Some(JStr(s)) => s != ""
    case Some(JArr(_)) => true
    case Some(JObj(_)) => true
  }

  /** The property read `v.key` on a value that is not null: only objects have own data
      properties here; reading one that is missing gives `undefined`. */
  function Get(v: Json, key: string): (r: Option<Json>)
    requires !v.JNull?
    ensures r.Some? <==> v.JObj? && key in v.fields
    ensures r.Some? ==> r.value == v.fields[key]
  {
    if v.JObj? && key in v.fields then Some(v.fields[key]) else None
  }

  /** `obj[key]` on a plain object given as a map. */
  function Prop(obj: map<string, Json>, key: string): Option<Json> {
    if key in obj then Some(obj[key]) else None
  }

  /** `String(v)`: how JavaScript turns a value into text. */
  function ToJsString(v: Option<Json>): string {
    match v
    case None => "undefined"
    case Some(j) => JsonToJsString(j)
  }

  function JsonToJsString(j: Json): string
    decreases j, 1
  {
    match j
    case JNull => "null"
    case JBool(b) => if b then "true" else "false"
    case JNum(n) => Text.IntToDecimal(n)
    case JStr(s) => s
    case JArr(items) => JoinElements(items, j)
    case JObj(_) => "[object Object]"
  }

  /** `Array.prototype.join(",")`, where null elements print as the empty string. */
  function JoinElements(items: seq<Json>, ghost whole: Json): string
    requires forall i :: 0 <= i < |items| ==> items[i] < whole
    decreases whole, 0, |items|
  {
    if |items| == 0 then ""
    else
      var first := if items[0].JNull? then "" else JsonToJsString(items[0]);
      if |items| == 1 then first else first + "," + JoinElements(items[1..], whole)
  }

  /** `JSON.stringify` and `JSON.parse`, left abstract; `parse` gives `None` where it throws. */
  datatype Codec = Codec(stringify: Json -> string, parse: string -> Option<Json>)

  /** What the model assumes of the codec: parsing undoes stringifying. */
  ghost predicate Lawful(c: Codec) {
    forall j :: c.parse(c.stringify(j)) == Some(j)
  }
}

=== FILE: multi_select.dfy ===
/** The selection logic of the multi-select quiz page (`toggleSelection` and `canContinue` of
    web/components/questions/MultiSelectPage.tsx): an ordered list of option keys, bounded by the
    page's minimum and maximum number of selections. */
module MultiSelect {
  import opened Wrappers

  /** `minSelections` / `maxSelections` of the page's properties. */
  datatype Bounds = Bounds(minSelections: int, maxSelections: int)

  /** The defaults when a page gives no bounds. */
  const DefaultBounds := Bounds(1, 999)

  /** The tools step: nothing has to be selected, at most ten tools can be. */
  const ToolsBounds := Bounds(0, 10)

  /** No key is selected twice. */
  predicate Distinct(s: seq<string>) {
    forall i, j :: 0 <= i < j < |s| ==> s[i] != s[j]
  }

  /** What every reachable selection satisfies. */
  predicate Valid(s: seq<string>, maxSelections: int) {
    Distinct(s) && |s| <= maxSelections
  }

  /** `selected.filter((k) => k !== key)`. */
  function Without(s: seq<string>, key: string): (r: seq<string>)
    ensures forall x :: x in r <==> x in s && x != key
    ensures |r| <= |s|
  {
    if s == [] then []
    else if s[0] == key then Without(s[1..], key)
    else [s[0]] + Without(s[1..], key)
  }

  /** Removing a key that is not there changes nothing. */
  lemma {:induction false} WithoutAbsent(s: seq<string>, key: string)
    requires key !in s
    ensures Without(s, key) == s
  {
    if s != [] {
      WithoutAbsent(s[1..], key);
      assert s == [s[0]] + s[1..];
    }
  }

  /** In a selection without duplicates, removing the key at position `i` closes the gap and keeps
      the order of the rest. */
  lemma {:induction false} WithoutAt(s: seq<string>, i: int)
    requires Distinct(s) && 0 <= i < |s|
    ensures Without(s, s[i]) == s[..i] + s[i + 1..]
  {
    if i == 0 {
      assert s[i] !in s[1..];
      WithoutAbsent(s[1..], s[i]);
    } else {
      var t := s[1..];
      assert Distinct(t);
      assert t[i - 1] == s[i];
      WithoutAt(t, i - 1);
      assert s[..i] == [s[0]] + t[..i - 1];
      assert s[i + 1..] == t[i..];
    }
  }

  /** Removing keeps the selection free of duplicates. */
  lemma {:induction false} WithoutDistinct(s: seq<string>, key: string)
    requires Distinct(s)
    ensures Distinct(Without(s, key))
  {
    if s != [] {
      WithoutDistinct(s[1..], key);
      var rest := Without(s[1..], key);
      assert s[0] !in s[1..];
      assert s[0] !in rest;
    }
  }

  /** `toggleSelection(key)`: a selected key is removed; an unselected one is appended while the
      selection is below the maximum, and otherwise the click does nothing. */
  function Toggle(s: seq<string>, key: string, maxSelections: int): (r: seq<string>)
    ensures key in s ==> key !in r && forall x :: x != key ==> (x in r <==> x in s)
    ensures key !in s && |s| < maxSelections ==> r == s + [key]
    ensures key !in s && |s| >= maxSelections ==> r == s
  {
    if key in s then Without(s, key)
    else if |s| < maxSelections then s + [key]
    else s
  }

  /** Toggling keeps the selection free of duplicates and within the maximum. */
  lemma ToggleValid(s: seq<string>, key: string, maxSelections: int)
    requires Valid(s, maxSelections)
    ensures Valid(Toggle(s, key, maxSelections), maxSelections)
  {
    if key in s {
      WithoutDistinct(s, key);
    }
  }

  /** Deselecting a selected key removes it from its place, the rest keeping their order. */
  lemma DeselectKeepsOrder(s: seq<string>, i: int, maxSelections: int)
    requires Distinct(s) && 0 <= i < |s|
    ensures Toggle(s, s[i], maxSelections) == s[..i] + s[i + 1..]
  {
    WithoutAt(s, i);
  }

  /** Removal distributes over concatenation. */
  lemma {:induction false} WithoutConcat(a: seq<string>, b: seq<string>, key: string)
    ensures Without(a + b, key) == Without(a, key) + Without(b, key)
  {
    if a != [] {
      WithoutConcat(a[1..], b, key);
      assert (a + b)[0] == a[0] && (a + b)[1..] == a[1..] + b;
      var x, y := Without(a[1..], key), Without(b, key);
      assert ([a[0]] + x) + y == [a[0]] + (x + y);
    } else {
      assert a + b == b;
    }
  }

  /** Toggling a key in and out again restores the selection. */
  lemma ToggleTwice(s: seq<string>, key: string, maxSelections: int)
    requires key !in s && |s| < maxSelections
    ensures Toggle(Toggle(s, key, maxSelections), key, maxSelections) == s
  {
    WithoutConcat(s, [key], key);
    WithoutAbsent(s, key);
  }

  /** The selection after a sequence of clicks on the given keys, starting from `s`. */
  function Clicks(s: seq<string>, keys: seq<string>, maxSelections: int): (r: seq<string>)
    ensures Valid(s, maxSelections) ==> Valid(r, maxSelections)
    decreases |keys|
  {
    if keys == [] then s
    else
      assert Valid(s, maxSelections) ==> Valid(Toggle(s, keys[0], maxSelections), maxSelections) by {
        if Valid(s, maxSelections) {
          ToggleValid(s, keys[0], maxSelections);
        }
      }
      Clicks(Toggle(s, keys[0], maxSelections), keys[1..], maxSelections)
  }

  /** Every selection the page can reach from its empty start has no duplicates and respects a
      non-negative maximum. */
  lemma Reachable(keys: seq<string>, maxSelections: int)
    requires maxSelections >= 0
    ensures Distinct(Clicks([], keys, maxSelections))
    ensures |Clicks([], keys, maxSelections)| <= maxSelections
  {
  }

  /** `canContinue`. */
  predicate CanContinue(s: seq<string>, b: Bounds) {
    |s| >= b.minSelections
  }

  /** The continue button: it hands the selection on exactly when continuing is allowed. */
  function Continue(s: seq<string>, b: Bounds): (r: Option<seq<string>>)
    ensures r.Some? <==> |s| >= b.minSelections
    ensures r.Some? ==> r.value == s
  {
    if CanContinue(s, b) then Some(s) else None
  }

  /** With the default bounds one selection is needed to continue. */
  lemma DefaultNeedsOne(s: seq<string>)
    ensures Continue(s, DefaultBounds).Some? <==> s != []
  {
  }

  /** The tools step can always continue, and never holds more than ten tools. */
  lemma ToolsStep(s: seq<string>, keys: seq<string>)
    ensures Continue(s, ToolsBounds) == Some(s)
    ensures |Clicks([], keys, ToolsBounds.maxSelections)| <= 10
  {
    Reachable(keys, ToolsBounds.maxSelections);
  }
}

=== FILE: plan.dfy ===
/** The personalised plan shown on the result page (web/lib/personalized-plan.ts). */
module Plan {
  import opened Wrappers
  import opened Store
  import Scoring
  import Text

  /** Three entries: every strategy lists three quick wins and three tools. */
  datatype Three = Three(first: string, second: string, third: string) {
    function Items(): (r: seq<string>)
      ensures |r| == 3 && r[0] == first && r[1] == second && r[2] == third
    {
      [first, second, third]
    }
  }

  datatype Strategy = Strategy(headline: string, quickWins: Three, toolRecs: Three)

  datatype PainSolution = PainSolution(problem: string, solution: string, implementation: string)

  datatype Step = Step(title: string, description: string, timeframe: string)

  datatype PersonalizedPlan = PersonalizedPlan(
    headline: string,
    summary: string,
    quickWins: seq<string>,
    nextSteps: seq<Step>,
    painSolution: PainSolution,
    toolRecommendations: seq<string>)

  const RealEstateStrategy := Strategy(
    "Transform Your Real Estate Operations with AI",
    Three("Set up automated lead response within 5 minutes of inquiry",
          "Create email templates for common scenarios (showing confirmations, follow-ups)",
          "Implement a simple CRM workflow to track leads automatically"),
    Three("Zapier for automations", "HubSpot or Follow Up Boss CRM", "AITable for property databases"))

  const ConsultingStrategy := Strategy(
    "Scale Your Consulting Practice with Automation",
    Three("Build a proposal template library with AI-powered customization",
          "Automate client onboarding with forms and welcome sequences",
          "Set up time-tracking and invoicing automation"),
    Three("Notion for knowledge base", "Dubsado for client management", "Make.com for workflows"))

  const PersonalBrandStrategy := Strategy(
    "10x Your Content Output Without Burning Out",
    Three("Create a content repurposing system (1 idea \U{2192} 5+ formats)",
          "Set up a content calendar with AI-assisted drafting",
          "Automate social media cross-posting"),
    Three("Notion for content library", "Buffer or Hypefury for scheduling", "ChatGPT for ideation"))

  const AgencyStrategy := Strategy(
    "Streamline Your Agency Delivery Process",
    Three("Build client reporting templates that update automatically",
          "Create standardized project kickoff workflows",
          "Implement automated status updates for clients"),
    Three("ClickUp for project management", "Databox for reporting", "Zapier for client comms"))

  const FinanceStrategy := Strategy(
    "Accelerate Deal Flow with Intelligent Automation",
    Three("Set up automated deal scoring and triage system",
          "Create data room templates with smart organization",
          "Implement IC memo generation workflows"),
    Three("Airtable for deal tracking", "Notion for deal memos", "Make.com for data aggregation"))

  const ConstructionStrategy := Strategy(
    "Modernize Your Construction Business Operations",
    Three("Automate lead follow-up from online ads",
          "Create estimate templates with material cost auto-updates",
          "Set up project status dashboards for clients"),
    Three("Buildertrend or CoConstruct", "Google Sheets with scripts", "Calendly for scheduling"))

  const OtherStrategy := Strategy(
    "Optimize Your Business with Smart Automation",
    Three("Identify your top 3 repetitive tasks and automate one this week",
          "Set up email filters and auto-responses",
          "Create process documentation with AI assistance"),
    Three("Zapier for connecting apps", "Notion for documentation", "Loom for training videos"))

  /** The segment's strategy; every segment has one, so `other` only stands in for no answer. */
  function StrategyFor(seg: Segment): Strategy {
    match seg
    case RealEstate => RealEstateStrategy
    case Consulting => ConsultingStrategy
    case PersonalBrand => PersonalBrandStrategy
    case Agency => AgencyStrategy
    case Finance => FinanceStrategy
    case Construction => ConstructionStrategy
    case Other => OtherStrategy
  }

  const LeadFollowupSolution := PainSolution(
      "Leads slip through the cracks when you can't respond fast enough",
      "Automated lead routing + instant SMS/email response system",
      "Set up a Zapier workflow: New lead \U{2192} Instant SMS \U{2192} CRM entry \U{2192} Task created")

  const ListingOpsSolution := PainSolution(
      "Too much time spent on listing paperwork and coordination",
      "Digital document workflows + automated reminders for all parties",
      "Use DocuSign + automated email sequences for each stage of listing process")

  const CrmDoubleSolution := PainSolution(
      "Manually entering the same data into multiple systems",
      "Two-way sync between all your tools",
      "Connect listings platform \U{2192} CRM \U{2192} email \U{2192} calendar with Zapier or Make.com")

  const InboundTriageSolution := PainSolution(
      "Spending too much time on unqualified leads",
      "Qualification quiz + automated routing",
      "Build a Typeform that scores leads and sends qualified ones to calendar, others to email sequence")

  const ProposalSolution := PainSolution(
      "Proposals take hours to customize each time",
      "Template library + AI-powered customization",
      "Create modular proposals in Notion/Google Docs + ChatGPT to adapt messaging per client")

  const BillingSolution := PainSolution(
      "Chasing invoices is a time drain",
      "Automated invoicing + payment reminders",
      "Use Stripe Invoicing or QuickBooks with automated reminder sequences")

  const IdeasToPostsSolution := PainSolution(
      "Great ideas but content creation feels overwhelming",
      "Content factory system: capture \U{2192} develop \U{2192} publish",
      "Voice memos to Notion \U{2192} AI expansion \U{2192} Schedule across platforms")

  const NewsletterSolution := PainSolution(
      "Inconsistent newsletter publishing",
      "Content buffer + automated publishing system",
      "Batch write 4-6 issues \U{2192} Schedule in ConvertKit/Beehiiv with AI-powered subject lines")

  const HandoffsSolution := PainSolution(
      "Information gets lost between tools",
      "Central hub + automated data sync",
      "Choose one source of truth (Notion/Airtable) + sync everything to it")

  const ReportingSolution := PainSolution(
      "Manual report compilation is tedious",
      "Self-updating dashboards",
      "Connect data sources to Google Sheets/Databox \U{2192} Auto-generate reports")

  /** The solutions table: a solution for eleven pain keys and nothing for any other key. */
  function ListedSolution(pain: string): Option<PainSolution> {
    match pain
    case "lead_followup" => Some(LeadFollowupSolution)
    case "listing_ops" => Some(ListingOpsSolution)
    case "crm_double" => Some(CrmDoubleSolution)
    case "inbound_triage" => Some(InboundTriageSolution)
    case "proposal" => Some(ProposalSolution)
    case "billing" => Some(BillingSolution)
    case "ideas_to_posts" => Some(IdeasToPostsSolution)
    case "newsletter" => Some(NewsletterSolution)
    case "repetitive" => Some(RepetitiveSolution)
    case "handoffs" => Some(HandoffsSolution)
    case "reporting" => Some(ReportingSolution)
    case _ => None
  }

  /** The generic fallback solution. */
  const RepetitiveSolution := PainSolution(
    "Repetitive admin work stealing your focus time",
    "Task automation + delegation workflows",
    "Document the task \U{2192} Build a checklist \U{2192} Create automation or hire VA")

  /** The fixed texts a plan is assembled from: the strategy per segment, the solutions per
      pain key and the fallback solution. The plan's logic is stated for any such tables;
      `Catalog` holds the ones the application ships. */
  datatype Tables = Tables(
    strategyFor: Segment -> Strategy,
    listedSolution: string -> Option<PainSolution>,
    fallback: PainSolution)

  const Catalog := Tables(StrategyFor, ListedSolution, RepetitiveSolution)

  /** The solution listed for the pain key, or the fallback for any other key. */
  function SolutionFor(t: Tables, pain: string): (r: PainSolution)
    ensures t.listedSolution(pain).Some? ==> r == t.listedSolution(pain).value
    ensures t.listedSolution(pain).None? ==> r == t.fallback
  {
    t.listedSolution(pain).GetOr(t.fallback)
  }

  /** `answers.pain || 'unknown'`: an empty answer counts as none. */
  function PainKey(pain: Option<string>): (r: string)
    ensures r != ""
    ensures pain.Some? && pain.value != "" ==> r == pain.value
  {
    match pain
    case Some(p) => if p == "" then "unknown" else p
    case None => "unknown"
  }

  /** The three next steps, paced by the urgency answer (`research` when there is none). */
  function NextSteps(urgency: Option<Urgency>, strategy: Strategy, sol: PainSolution): (r: seq<Step>)
    ensures |r| == 3
    ensures urgency in {Some(Asap), Some(ThirtyDays)} ==>
      r[0].description == strategy.quickWins.first && r[1].description == sol.implementation
    ensures urgency == Some(Quarter) ==> r[1].description == sol.implementation + QuarterRollout
  {
    match urgency
    case Some(Asap) => FastSteps(strategy.quickWins.first, sol)
    case Some(ThirtyDays) => FastSteps(strategy.quickWins.first, sol)
    case Some(Quarter) => QuarterSteps(sol)
    case _ => ResearchSteps
  }

  function FastSteps(firstWin: string, sol: PainSolution): (r: seq<Step>)
    ensures |r| == 3 && r[0].description == firstWin && r[1].description == sol.implementation
  {
    [Step(FastTitle1, firstWin, FastTime1),
     Step(FastTitle2, sol.implementation, FastTime2),
     FastStep3]
  }

  const FastTitle1 := "This Week: Quick Win Implementation"
  const FastTime1 := "1-3 days"
  const FastTitle2 := "Next 2 Weeks: Core Automation Setup"
  const FastTime2 := "5-10 hours total"
  const FastStep3 := Step("Month 1: Systematic Rollout",
    "Implement remaining quick wins and refine based on results", "Ongoing")

  function QuarterSteps(sol: PainSolution): (r: seq<Step>)
    ensures |r| == 3 && r[1].description == sol.implementation + QuarterRollout
  {
    [QuarterStep1, Step(QuarterTitle2, sol.implementation + QuarterRollout, QuarterTime2), QuarterStep3]
  }

  const QuarterStep1 := Step("Month 1: Foundation & Planning",
    "Audit current processes, document workflows, select tools", "2-4 weeks")
  const QuarterTitle2 := "Month 2: Implementation"
  const QuarterRollout := " + quick wins rollout"
  const QuarterTime2 := "4-6 weeks"
  const QuarterStep3 := Step("Month 3: Optimization",
    "Measure results, refine workflows, scale what works", "Ongoing")

  const ResearchSteps: seq<Step> := [
    Step("Research Phase", "Explore tools and approaches that fit your needs", "No rush"),
    Step("Pilot Project", "Start with one small automation when ready", "When timing is right"),
    Step("Expand", "Build on success once you see results", "At your pace")]

  const SoloInsight := "As a solo operator, automation is your secret weapon to punch above your weight."
  const TeamInsight := "With your team size, the right systems will multiply everyone's output."
  const OwnedTail :=
    " You're already bought into AI\U{2014}now let's channel that into specific workflows that save hours every week."
  const OverwhelmedOpening :=
    " Don't worry about the hype\U{2014}we'll start with one simple automation that actually solves"
  const SkepticalTail :=
    " Healthy skepticism is good. We'll focus on practical tools with clear ROI, not shiny objects."
  const CuriousTail := " You're in the right place to learn what actually works for businesses like yours."

  /** The sentence about the pain in the overwhelmed summary. */
  function PainPhrase(pain: string): string {
    " your " + pain + " problem."
  }

  /** The first sentence of the summary: `solo` when the team size is missing. */
  function Opening(teamSize: Option<TeamSize>): string {
    if teamSize in {None, Some(Solo)} then SoloInsight else TeamInsight
  }

  /** The second sentence of the summary: `curious` when the sentiment is missing. */
  function Ending(sentiment: Option<Sentiment>, pain: string): string {
    match sentiment
    case Some(Excited) => OwnedTail
    case Some(Daily) => OwnedTail
    case Some(Overwhelmed) => OverwhelmedOpening + PainPhrase(pain)
    case Some(Skeptical) => SkepticalTail
    case _ => CuriousTail
  }

  /** The opening sentence chosen by team size (`solo` when there is none), then one chosen by
      sentiment (`curious` when there is none); only the overwhelmed sentence names the pain. */
  function Summary(teamSize: Option<TeamSize>, sentiment: Option<Sentiment>, pain: string): (r: string)
    ensures teamSize in {None, Some(Solo)} ==> |r| > |SoloInsight| && r[..|SoloInsight|] == SoloInsight
    ensures teamSize !in {None, Some(Solo)} ==> |r| > |TeamInsight| && r[..|TeamInsight|] == TeamInsight
    ensures sentiment in {Some(Excited), Some(Daily)} ==> Text.EndsWith(r, OwnedTail)
    ensures sentiment == Some(Overwhelmed) ==> Text.EndsWith(r, PainPhrase(pain))
    ensures sentiment == Some(Overwhelmed) ==> Text.IsInfix(OverwhelmedOpening + PainPhrase(pain), r)
    ensures sentiment == Some(Skeptical) ==> Text.EndsWith(r, SkepticalTail)
    ensures sentiment in {None, Some(Curious), Some(Starting)} ==> Text.EndsWith(r, CuriousTail)
  {
    var base := Opening(teamSize);
    var tail := Ending(sentiment, pain);
    Text.ConcatEnds(base, tail);
    if sentiment == Some(Overwhelmed) then
      Text.TailParts(base, OverwhelmedOpening, PainPhrase(pain));
      base + tail
    else
      base + tail
  }

  /** A missing sentiment reads as `curious`: the summary is the one for a curious visitor. */
  lemma AbsentSentimentIsCurious(teamSize: Option<TeamSize>, pain: string)
    ensures Summary(teamSize, None, pain) == Summary(teamSize, Some(Curious), pain)
    ensures Summary(teamSize, Some(Starting), pain) == Summary(teamSize, Some(Curious), pain)
  {
  }

  /** The plan for the answers, assembled from the tables `t`. */
  function PlanFrom(t: Tables, answers: Answers, score: Scoring.ScoreProfile): (p: PersonalizedPlan)
    ensures var strategy := t.strategyFor(answers.segment.GetOr(Other));
      p.headline == strategy.headline && p.quickWins == strategy.quickWins.Items()
      && p.toolRecommendations == strategy.toolRecs.Items()
    ensures p.painSolution == SolutionFor(t, PainKey(answers.pain))
    ensures |p.nextSteps| == 3 && |p.quickWins| == 3
  {
    var strategy := t.strategyFor(answers.segment.GetOr(Other));
    var pain := PainKey(answers.pain);
    var sol := SolutionFor(t, pain);
    PersonalizedPlan(
      strategy.headline,
      Summary(answers.teamSize, answers.sentiment, pain),
      strategy.quickWins.Items(),
      NextSteps(answers.urgency, strategy, sol),
      sol,
      strategy.toolRecs.Items())
  }

  /** `generatePersonalizedPlan(answers, score)`: the plan from the shipped tables. */
  function GeneratePersonalizedPlan(answers: Answers, score: Scoring.ScoreProfile): PersonalizedPlan {
    PlanFrom(Catalog, answers, score)
  }

  /** The score profile passed in has no influence on the plan, and neither do the tools. */
  lemma PlanIgnoresScoreAndTools(t: Tables, a: Answers, s: Scoring.ScoreProfile, s2: Scoring.ScoreProfile,
                                 tools: Option<seq<string>>)
    ensures PlanFrom(t, a, s) == PlanFrom(t, a.(tools := tools), s2)
  {
  }

  /** An empty pain answer is treated exactly like no answer. */
  lemma EmptyPainIsAbsent(t: Tables, a: Answers, s: Scoring.ScoreProfile)
    ensures PlanFrom(t, a.(pain := Some("")), s) == PlanFrom(t, a.(pain := None), s)
  {
  }

  /** Without a pain answer the plan falls back to the generic solution, which is the
      repetitive-work one in the shipped tables. */
  lemma AbsentPainFallsBack(t: Tables, a: Answers, s: Scoring.ScoreProfile)
    requires a.pain.None?
    requires t.listedSolution("unknown").None?
    ensures PlanFrom(t, a, s).painSolution == t.fallback
  {
  }

  /** The three choices of the generic pain question (repetitive work, handoffs, reporting) each
      have their own solution; a segment-specific choice such as showing scheduling, and the
      `unknown` stand-in, get the fallback. */
  lemma PainCoverage()
    ensures ListedSolution("repetitive").Some? && ListedSolution("handoffs").Some?
      && ListedSolution("reporting").Some?
    ensures ListedSolution("showing_sched").None? && ListedSolution("unknown").None?
  {
  }

  /** With an urgent answer the first step is the segment's first quick win and the second is
      the pain solution's implementation: the plan's steps draw on both tables. */
  lemma UrgentStepsFollowTables(t: Tables, a: Answers, s: Scoring.ScoreProfile)
    requires a.urgency == Some(Asap) || a.urgency == Some(ThirtyDays)
    ensures var p := PlanFrom(t, a, s);
      p.nextSteps[0].description == p.quickWins[0]
      && p.nextSteps[1].description == p.painSolution.implementation
  {
  }

  /** Without urgency, or when only researching, the steps are generic: neither the segment's
      strategy nor the pain solution shows in them. */
  lemma RelaxedStepsAreGeneric(u: Option<Urgency>, st: Strategy, sol: PainSolution,
                               st2: Strategy, sol2: PainSolution)
    requires u == None || u == Some(Research)
    ensures NextSteps(u, st, sol) == NextSteps(u, st2, sol2)
  {
  }
}

=== FILE: questions.dfy ===
/** The question vocabulary: segments, per-segment pain options and prompts
    (web/config/questions.ts), and the pain step's lookup (web/app/quiz/4/page.tsx). */
module Questions {
  import opened Wrappers
  import opened Store

  datatype Choice = Choice(key: string, caption: string)

  const Segments: seq<Choice> := [
    Choice("real_estate", "Real Estate"),
    Choice("consulting", "Consulting / Coaching"),
    Choice("personal_brand", "Personal Brand / Creator"),
    Choice("agency", "Creative / Marketing Agency"),
    Choice("finance", "Private Equity / Finance"),
    Choice("construction", "Home Construction / Contractor"),
    Choice("other", "Other")
  ]

  const PainOptions: map<string, seq<Choice>> := map[
    "real_estate" := [
      Choice("lead_followup", "Responding fast to new leads"),
      Choice("listing_ops", "Listing paperwork and coordination"),
      Choice("crm_double", "Double data entry between tools"),
      Choice("showing_sched", "Showings scheduling & reminders"),
      Choice("content", "Consistent content + GMB posts")],
    "consulting" := [
      Choice("inbound_triage", "Sorting inbound requests & fit"),
      Choice("proposal", "Proposals & scope take too long"),
      Choice("billing", "Invoicing & chasing payments"),
      Choice("kb", "No central knowledge base"),
      Choice("content", "Content cadence is inconsistent")],
    "personal_brand" := [
      Choice("ideas_to_posts", "Turning ideas into posts"),
      Choice("newsletter", "Newsletter cadence"),
      Choice("ops", "Sponsor & collab ops"),
      Choice("offers", "Packaging offers")],
    "agency" := [
      Choice("client_onboarding", "Client onboarding repeat work"),
      Choice("reporting", "Report creation is manual"),
      Choice("handoffs", "Handoffs across tools"),
      Choice("scheduling", "Scheduling & follow-ups")],
    "finance" := [
      Choice("dealflow", "Triage inbound deal flow"),
      Choice("dd", "Data room & DD tasking"),
      Choice("memos", "IC memos & updates"),
      Choice("ops", "Portfolio ops reporting")],
    "construction" := [
      Choice("lead_response", "Contacting new leads from ads"),
      Choice("estimates", "Manual estimates & take-offs"),
      Choice("data_scatter", "Project data scattered across tools"),
      Choice("proposals", "Proposal creation slow & manual"),
      Choice("invoicing", "Invoicing progress payments & chasing overdue"),
      Choice("gmb", "Social / Google My Business posting"),
      Choice("vendor_po_mismatch", "Vendor invoice not matching the PO")],
    "other" := [
      Choice("repetitive", "Repetitive admin work"),
      Choice("handoffs", "Handoffs across tools"),
      Choice("reporting", "Reporting compilation")]
  ]

  const SegmentPrompts: map<string, string> := map[
    "construction" := "Which day-to-day operational headache slows your construction business the most?",
    "real_estate" := "What’s the bottleneck that costs you the most momentum each week?",
    "consulting" := "Which part of your client flow do you most want to streamline?",
    "personal_brand" := "What would make your creative week feel lighter?",
    "agency" := "What’s the one step in delivery that always drags?",
    "finance" := "Which part of your deal flow could be 10x smoother?",
    "other" := "What’s the task you’d love to never do again?"
  ]

  /** The keys of a list of choices are pairwise different. */
  predicate DistinctKeys(cs: seq<Choice>) {
    forall i, j :: 0 <= i < j < |cs| ==> cs[i].key != cs[j].key
  }

  /** The pain step's segment: the answer's key, or `other` when there is none. */
  function StepSegmentKey(seg: Option<Segment>): string {
    match seg
    case Some(s) => SegmentKey(s)
    case None => "other"
  }

  /** The pain options shown for a segment key, falling back to those of `other`. */
  function PainOptionsFor(key: string): (cs: seq<Choice>)
    ensures key in PainOptions ==> cs == PainOptions[key]
    ensures key !in PainOptions ==> cs == PainOptions["other"]
  {
    if key in PainOptions then PainOptions[key] else PainOptions["other"]
  }

  /** The prompt shown for a segment key, falling back to that of `other`. */
  function PromptFor(key: string): (p: string)
    ensures key in SegmentPrompts ==> p == SegmentPrompts[key]
    ensures key !in SegmentPrompts ==> p == SegmentPrompts["other"]
  {
    if key in SegmentPrompts then SegmentPrompts[key] else SegmentPrompts["other"]
  }

  /** The `Segment` values in the order the segment list shows them. */
  const SegmentOrder: seq<Segment> := [RealEstate, Consulting, PersonalBrand, Agency, Finance, Construction, Other]

  /** The segment list is the segment keys in that order. */
  lemma SegmentsAreKeys()
    ensures |Segments| == |SegmentOrder| == 7
    ensures forall i :: 0 <= i < 7 ==> Segments[i].key == SegmentKey(SegmentOrder[i])
  {
  }

  /** Different segments are stored under different keys. */
  lemma SegmentKeyInjective(s: Segment, t: Segment)
    requires s != t
    ensures SegmentKey(s) != SegmentKey(t)
  {
    assert |SegmentKey(s)| != |SegmentKey(t)|;
  }

  /** `k` is the key of some entry of the segment list. */
  predicate Listed(k: string) {
    exists i :: 0 <= i < |Segments| && Segments[i].key == k
  }

  /** `k` is the key of some `Segment`. */
  ghost predicate IsSegmentKey(k: string) {
    exists s: Segment :: SegmentKey(s) == k
  }

  /** The segment list holds exactly the seven keys of the `Segment` type, once each. */
  lemma SegmentsMatchType()
    ensures |Segments| == 7 && DistinctKeys(Segments)
    ensures forall s: Segment :: Listed(SegmentKey(s))
    ensures forall i :: 0 <= i < |Segments| ==> IsSegmentKey(Segments[i].key)
  {
    SegmentsAreKeys();
    forall i, j | 0 <= i < j < |Segments| ensures Segments[i].key != Segments[j].key {
      SegmentKeyInjective(SegmentOrder[i], SegmentOrder[j]);
    }
    forall s: Segment ensures Listed(SegmentKey(s)) {
      var i := match s
        case RealEstate => 0 case Consulting => 1 case PersonalBrand => 2 case Agency => 3
        case Finance => 4 case Construction => 5 case Other => 6;
      assert SegmentOrder[i] == s;
      assert Segments[i].key == SegmentKey(SegmentOrder[i]);
    }
    forall i | 0 <= i < |Segments| ensures IsSegmentKey(Segments[i].key) {
      var s := SegmentOrder[i];
      assert Segments[i].key == SegmentKey(s);
    }
  }

  /** Every segment has its own pain options and its own prompt. */
  lemma EverySegmentCovered(s: Segment)
    ensures SegmentKey(s) in PainOptions && SegmentKey(s) in SegmentPrompts
    ensures |PainOptions[SegmentKey(s)]| >= 3
  {
  }

  /** Within each segment's list no pain key appears twice. */
  lemma PainKeysUnique(s: Segment)
    ensures DistinctKeys(PainOptions[SegmentKey(s)])
  {
  }

  /** With no segment answer, the pain step shows the `other` options and prompt. */
  lemma AbsentSegmentFallsBack()
    ensures PainOptionsFor(StepSegmentKey(None)) == PainOptions["other"]
    ensures PromptFor(StepSegmentKey(None)) == SegmentPrompts["other"]
  {
  }
}

=== FILE: results_generator.dfy ===
/** The original questionnaire's `ResultsGenerator`: the score clamp, the score bands, and the
    lists of recommendations, packages, next steps and call to action built from the answers.
    Packages, steps, categories and calls to action are identified by constructors; the
    industry texts are kept in full, by industry. */
module ResultsGenerator {
  import opened Wrappers
  import Text
  import JsNumber

  /** The answers the generator reads; the form writes each of them as text or not at all. */
  datatype Responses = Responses(
    industry: Option<string>,
    technicalLevel: Option<string>,
    budget: Option<string>,
    timeline: Option<string>)

  function Industry(r: Responses): string { TextOr(r.industry, "other") }

  function Timeline(r: Responses): string { TextOr(r.timeline, "quarter") }

  function TechnicalLevel(r: Responses): string { TextOr(r.technicalLevel, "beginner") }

  /** `parseInt(responses.budget) || 1500`: `NaN` and `0` are falsy and fall back to 1500;
      `parseInt(undefined)` reads the text "undefined" and is `NaN`. */
  function Budget(r: Responses): (b: int)
    ensures b != 0
    ensures r.budget.None? ==> b == 1500
    ensures r.budget.Some? ==> match JsNumber.ParseInt(r.budget.value)
      case None => b == 1500
      case Some(n) => b == if n == 0 then 1500 else n
  {
    if r.budget.None? then 1500
    else match JsNumber.ParseInt(r.budget.value)
      case None => 1500
      case Some(n) => if n == 0 then 1500 else n
  }

  // --- Score

  /** The last line of `calculateAutomationScore`: the rounded product clamped to 10..100. */
  function FinalScore(rounded: int): (s: int)
    ensures 10 <= s <= 100
    ensures 10 <= rounded <= 100 ==> s == rounded
    ensures rounded < 10 ==> s == 10
    ensures rounded > 100 ==> s == 100
  {
    var atLeast := if rounded > 10 then rounded else 10;
    if atLeast < 100 then atLeast else 100
  }

  /** Clamping keeps the order of scores and is idempotent. */
  lemma FinalScoreMonotone(a: int, b: int)
    requires a <= b
    ensures FinalScore(a) <= FinalScore(b)
    ensures FinalScore(FinalScore(a)) == FinalScore(a)
  {
  }

  // --- Bands, templates and titles

  datatype Band = LowBand | MediumBand | HighBand

  /** `getRecommendationTemplate(score)`, naming the template by its band. */
  function RecommendationTemplate(score: int): (b: Band)
    ensures b == HighBand <==> score >= 80
    ensures b == MediumBand <==> 60 <= score < 80
    ensures b == LowBand <==> score < 60
  {
    if score >= 80 then HighBand else if score >= 60 then MediumBand else LowBand
  }

  const IndustryKeys: seq<string> := ["real-estate", "consulting-coaching", "personal-brand",
                                      "creative-agency", "finance", "construction", "other"]

  /** `getIndustryDisplayName(industry)`; the title's own name table is the same. */
  function DisplayName(industry: string): (r: string)
    ensures industry !in IndustryKeys ==> r == "Business"
    ensures industry == "other" ==> r == "Business"
  {
    match industry
    case "real-estate" => "Real Estate"
    case "consulting-coaching" => "Consulting & Coaching"
    case "personal-brand" => "Personal Brand & Creator"
    case "creative-agency" => "Creative & Marketing Agency"
    case "finance" => "Finance & Private Equity"
    case "construction" => "Construction"
    case _ => "Business"
  }

  /** The three title sentences around the industry name, one per band. */
  function TitleText(b: Band, name: string): string {
    match b
    case HighBand => "\U{1F680} Your " + name + " Business is Ready for Advanced Automation!"
    case MediumBand => "\U{1F4A1} Great Automation Potential for Your " + name + " Business!"
    case LowBand => "\U{1F331} Automation Opportunities for Your " + name + " Business"
  }

  /** `generatePersonalizedTitle(responses, score)`, with its own score thresholds. */
  function PersonalizedTitle(r: Responses, score: int): string {
    var name := DisplayName(Industry(r));
    if score >= 80 then TitleText(HighBand, name)
    else if score >= 60 then TitleText(MediumBand, name)
    else TitleText(LowBand, name)
  }

  /** The title and the recommendation template always fall in the same band, and the title
      names the industry's display name (`Business` for an unknown or missing one). */
  lemma TitleAgreesWithTemplate(r: Responses, score: int)
    ensures PersonalizedTitle(r, score) == TitleText(RecommendationTemplate(score), DisplayName(Industry(r)))
    ensures r.industry.None? ==> PersonalizedTitle(r, score) == TitleText(RecommendationTemplate(score), "Business")
  {
  }

  // --- Pain point list

  /** One option of an industry's pain point question: `{value, label}`. */
  datatype PainOption = PainOption(value: string, caption: string)

  /** `options.find(opt => opt.value === point)`, giving its label. */
  function FindLabel(options: seq<PainOption>, point: string): (r: Option<string>)
    ensures r.Some? <==> exists i :: 0 <= i < |options| && options[i].value == point
    ensures r.Some? ==> exists i :: (0 <= i < |options| && options[i].value == point && options[i].caption == r.value
      && forall j :: 0 <= j < i ==> options[j].value != point)
  {
    if |options| == 0 then None
    else if options[0].value == point then Some(options[0].caption)
    else
      var rest := FindLabel(options[1..], point);
      assert forall i :: 1 <= i < |options| ==> options[i] == options[1..][i - 1];
      if rest.Some? then
        var i :| (0 <= i < |options[1..]| && options[1..][i].value == point && options[1..][i].caption == rest.value
          && forall j :: 0 <= j < i ==> options[1..][j].value != point);
        assert options[i + 1].value == point && options[i + 1].caption == rest.value;
        rest
      else rest
  }

  /** The text shown for one pain point: its option's label in lower case, else the raw value. */
  function PainLabel(options: seq<PainOption>, point: string): string {
    match FindLabel(options, point)
    case Some(text) => Text.AsciiLower(text)
    case None => point
  }

  function PainLabels(points: seq<string>, options: seq<PainOption>): (r: seq<string>)
    ensures |r| == |points|
    ensures forall i :: 0 <= i < |points| ==> r[i] == PainLabel(options, points[i])
  {
    if |points| == 0 then [] else [PainLabel(options, points[0])] + PainLabels(points[1..], options)
  }

  /** The list formatter's branches: one label alone, two joined by "and", otherwise all but the
      last joined by commas, then ", and " and the last. On an empty list the last element is
      `undefined`. */
  function FormatLabels(labels: seq<string>): string {
    if |labels| == 1 then labels[0]
    else if |labels| == 2 then labels[0] + " and " + labels[1]
    else if |labels| == 0 then ", and undefined"
    else Text.Join(labels[..|labels| - 1], ", ") + ", and " + labels[|labels| - 1]
  }

  /** `formatPainPointsList(painPoints, industryPainPointData)`. */
  function FormatPainPointsList(points: seq<string>, options: seq<PainOption>): string {
    FormatLabels(PainLabels(points, options))
  }

  /** A serial ("Oxford") comma list of two or more items, defined one item at a time. */
  function Serial(items: seq<string>): string
    requires |items| >= 2
  {
    if |items| == 2 then items[0] + ", and " + items[1]
    else items[0] + ", " + Serial(items[1..])
  }

  /** For three or more labels the formatter produces the serial comma list. */
  lemma FormatIsSerial(labels: seq<string>)
    requires |labels| >= 3
    ensures FormatLabels(labels) == Serial(labels)
  {
    JoinThenLast(labels);
  }

  lemma {:induction false} JoinThenLast(items: seq<string>)
    requires |items| >= 2
    ensures Text.Join(items[..|items| - 1], ", ") + ", and " + items[|items| - 1] == Serial(items)
    decreases |items|
  {
    var n := |items|;
    if n == 2 {
      assert items[..1] == [items[0]];
    } else {
      var init := items[..n - 1];
      assert init[0] == items[0];
      assert init[1..] == items[1..][..n - 2];
      JoinThenLast(items[1..]);
      assert items[1..][n - 2] == items[n - 1];
      var rest := Text.Join(init[1..], ", ");
      assert Text.Join(init, ", ") == items[0] + ", " + rest;
      assert items[0] + ", " + rest + ", and " + items[n - 1] == items[0] + ", " + (rest + ", and " + items[n - 1]);
    }
  }

  /** Callers only format non-empty lists; the empty list would print "undefined". */
  lemma EmptyListPrintsUndefined()
    ensures FormatPainPointsList([], []) == ", and undefined"
  {
  }

  /** A value without a matching option is shown as it is; a matched one as its lower-case label. */
  lemma PainLabelChoice(options: seq<PainOption>, point: string, i: int)
    requires 0 <= i < |options| && options[i].value == point
    requires forall j :: 0 <= j < i ==> options[j].value != point
    ensures PainLabel(options, point) == Text.AsciiLower(options[i].caption)
  {
    var r := FindLabel(options, point);
    var k :| (0 <= k < |options| && options[k].value == point && options[k].caption == r.value
      && forall j :: 0 <= j < k ==> options[j].value != point);
    assert k == i;
  }

  // --- Specific recommendations

  datatype Category =
    | EnterpriseSolutions | ProfessionalTools | StarterSolutions
    | AdvancedImplementation | IntermediateSolutions | BeginnerFriendly

  predicate IsBudgetCategory(c: Category) {
    c == EnterpriseSolutions || c == ProfessionalTools || c == StarterSolutions
  }

  /** `generateSpecificRecommendations`: one category chosen by budget, then one by technical
      level (anything but "advanced" and "intermediate" gets the beginner category). */
  function SpecificRecommendations(r: Responses): (cs: seq<Category>)
    ensures |cs| == 2 && IsBudgetCategory(cs[0]) && !IsBudgetCategory(cs[1])
    ensures cs[0] == EnterpriseSolutions <==> Budget(r) >= 3000
    ensures cs[0] == ProfessionalTools <==> 1500 <= Budget(r) < 3000
    ensures cs[1] == AdvancedImplementation <==> TechnicalLevel(r) == "advanced"
    ensures cs[1] == IntermediateSolutions <==> TechnicalLevel(r) == "intermediate"
  {
    var budget := Budget(r);
    var level := TechnicalLevel(r);
    [if budget >= 3000 then EnterpriseSolutions else if budget >= 1500 then ProfessionalTools else StarterSolutions,
     if level == "advanced" then AdvancedImplementation
     else if level == "intermediate" then IntermediateSolutions else BeginnerFriendly]
  }

  /** A missing, unreadable or zero budget is read as 1500: professional tools. */
  lemma DefaultBudgetIsProfessional(r: Responses)
    requires r.budget.None?
    ensures SpecificRecommendations(r)[0] == ProfessionalTools
  {
  }

  // --- Tailored solutions

  /** The industries that have texts of their own. */
  datatype IndustryKind = RealEstate | ConsultingCoaching | PersonalBrand | CreativeAgency | Finance
                        | Construction | OtherIndustry

  /** The key each industry is stored under; the same as the answer's value. */
  function KeyOf(kind: IndustryKind): (key: string)
    ensures key in IndustryKeys
  {
    match kind
    case RealEstate => "real-estate"
    case ConsultingCoaching => "consulting-coaching"
    case PersonalBrand => "personal-brand"
    case CreativeAgency => "creative-agency"
    case Finance => "finance"
    case Construction => "construction"
    case OtherIndustry => "other"
  }

  /** Whether `industryInsights[key]` is defined, and for which industry. */
  function IndustryOf(key: string): (k: Option<IndustryKind>)
    ensures k.Some? <==> key in IndustryKeys
  {
    match key
    case "real-estate" => Some(RealEstate)
    case "consulting-coaching" => Some(ConsultingCoaching)
    case "personal-brand" => Some(PersonalBrand)
    case "creative-agency" => Some(CreativeAgency)
    case "finance" => Some(Finance)
    case "construction" => Some(Construction)
    case "other" => Some(OtherIndustry)
    case _ => None
  }

  /** The key table and the industries correspond one to one. */
  lemma KeysRoundTrip(kind: IndustryKind, key: string)
    ensures IndustryOf(KeyOf(kind)) == Some(kind)
    ensures IndustryOf(key).Some? ==> KeyOf(IndustryOf(key).value) == key
  {
  }

  /** The industry texts of the results page. */
  datatype Insight = Insight(commonAutomations: seq<string>, averageRoi: string, timeToValue: string,
                             successStories: string)

  /** `industryInsights[key]` for each listed industry. */
  function InsightText(kind: IndustryKind): Insight {
    match kind
    case RealEstate =>
      Insight(
        ["Automated lead nurturing sequences", "Property listing syndication",
         "Client communication workflows", "Document generation and e-signatures"],
        "300-500%", "2-4 weeks",
        "Real estate agents typically see 40% reduction in admin time and 60% improvement in lead conversion rates.")
    case ConsultingCoaching =>
      Insight(
        ["Discovery call booking automation", "Client onboarding sequences",
         "Invoice and payment processing", "Content distribution workflows"],
        "250-400%", "1-3 weeks",
        "Consultants often achieve 50% reduction in administrative tasks and 3x faster client onboarding.")
    case PersonalBrand =>
      Insight(
        ["Social media content scheduling", "Email marketing sequences",
         "Lead capture and segmentation", "Course delivery automation"],
        "400-600%", "1-2 weeks",
        "Creators typically see 70% time savings on content distribution and 5x growth in email subscribers.")
    case CreativeAgency =>
      Insight(
        ["Project management workflows", "Client communication automation",
         "Time tracking and invoicing", "Asset management systems"],
        "200-350%", "3-6 weeks",
        "Agencies often achieve 35% improvement in project delivery time and 50% better resource utilization.")
    case Finance =>
      Insight(
        ["Deal pipeline and opportunity tracking", "Due diligence document processing",
         "Investor reporting and communication", "Compliance and regulatory reporting"],
        "150-300%", "4-8 weeks",
        "Finance firms typically see 60% reduction in reporting time and 90% improvement in compliance accuracy.")
    case Construction =>
      Insight(
        ["Project scheduling and timeline management", "Subcontractor coordination and communication",
         "Material ordering and inventory tracking", "Permit applications and approvals"],
        "200-400%", "4-8 weeks",
        "Construction companies often achieve 25% faster project completion and 40% reduction in administrative overhead.")
    case OtherIndustry =>
      Insight(
        ["Customer communication and follow-up", "Manual data entry and processing",
         "Appointment and meeting scheduling", "Reporting and analytics generation"],
        "200-400%", "2-6 weeks",
        "Businesses across various sectors report significant time savings and increased productivity through automation.")
  }

  datatype Solution = RapidPackage | ProfessionalPackage | StarterPackage | SpecialistPackage(industry: string)

  /** Position of each kind of package in the list. */
  function Rank(s: Solution): nat {
    match s
    case RapidPackage => 0
    case ProfessionalPackage => 1
    case StarterPackage => 2
    case SpecialistPackage(_) => 3
  }

  predicate Rapid(r: Responses) {
    Timeline(r) == "immediate" && Budget(r) >= 3000
  }

  /** `generateTailoredSolutions`: the rapid package for an immediate timeline with a budget of at
      least 3000, the professional one from 1500, always the starter package, and the specialist
      package when the industry has texts of its own. */
  function TailoredSolutions(r: Responses): (s: seq<Solution>)
    ensures 1 <= |s| <= 4
    ensures forall i, j :: 0 <= i < j < |s| ==> Rank(s[i]) < Rank(s[j])
    ensures StarterPackage in s
    ensures forall x :: x in s && Rank(x) <= 1 <==> x in LeadPackages(r)
    ensures (exists i :: 0 <= i < |s| && s[i].SpecialistPackage?) <==> IndustryOf(Industry(r)).Some?
    ensures forall i :: 0 <= i < |s| && s[i].SpecialistPackage? ==> s[i].industry == Industry(r)
  {
    var head := LeadPackages(r);
    var special: seq<Solution> := if IndustryOf(Industry(r)).Some? then [SpecialistPackage(Industry(r))] else [];
    Assembled(head, special);
    head + [StarterPackage] + special
  }

  /** The list the generator assembles: the lead packages, the starter package, then at most one
      specialist package, in increasing rank. */
  lemma Assembled(head: seq<Solution>, special: seq<Solution>)
    requires |head| <= 2 && forall i :: 0 <= i < |head| ==> Rank(head[i]) <= 1
    requires forall i, j :: 0 <= i < j < |head| ==> Rank(head[i]) < Rank(head[j])
    requires |special| <= 1 && forall i :: 0 <= i < |special| ==> special[i].SpecialistPackage?
    ensures var s := head + [StarterPackage] + special;
      1 <= |s| <= 4 && StarterPackage in s
      && (forall i, j :: 0 <= i < j < |s| ==> Rank(s[i]) < Rank(s[j]))
      && (forall x :: x in s && Rank(x) <= 1 <==> x in head)
      && ((exists i :: 0 <= i < |s| && s[i].SpecialistPackage?) <==> special != [])
      && (forall i :: 0 <= i < |s| && s[i].SpecialistPackage? ==> s[i] in special)
  {
    var s := head + [StarterPackage] + special;
    assert s[|head|] == StarterPackage;
    assert forall i :: 0 <= i < |s| ==> s[i] == if i < |head| then head[i] else if i == |head| then StarterPackage else special[0];
    assert special != [] ==> s[|s| - 1].SpecialistPackage?;
  }

  /** The professional package is listed exactly for a budget of at least 1500, the rapid one
      exactly for an immediate timeline with a budget of at least 3000. */
  lemma SolutionsByBudget(r: Responses)
    ensures ProfessionalPackage in TailoredSolutions(r) <==> Budget(r) >= 1500
    ensures RapidPackage in TailoredSolutions(r) <==> Rapid(r)
  {
    assert Rank(ProfessionalPackage) <= 1 && Rank(RapidPackage) <= 1;
  }

  /** The packages pushed before the starter one: the rapid package, then the professional one. */
  function LeadPackages(r: Responses): (h: seq<Solution>)
    ensures |h| <= 2 && forall i :: 0 <= i < |h| ==> Rank(h[i]) <= 1
    ensures forall i, j :: 0 <= i < j < |h| ==> Rank(h[i]) < Rank(h[j])
    ensures RapidPackage in h <==> Rapid(r)
    ensures ProfessionalPackage in h <==> Budget(r) >= 1500
  {
    // The rapid package needs a budget of 3000, which also brings the professional one.
    if Rapid(r) then [RapidPackage, ProfessionalPackage]
    else if Budget(r) >= 1500 then [ProfessionalPackage]
    else []
  }

  /** The features of the specialist package: the first three of the industry's automations,
      then the template line. */
  function SpecialistFeatures(insight: Insight): (f: seq<string>)
    ensures |f| == (if |insight.commonAutomations| < 3 then |insight.commonAutomations| else 3) + 1
    ensures f[..|f| - 1] <= insight.commonAutomations
    ensures f[|f| - 1] == "Industry-specific templates and workflows"
  {
    var firstThree := if |insight.commonAutomations| < 3 then insight.commonAutomations
                      else insight.commonAutomations[..3];
    firstThree + ["Industry-specific templates and workflows"]
  }

  /** `industryInsights[industry] || industryInsights['other']`: whose texts the results show. */
  function InsightOrOther(industry: string): (k: IndustryKind)
    ensures industry in IndustryKeys ==> KeyOf(k) == industry
    ensures industry !in IndustryKeys ==> k == OtherIndustry
  {
    match IndustryOf(industry)
    case Some(kind) => KeysRoundTrip(kind, industry); kind
    case None => OtherIndustry
  }

  /** The rapid package only comes with a budget that also brings the professional one. */
  lemma RapidImpliesProfessional(r: Responses)
    requires Rapid(r)
    ensures TailoredSolutions(r)[..2] == [RapidPackage, ProfessionalPackage]
  {
    var s := TailoredSolutions(r);
    var i :| 0 <= i < |s| && s[i] == RapidPackage;
    var j :| 0 <= j < |s| && s[j] == ProfessionalPackage;
  }

  // --- Next steps and call to action

  datatype Step = StrategyCall | JoinCommunity | FreeTraining | IdentifyFirstAutomation | PlanImplementation

  /** `generateNextSteps`: a strategy call or the community first, the free training for
      beginners (the default level), then the two fixed steps. */
  function NextSteps(r: Responses): (s: seq<Step>)
    ensures |s| == 3 || |s| == 4
    ensures s[0] == (if Timeline(r) == "immediate" then StrategyCall else JoinCommunity)
    ensures FreeTraining in s <==> TechnicalLevel(r) == "beginner"
    ensures |s| == 4 <==> TechnicalLevel(r) == "beginner"
    ensures s[|s| - 2..] == [IdentifyFirstAutomation, PlanImplementation]
  {
    var first := if Timeline(r) == "immediate" then StrategyCall else JoinCommunity;
    var training: seq<Step> := if TechnicalLevel(r) == "beginner" then [FreeTraining] else [];
    [first] + training + [IdentifyFirstAutomation, PlanImplementation]
  }

  /** Without a stated level the training step is offered. */
  lemma MissingLevelGetsTraining(r: Responses)
    requires r.technicalLevel.None?
    ensures |NextSteps(r)| == 4 && NextSteps(r)[1] == FreeTraining
  {
  }

  datatype Cta = RapidImplementationCall | JoinAutomationCommunity | FreeAutomationPlan | FreeResources

  /** `generateCTAMessage`: the rapid call takes precedence over the score; then the score bands. */
  function CtaMessage(r: Responses, score: int): (c: Cta)
    ensures c == RapidImplementationCall <==> Rapid(r)
    ensures c == JoinAutomationCommunity <==> !Rapid(r) && score >= 80
    ensures c == FreeAutomationPlan <==> !Rapid(r) && 60 <= score < 80
    ensures c == FreeResources <==> !Rapid(r) && score < 60
  {
    if Timeline(r) == "immediate" && Budget(r) >= 3000 then RapidImplementationCall
    else if score >= 80 then JoinAutomationCommunity
    else if score >= 60 then FreeAutomationPlan
    else FreeResources
  }

  /** The call to action offers the rapid call exactly when the rapid package is listed, and
      otherwise follows the recommendation template's band. */
  lemma CtaAgreesWithSolutions(r: Responses, score: int)
    ensures CtaMessage(r, score) == RapidImplementationCall <==> RapidPackage in TailoredSolutions(r)
    ensures !Rapid(r) ==> CtaMessage(r, score) == match RecommendationTemplate(score)
      case HighBand => JoinAutomationCommunity
      case MediumBand => FreeAutomationPlan
      case LowBand => FreeResources
  {
  }
}

=== FILE: scoring.dfy ===
/** The scoring engine: answers to five sub-scores, a tier and an offer (web/config/scoring.ts). */
module Scoring {
  import opened Wrappers
  import opened Store

  datatype Tier = Low | Mid | High

  datatype Offer = PlinkoPocket | PlaybookPro | PlaybookPlus

  function TierName(t: Tier): string {
    match t
    case Low => "low"
    case Mid => "mid"
    case High => "high"
  }

  function OfferName(o: Offer): string {
    match o
    case PlinkoPocket => "Plinko Pocket"
    case PlaybookPro => "Playbook Pro"
    case PlaybookPlus => "Playbook Plus"
  }

  /** The profile has no `score` field: only the five sub-scores, the tier and the offer. */
  datatype ScoreProfile = ScoreProfile(
    identityMaturity: int,
    integrationScore: int,
    painIntensity: int,
    budgetScore: int,
    urgencyScore: int,
    tier: Tier,
    offer: Offer)

  /** Team-size bands in increasing order; an absent answer ranks with `solo`. */
  function TeamRank(t: Option<TeamSize>): nat {
    match t
    case None => 0
    case Some(Solo) => 0
    case Some(TwoToFive) => 1
    case Some(SixToTwenty) => 2
    case Some(TwentyOnePlus) => 3
  }

  function ToolCount(tools: Option<seq<string>>): nat {
    match tools
    case None => 0
    case Some(ts) => |ts|
  }

  /** Identity maturity is the team-size band's rank capped at 2. */
  function IdentityMaturity(t: Option<TeamSize>): (r: int)
    ensures r == if TeamRank(t) < 2 then TeamRank(t) else 2
  {
    if t == Some(Solo) then 0
    else if t == Some(TwoToFive) then 1
    else if t == Some(SixToTwenty) || t == Some(TwentyOnePlus) then 2
    else 0
  }

  /** Integration is 3 with three or more tools or daily AI use, 2 with at least one tool,
      and 1 otherwise. */
  function IntegrationScore(tools: Option<seq<string>>, s: Option<Sentiment>): (r: int)
    ensures 1 <= r <= 3
    ensures r == 3 <==> ToolCount(tools) >= 3 || s == Some(Daily)
    ensures r == 1 <==> ToolCount(tools) == 0 && s != Some(Daily)
  {
    var n := if tools.Some? then |tools.value| else 0;
    if n >= 3 || s == Some(Daily) then 3 else if n >= 1 then 2 else 1
  }

  /** The pain-intensity sub-score is the same for every set of answers. */
  const PainIntensity: int := 2

  /** The monthly-value thresholds a budget is scored against. */
  const BudgetThresholds: seq<int> := [500, 2000, 5000]

  /** How many of `ts` are at most `v`. */
  function Reached(ts: seq<int>, v: int): nat {
    if |ts| == 0 then 0 else (if ts[0] <= v then 1 else 0) + Reached(ts[1..], v)
  }

  /** The budget score counts the thresholds the monthly value reaches; absent counts as 0. */
  function BudgetScore(valuePerMonth: Option<int>): (r: int)
    ensures r == Reached(BudgetThresholds, valuePerMonth.GetOr(0))
  {
    var budget := valuePerMonth.GetOr(0);
    ReachedBudgetThresholds(budget);
    if budget >= 5000 then 3 else if budget >= 2000 then 2 else if budget >= 500 then 1 else 0
  }

  lemma ReachedBudgetThresholds(v: int)
    ensures Reached(BudgetThresholds, v)
      == (if v >= 5000 then 3 else if v >= 2000 then 2 else if v >= 500 then 1 else 0)
  {
    var ts := BudgetThresholds;
    assert ts[1..] == [2000, 5000] && ts[1..][1..] == [5000] && ts[1..][1..][1..] == [];
    assert Reached([5000], v) == (if 5000 <= v then 1 else 0) + Reached([], v);
    assert Reached([2000, 5000], v) == (if 2000 <= v then 1 else 0) + Reached([5000], v);
    assert Reached(ts, v) == (if 500 <= v then 1 else 0) + Reached([2000, 5000], v);
  }

  /** Urgency is 2 for `asap` and `30d`, 1 for `quarter`, 0 for anything else or nothing. */
  function UrgencyScore(u: Option<Urgency>): (r: int)
    ensures 0 <= r <= 2
    ensures r == 2 <==> u == Some(Asap) || u == Some(ThirtyDays)
    ensures r == 1 <==> u == Some(Quarter)
  {
    if u == Some(Asap) || u == Some(ThirtyDays) then 2 else if u == Some(Quarter) then 1 else 0
  }

  /** The tier bands of the summed sub-scores. */
  function TierOf(total: int): (t: Tier)
    ensures t == Low <==> total <= 4
    ensures t == Mid <==> 5 <= total <= 7
    ensures t == High <==> total >= 8
  {
    if total <= 4 then Low else if total <= 7 then Mid else High
  }

  function OfferOf(t: Tier): Offer {
    match t
    case Low => PlinkoPocket
    case Mid => PlaybookPro
    case High => PlaybookPlus
  }

  /** The tier an offer is made to: the inverse of `OfferOf`. */
  function TierOfOffer(o: Offer): (t: Tier)
    ensures OfferOf(t) == o
  {
    match o
    case PlinkoPocket => Low
    case PlaybookPro => Mid
    case PlaybookPlus => High
  }

  function Total(p: ScoreProfile): int {
    p.identityMaturity + p.integrationScore + p.painIntensity + p.budgetScore + p.urgencyScore
  }

  /** `scoreProfile(a)`. */
  function ScoreProfileOf(a: Answers): (p: ScoreProfile)
    ensures 0 <= p.identityMaturity <= 2 && 1 <= p.integrationScore <= 3
    ensures p.painIntensity == 2 && 0 <= p.budgetScore <= 3 && 0 <= p.urgencyScore <= 2
    ensures 3 <= Total(p) <= 12
    ensures p.tier == TierOf(Total(p)) && p.offer == OfferOf(p.tier)
  {
    var im := IdentityMaturity(a.teamSize);
    var ig := IntegrationScore(a.tools, a.sentiment);
    var bs := BudgetScore(a.valuePerMonth);
    var us := UrgencyScore(a.urgency);
    var total := im + ig + PainIntensity + bs + us;
    var tier := TierOf(total);
    ScoreProfile(im, ig, PainIntensity, bs, us, tier, OfferOf(tier))
  }

  /** A larger monthly value never lowers the budget score. */
  lemma {:induction false} BudgetMonotone(v: int, w: int)
    requires v <= w
    ensures BudgetScore(Some(v)) <= BudgetScore(Some(w))
  {
    ReachedMonotone(BudgetThresholds, v, w);
  }

  lemma {:induction false} ReachedMonotone(ts: seq<int>, v: int, w: int)
    requires v <= w
    ensures Reached(ts, v) <= Reached(ts, w)
    decreases |ts|
  {
    if |ts| > 0 {
      ReachedMonotone(ts[1..], v, w);
    }
  }

  /** The budget bands: [0,500) scores 0, [500,2000) 1, [2000,5000) 2, and 5000 up 3. */
  lemma BudgetBands(v: int)
    ensures v < 500 ==> BudgetScore(Some(v)) == 0
    ensures 500 <= v < 2000 ==> BudgetScore(Some(v)) == 1
    ensures 2000 <= v < 5000 ==> BudgetScore(Some(v)) == 2
    ensures 5000 <= v ==> BudgetScore(Some(v)) == 3
    ensures BudgetScore(None) == 0
  {
  }

  /** A larger team never lowers identity maturity. */
  lemma IdentityMonotone(t: Option<TeamSize>, u: Option<TeamSize>)
    requires TeamRank(t) <= TeamRank(u)
    ensures IdentityMaturity(t) <= IdentityMaturity(u)
  {
  }

  /** More tools never lower the integration score. */
  lemma IntegrationMonotone(tools: seq<string>, more: seq<string>, s: Option<Sentiment>)
    requires |tools| <= |more|
    ensures IntegrationScore(Some(tools), s) <= IntegrationScore(Some(more), s)
  {
  }

  function TierRank(t: Tier): nat {
    match t
    case Low => 0
    case Mid => 1
    case High => 2
  }

  /** A larger total never gives a lower tier. */
  lemma TierMonotone(x: int, y: int)
    requires x <= y
    ensures TierRank(TierOf(x)) <= TierRank(TierOf(y))
  {
  }

  /** Offers and tiers correspond one to one. */
  lemma OfferBijection(t: Tier, u: Tier)
    ensures TierOfOffer(OfferOf(t)) == t
    ensures OfferOf(t) == OfferOf(u) ==> t == u
  {
  }

  /** Tier and offer depend on the answers only through the sum of the sub-scores. */
  lemma TierDependsOnlyOnTotal(a: Answers, b: Answers)
    requires Total(ScoreProfileOf(a)) == Total(ScoreProfileOf(b))
    ensures ScoreProfileOf(a).tier == ScoreProfileOf(b).tier
    ensures ScoreProfileOf(a).offer == ScoreProfileOf(b).offer
  {
  }

  /** Finance, 21+, five tools, daily use, 8000 a month, asap: 2,3,2,3,2 and the top offer. */
  lemma HighTierScenario()
    ensures var p := ScoreProfileOf(Answers(Some(Finance), Some(TwentyOnePlus), Some(Daily),
        Some(["Salesforce", "HubSpot", "Slack", "Zoom", "Notion"]), Some("manual_processes"),
        None, Some(8000), Some(Asap), None, None));
      p == ScoreProfile(2, 3, 2, 3, 2, High, PlaybookPlus)
  {
  }

  /** Other, solo, no tools, just starting, 200 a month, research: 0,1,2,0,0 and the entry offer. */
  lemma LowTierScenario()
    ensures var p := ScoreProfileOf(Answers(Some(Other), Some(Solo), Some(Starting), Some([]),
        Some("other"), None, Some(200), Some(Research), None, None));
      p == ScoreProfile(0, 1, 2, 0, 0, Low, PlinkoPocket) && Total(p) == 3
  {
  }

  /** The empty record scores 0,1,2,0,0: the lowest tier. */
  lemma EmptyAnswersScore()
    ensures ScoreProfileOf(Initial()) == ScoreProfile(0, 1, 2, 0, 0, Low, PlinkoPocket)
  {
  }
}

=== FILE: secure_link.dfy ===
/**
 * Signed report links (web/lib/secure-link.ts). A link is the query
 * `token=<base64 payload>.<base64 HMAC>&expires=<timestamp>`; validation reads it back with
 * `URLSearchParams` and checks format, expiry, payload and signature in that order.
 *
 * HMAC-SHA256, base64 and the JSON codec are parameters. The clock is the `now` argument.
 */
module SecureLink {
  import opened Wrappers
  import Text
  import Json
  import JsNumber
  import FormUrlencoded

  /** `createHmac('sha256', key).update(message).digest('base64')`, `Buffer.from(s).toString('base64')`
      and `Buffer.from(s, 'base64').toString('utf8')`. */
  datatype Crypto = Crypto(
    hmacBase64: (string, string) -> string,
    base64Encode: string -> string,
    base64Decode: string -> string)

  predicate Base64Char(c: char) {
    Text.IsAsciiLetter(c) || Text.IsAsciiDigit(c) || c == '+' || c == '/' || c == '='
  }

  predicate Base64Text(s: string) {
    forall i :: 0 <= i < |s| ==> Base64Char(s[i])
  }

  /** Both encoders write only characters of the base64 alphabet. */
  ghost predicate Shaped(c: Crypto) {
    (forall k, m :: Base64Text(c.hmacBase64(k, m))) && (forall s :: Base64Text(c.base64Encode(s)))
  }

  /** Decoding an encoding gives back the encoded text. */
  ghost predicate RoundTrip(c: Crypto) {
    forall s :: c.base64Decode(c.base64Encode(s)) == s
  }

  /** Decoding an encoded text followed by `.` and anything gives back the text: what a decoder
      must do for the whole `payload.signature` token to decode to the payload. */
  ghost predicate SuffixTolerant(c: Crypto) {
    forall s, t :: c.base64Decode(c.base64Encode(s) + "." + t) == s
  }

  /** Node's `Buffer.from(s, 'base64')`: characters outside the alphabet, `.` among them, are
      skipped, and decoding stops only at `=` padding or at the end. An encoding without padding
      therefore runs on into whatever follows it. */
  ghost predicate LegacyDecoder(c: Crypto) {
    forall s, t :: '=' !in c.base64Encode(s) ==> c.base64Decode(c.base64Encode(s) + "." + t) == s + c.base64Decode(t)
  }

  /** `REPORT_LINK_SECRET` and `REPORT_LINK_EXPIRY_DAYS`. */
  datatype Env = Env(secret: Option<string>, expiryDays: Option<string>)

  const DefaultSecret := "default-secret"
  const DefaultExpiryDays := "7"
  const DayMs := 24 * 60 * 60 * 1000

  function Secret(env: Env): string {
    TextOr(env.secret, DefaultSecret)
  }

  /** `Date.now() + parseInt(expiry) * 86400000`; `None` stands for `NaN`, which a day count that
      does not parse produces. An unset or empty day count means seven days. */
  function ExpiryTimestamp(env: Env, now: int): (r: Option<int>)
    ensures r.None? <==> JsNumber.ParseInt(TextOr(env.expiryDays, DefaultExpiryDays)).None?
    ensures r.Some? ==> r.value == now + JsNumber.ParseInt(TextOr(env.expiryDays, DefaultExpiryDays)).value * DayMs
    ensures env.expiryDays.None? || env.expiryDays == Some("") ==> r == Some(now + 7 * 86400000)
  {
    DefaultDaysParse();
    match JsNumber.ParseInt(TextOr(env.expiryDays, DefaultExpiryDays))
    case None => None
    case Some(days) => Some(now + days * DayMs)
  }

  /** The default day count reads as seven. */
  lemma DefaultDaysParse()
    ensures JsNumber.ParseInt(DefaultExpiryDays) == Some(7)
  {
    JsNumber.ParseIntOfDecimal(7);
    assert Text.IntToDecimal(7) == DefaultExpiryDays;
  }

  /** A number as a template literal prints it: decimal digits, or `NaN`. */
  function NumberText(n: Option<int>): (r: string)
    ensures r != "" && '&' !in r && '=' !in r && '.' !in r && '+' !in r
    ensures FormUrlencoded.Plain(r)
  {
    match n
    case None => "NaN"
    case Some(v) => DecimalShape(v); Text.IntToDecimal(v)
  }

  lemma DecimalShape(v: int)
    ensures var s := Text.IntToDecimal(v);
      s != "" && forall i :: 0 <= i < |s| ==> s[i] == '-' || Text.IsAsciiDigit(s[i])
  {
    var s := Text.IntToDecimal(v);
    if v < 0 {
      assert forall i :: 1 <= i < |s| ==> s[i] == Text.NatToDecimal(-v)[i - 1];
    }
  }

  /** The token's two halves: the base64 payload and the base64 HMAC of the payload. */
  function Payload(data: Json.Json, codec: Json.Codec): string {
    codec.stringify(data)
  }

  function Signature(data: Json.Json, env: Env, codec: Json.Codec, crypto: Crypto): string {
    crypto.hmacBase64(Secret(env), Payload(data, codec))
  }

  function Combined(data: Json.Json, env: Env, codec: Json.Codec, crypto: Crypto): string {
    crypto.base64Encode(Payload(data, codec)) + "." + Signature(data, env, codec, crypto)
  }

  /** `createSecureLink(data)` at time `now`. */
  function CreateSecureLink(data: Json.Json, env: Env, now: int, codec: Json.Codec, crypto: Crypto): string {
    "token" + "=" + Combined(data, env, codec, crypto) + "&" + "expires" + "=" + NumberText(ExpiryTimestamp(env, now))
  }

  datatype Validation = Valid(data: Json.Json) | Invalid(error: string)

  const FormatError := "Invalid token format"
  const ExpiredError := "Token has expired"
  const SignatureError := "Invalid token signature"
  const FailedError := "Token validation failed"

  /** `s.split('.')[1]`, which is `undefined` when `s` has no `.`. */
  function SecondPiece(s: string): (r: Option<string>)
    ensures r.None? <==> '.' !in s
  {
    var pieces := Text.Split(s, '.');
    if |pieces| >= 2 then
      SecondPieceHasDot(s);
      Some(pieces[1])
    else
      NoDotOnePiece(s);
      None
  }

  /** `s.split('.')[0]`: the text before the first `.`, or all of `s` when it has none. */
  function FirstPiece(s: string): (r: string)
    ensures '.' !in r
    ensures '.' !in s ==> r == s
  {
    if '.' !in s then
      Text.SplitWithout(s, '.');
      Text.Split(s, '.')[0]
    else
      Text.Split(s, '.')[0]
  }

  /** The first `.`-piece of a text without `.`, followed by `.` and anything, is that text. */
  lemma FirstPieceOfPrefix(b: string, t: string)
    requires '.' !in b
    ensures FirstPiece(b + "." + t) == b
  {
    Text.SplitPrefix(b, '.', t);
    assert b + "." + t == b + ['.'] + t;
  }

  lemma NoDotOnePiece(s: string)
    requires |Text.Split(s, '.')| < 2
    ensures '.' !in s
  {
    if '.' in s {
      var i :| 0 <= i < |s| && s[i] == '.';
      SplitAtDot(s, i);
    }
  }

  lemma {:induction false} SplitAtDot(s: string, i: int)
    requires 0 <= i < |s| && s[i] == '.'
    ensures |Text.Split(s, '.')| >= 2
    decreases |s|
  {
    if s[0] != '.' {
      SplitAtDot(s[1..], i - 1);
    }
  }

  lemma {:induction false} SecondPieceHasDot(s: string)
    requires |Text.Split(s, '.')| >= 2
    ensures '.' in s
    decreases |s|
  {
    if s[0] != '.' {
      SecondPieceHasDot(s[1..]);
      assert s[1..] <= s[1..] && forall c :: c in s[1..] ==> c in s;
    }
  }

  /** A falsy query parameter: missing or empty. */
  predicate Falsy(p: Option<string>) {
    p.None? || p == Some("")
  }

  /** `Date.now() > parseInt(expires)`; a `NaN` expiry compares false. */
  predicate Expired(expires: string, now: int) {
    JsNumber.ParseInt(expires).Some? && now > JsNumber.ParseInt(expires).value
  }

  /** Everything after the query has been read: the format check, then expiry, then the
      payload, then the signature. Each verdict is stated by the first check that fails. */
  function Check(encodedPayload: Option<string>, expires: Option<string>, secret: string, now: int,
                 codec: Json.Codec, crypto: Crypto): (r: Validation)
    ensures r == Invalid(FormatError) <==>
      encodedPayload.None? || encodedPayload == Some("") || expires.None? || expires == Some("")
    ensures r == Invalid(ExpiredError) <==>
      !Falsy(encodedPayload) && !Falsy(expires) && Expired(expires.value, now)
    ensures r == Invalid(FailedError) <==>
      && !Falsy(encodedPayload) && !Falsy(expires) && !Expired(expires.value, now)
      && codec.parse(crypto.base64Decode(encodedPayload.value)).None?
    ensures r == Invalid(SignatureError) <==>
      && !Falsy(encodedPayload) && !Falsy(expires) && !Expired(expires.value, now)
      && codec.parse(crypto.base64Decode(encodedPayload.value)).Some?
      && SecondPiece(encodedPayload.value) != Some(crypto.hmacBase64(secret, crypto.base64Decode(encodedPayload.value)))
    ensures r.Valid? || r.error in {FormatError, ExpiredError, FailedError, SignatureError}
    ensures r.Valid? ==>
      && encodedPayload.Some? && expires.Some?
      && (JsNumber.ParseInt(expires.value).Some? ==> now <= JsNumber.ParseInt(expires.value).value)
      && codec.parse(crypto.base64Decode(encodedPayload.value)) == Some(r.data)
      && SecondPiece(encodedPayload.value) == Some(crypto.hmacBase64(secret, crypto.base64Decode(encodedPayload.value)))
  {
    if encodedPayload.None? || encodedPayload == Some("") || expires.None? || expires == Some("") then
      Invalid(FormatError)
    else
      var ts := JsNumber.ParseInt(expires.value);
      if ts.Some? && now > ts.value then Invalid(ExpiredError)
      else
        var payload := crypto.base64Decode(encodedPayload.value);
        match codec.parse(payload)
        case None => Invalid(FailedError)
        case Some(data) =>
          if Some(crypto.hmacBase64(secret, payload)) != SecondPiece(encodedPayload.value) then
            Invalid(SignatureError)
          else
            Valid(data)
  }

  /** `validateSecureLink(token)` at time `now`, with `decode` the UTF-8 decoder behind
      `URLSearchParams`. */
  function ValidateSecureLink(token: string, env: Env, now: int, codec: Json.Codec, crypto: Crypto,
                              decode: seq<FormUrlencoded.Byte> -> string): Validation
  {
    var params := FormUrlencoded.FromString(token, decode);
    Check(FormUrlencoded.Get(params, "token"), FormUrlencoded.Get(params, "expires"), Secret(env), now, codec, crypto)
  }

  /** The primitives with a decoder that reads only the payload's half of the token,
      `Buffer.from(s.split('.')[0], 'base64')`. */
  function PayloadOnly(crypto: Crypto): (r: Crypto)
    ensures r.hmacBase64 == crypto.hmacBase64 && r.base64Encode == crypto.base64Encode
    ensures forall s :: r.base64Decode(s) == crypto.base64Decode(FirstPiece(s))
  {
    crypto.(base64Decode := s => crypto.base64Decode(FirstPiece(s)))
  }

  /** Validation with the token's `+` signs restored, since `URLSearchParams` reads an unescaped
      `+` as a space and base64 text never holds a space, and with only the payload's half of the
      token decoded. */
  function ValidateSecureLinkCorrected(token: string, env: Env, now: int, codec: Json.Codec, crypto: Crypto,
                                       decode: seq<FormUrlencoded.Byte> -> string): Validation
  {
    var params := FormUrlencoded.FromString(token, decode);
    var encoded := match FormUrlencoded.Get(params, "token") case None => None case Some(t) => Some(Text.ReplaceChar(t, ' ', '+'));
    Check(encoded, FormUrlencoded.Get(params, "expires"), Secret(env), now, codec, PayloadOnly(crypto))
  }

  // --- Reading a created link back ---------------------------------------------------------

  lemma Base64Plain(s: string)
    requires Base64Text(s)
    ensures FormUrlencoded.Plain(s) && '&' !in s && '.' !in s && ' ' !in s
  {
  }

  lemma NoPlusUnchanged(s: string)
    requires '+' !in s
    ensures FormUrlencoded.PlusAsSpace(s) == s
  {
  }

  /** What `URLSearchParams` reads from `n1=v1&n2=v2` when everything in it is plain text:
      the values with `+` turned into spaces. */
  lemma ReadTwoParams(n1: string, v1: string, n2: string, v2: string, decode: seq<FormUrlencoded.Byte> -> string)
    requires FormUrlencoded.Utf8Lawful(decode)
    requires FormUrlencoded.Plain(n1) && FormUrlencoded.Plain(n2) && n1 != n2 && |n1| > 0 && n1[0] != '?'
    requires '+' !in n1 && '+' !in n2 && '=' !in n1 && '=' !in n2 && '&' !in n1 && '&' !in n2
    requires FormUrlencoded.Plain(v1) && FormUrlencoded.Plain(v2) && '&' !in v1 && '&' !in v2
    ensures var params := FormUrlencoded.FromString(n1 + "=" + v1 + "&" + n2 + "=" + v2, decode);
      FormUrlencoded.Get(params, n1) == Some(FormUrlencoded.PlusAsSpace(v1))
      && FormUrlencoded.Get(params, n2) == Some(FormUrlencoded.PlusAsSpace(v2))
  {
    var link := n1 + "=" + v1 + "&" + n2 + "=" + v2;
    var params := FormUrlencoded.FromString(link, decode);
    assert params == FormUrlencoded.Parse(link, decode) by { assert link[0] == n1[0]; }
    AmpersandFree(n1, v1);
    AmpersandFree(n2, v2);
    FormUrlencoded.ParseTwoPieces(n1, v1, n2, v2, decode);
    PlainPair(n1, v1, decode);
    PlainPair(n2, v2, decode);
    FormUrlencoded.GetOfTwo((n1, FormUrlencoded.PlusAsSpace(v1)), (n2, FormUrlencoded.PlusAsSpace(v2)));
  }

  /** Joining two pieces without `&` gives none. */
  lemma AmpersandFree(x: string, y: string)
    requires '&' !in x && '&' !in y
    ensures '&' !in x + y
  {
    assert forall ch :: ch in x + y ==> ch in x || ch in y;
  }

  /** A plain name without `+` reads back as itself, a plain value with `+` read as a space. */
  lemma PlainPair(n: string, v: string, decode: seq<FormUrlencoded.Byte> -> string)
    requires FormUrlencoded.Utf8Lawful(decode)
    requires FormUrlencoded.Plain(n) && '+' !in n && FormUrlencoded.Plain(v)
    ensures FormUrlencoded.DecodeText(n, decode) == n
    ensures FormUrlencoded.DecodeText(v, decode) == FormUrlencoded.PlusAsSpace(v)
  {
    FormUrlencoded.DecodePlainText(n, decode);
    FormUrlencoded.DecodePlainText(v, decode);
    NoPlusUnchanged(n);
  }

  /** The same for the link's own two names. */
  lemma ReadTokenQuery(c: string, e: string, decode: seq<FormUrlencoded.Byte> -> string)
    requires FormUrlencoded.Utf8Lawful(decode)
    requires FormUrlencoded.Plain(c) && '&' !in c
    requires FormUrlencoded.Plain(e) && '&' !in e && '+' !in e
    ensures var params := FormUrlencoded.FromString("token" + "=" + c + "&" + "expires" + "=" + e, decode);
      FormUrlencoded.Get(params, "token") == Some(FormUrlencoded.PlusAsSpace(c))
      && FormUrlencoded.Get(params, "expires") == Some(e)
  {
    ParamNames();
    ReadTwoParams("token", c, "expires", e, decode);
    NoPlusUnchanged(e);
  }

  /** The two parameter names are plain ASCII and hold none of the query's separators. */
  lemma ParamNames()
    ensures FormUrlencoded.Plain("token") && FormUrlencoded.Plain("expires") && "token" != "expires"
    ensures "token"[0] != '?' && '+' !in "token" && '=' !in "token" && '&' !in "token"
    ensures '+' !in "expires" && '=' !in "expires" && '&' !in "expires"
  {
    assert |"token"| != |"expires"|;
  }

  /** The token of a created link is plain base64 text around one `.`. */
  lemma CombinedShape(b: string, sig: string)
    requires Base64Text(b) && Base64Text(sig)
    ensures var c := b + "." + sig;
      FormUrlencoded.Plain(c) && '&' !in c && ' ' !in c && c != ""
  {
    var c := b + "." + sig;
    forall i | 0 <= i < |c| ensures c[i] as int < 0x80 && c[i] != '%' && c[i] != '&' && c[i] != ' ' {
      if i < |b| { assert c[i] == b[i]; } else if i > |b| { assert c[i] == sig[i - |b| - 1]; }
    }
  }

  /** What `URLSearchParams` reads from a created link. */
  lemma ReadCreatedLink(data: Json.Json, env: Env, now: int, codec: Json.Codec, crypto: Crypto,
                        decode: seq<FormUrlencoded.Byte> -> string)
    requires FormUrlencoded.Utf8Lawful(decode)
    requires Shaped(crypto)
    ensures var params := FormUrlencoded.FromString(CreateSecureLink(data, env, now, codec, crypto), decode);
      FormUrlencoded.Get(params, "token") == Some(FormUrlencoded.PlusAsSpace(Combined(data, env, codec, crypto)))
      && FormUrlencoded.Get(params, "expires") == Some(NumberText(ExpiryTimestamp(env, now)))
  {
    var b := crypto.base64Encode(Payload(data, codec));
    var sig := Signature(data, env, codec, crypto);
    CombinedShape(b, sig);
    ReadTokenQuery(Combined(data, env, codec, crypto), NumberText(ExpiryTimestamp(env, now)), decode);
  }

  /** The token's second `.`-piece is the signature. */
  lemma SecondPieceOfCombined(b: string, sig: string)
    requires '.' !in b && '.' !in sig
    ensures SecondPiece(b + "." + sig) == Some(sig)
  {
    Text.SplitPrefix(b, '.', sig);
    Text.SplitWithout(sig, '.');
    assert b + "." + sig == b + ['.'] + sig;
  }

  /** The expiry text of a link, read back, is the timestamp it was made from. */
  lemma ExpiryReadsBack(t: Option<int>)
    ensures JsNumber.ParseInt(NumberText(t)) == t
  {
    if t.Some? {
      JsNumber.ParseIntOfDecimal(t.value);
    }
  }

  /** The checks pass on an unexpired token made of a payload's encoding and its signature. */
  lemma CheckSignedToken(payload: string, data: Json.Json, e: string, secret: string, now: int,
                         codec: Json.Codec, crypto: Crypto)
    requires Shaped(crypto) && SuffixTolerant(crypto)
    requires codec.parse(payload) == Some(data)
    requires e != "" && (JsNumber.ParseInt(e).Some? ==> now <= JsNumber.ParseInt(e).value)
    ensures Check(Some(crypto.base64Encode(payload) + "." + crypto.hmacBase64(secret, payload)), Some(e),
                  secret, now, codec, crypto) == Valid(data)
  {
    var b := crypto.base64Encode(payload);
    var sig := crypto.hmacBase64(secret, payload);
    Base64Plain(b);
    Base64Plain(sig);
    CombinedShape(b, sig);
    SecondPieceOfCombined(b, sig);
    assert crypto.base64Decode(b + "." + sig) == payload;
  }

  lemma PlusRestored(s: string)
    requires ' ' !in s
    ensures Text.ReplaceChar(FormUrlencoded.PlusAsSpace(s), ' ', '+') == s
  {
  }

  /** Decoding only the payload's half makes any round-tripping decoder tolerate the signature. */
  lemma PayloadOnlyTolerant(crypto: Crypto)
    requires Shaped(crypto) && RoundTrip(crypto)
    ensures Shaped(PayloadOnly(crypto)) && SuffixTolerant(PayloadOnly(crypto))
  {
    forall s, t ensures PayloadOnly(crypto).base64Decode(crypto.base64Encode(s) + "." + t) == s {
      Base64Plain(crypto.base64Encode(s));
      FirstPieceOfPrefix(crypto.base64Encode(s), t);
    }
  }

  /** A link validates, up to its expiry, with the payload it was created from, once the `+`
      signs in its token are restored and only its payload half is decoded. */
  lemma CreateThenValidateCorrected(data: Json.Json, env: Env, now: int, later: int, codec: Json.Codec,
                                    crypto: Crypto, decode: seq<FormUrlencoded.Byte> -> string)
    requires Json.Lawful(codec) && FormUrlencoded.Utf8Lawful(decode)
    requires Shaped(crypto) && RoundTrip(crypto)
    requires ExpiryTimestamp(env, now).Some? ==> later <= ExpiryTimestamp(env, now).value
    ensures ValidateSecureLinkCorrected(CreateSecureLink(data, env, now, codec, crypto), env, later, codec, crypto, decode)
            == Valid(data)
  {
    ReadCreatedLink(data, env, now, codec, crypto, decode);
    var payload := Payload(data, codec);
    var c := Combined(data, env, codec, crypto);
    CombinedShape(crypto.base64Encode(payload), Signature(data, env, codec, crypto));
    PlusRestored(c);
    ExpiryReadsBack(ExpiryTimestamp(env, now));
    PayloadOnlyTolerant(crypto);
    CheckSignedToken(payload, data, NumberText(ExpiryTimestamp(env, now)), Secret(env), later, codec, PayloadOnly(crypto));
  }

  /** With Node's decoder, a created link whose payload encodes without `=` padding (a payload
      whose UTF-8 length is a multiple of 3) decodes to the payload followed by the signature's
      bytes. Unless `JSON.parse` accepts that, the link is refused as a failed validation before
      its expiry, though it is correctly signed. */
  lemma UnpaddedPayloadFails(data: Json.Json, env: Env, now: int, later: int, codec: Json.Codec,
                             crypto: Crypto, decode: seq<FormUrlencoded.Byte> -> string)
    requires FormUrlencoded.Utf8Lawful(decode) && Shaped(crypto) && LegacyDecoder(crypto)
    requires '=' !in crypto.base64Encode(Payload(data, codec)) && '+' !in Combined(data, env, codec, crypto)
    requires codec.parse(Payload(data, codec) + crypto.base64Decode(Signature(data, env, codec, crypto))).None?
    requires ExpiryTimestamp(env, now).Some? ==> later <= ExpiryTimestamp(env, now).value
    ensures ValidateSecureLink(CreateSecureLink(data, env, now, codec, crypto), env, later, codec, crypto, decode)
            == Invalid(FailedError)
  {
    ReadCreatedLink(data, env, now, codec, crypto, decode);
    var c := Combined(data, env, codec, crypto);
    CombinedShape(crypto.base64Encode(Payload(data, codec)), Signature(data, env, codec, crypto));
    NoPlusUnchanged(c);
    ExpiryReadsBack(ExpiryTimestamp(env, now));
  }

  /** Once its expiry has passed, a created link is rejected as expired, whatever else it holds. */
  lemma CreatedLinkExpires(data: Json.Json, env: Env, now: int, later: int, codec: Json.Codec,
                           crypto: Crypto, decode: seq<FormUrlencoded.Byte> -> string)
    requires FormUrlencoded.Utf8Lawful(decode) && Shaped(crypto)
    requires ExpiryTimestamp(env, now).Some? && later > ExpiryTimestamp(env, now).value
    ensures ValidateSecureLink(CreateSecureLink(data, env, now, codec, crypto), env, later, codec, crypto, decode)
            == Invalid(ExpiredError)
  {
    ReadCreatedLink(data, env, now, codec, crypto, decode);
    var c := Combined(data, env, codec, crypto);
    CombinedShape(crypto.base64Encode(Payload(data, codec)), Signature(data, env, codec, crypto));
    assert |FormUrlencoded.PlusAsSpace(c)| == |c|;
    ExpiryReadsBack(ExpiryTimestamp(env, now));
  }

  lemma {:induction false} PlusAsSpaceConcat(a: string, b: string)
    ensures FormUrlencoded.PlusAsSpace(a + b) == FormUrlencoded.PlusAsSpace(a) + FormUrlencoded.PlusAsSpace(b)
  {
  }

  /** The checks never accept a token whose second piece holds a space. */
  lemma SpacedSignatureRejected(encoded: string, e: Option<string>, secret: string, now: int,
                                codec: Json.Codec, crypto: Crypto)
    requires Shaped(crypto)
    requires SecondPiece(encoded).Some? && ' ' in SecondPiece(encoded).value
    ensures !Check(Some(encoded), e, secret, now, codec, crypto).Valid?
  {
    var expected := crypto.hmacBase64(secret, crypto.base64Decode(encoded));
    assert Base64Text(expected);
    assert ' ' !in expected;
    assert SecondPiece(encoded) != Some(expected);
  }

  /** Read back through the parser, a token whose signature holds a `+` has a space in its
      second piece. */
  lemma ReadSignatureHasSpace(b: string, sig: string)
    requires Base64Text(b) && Base64Text(sig) && '+' in sig
    ensures var read := SecondPiece(FormUrlencoded.PlusAsSpace(b + "." + sig));
      read.Some? && ' ' in read.value
  {
    Base64Plain(b);
    Base64Plain(sig);
    PlusAsSpaceAroundDot(b, sig);
    SecondPieceOfCombined(FormUrlencoded.PlusAsSpace(b), FormUrlencoded.PlusAsSpace(sig));
    PlusBecomesSpace(sig);
  }

  lemma PlusAsSpaceAroundDot(b: string, sig: string)
    ensures FormUrlencoded.PlusAsSpace(b + "." + sig)
            == FormUrlencoded.PlusAsSpace(b) + "." + FormUrlencoded.PlusAsSpace(sig)
  {
    PlusAsSpaceConcat(b + ".", sig);
    PlusAsSpaceConcat(b, ".");
  }

  lemma PlusBecomesSpace(s: string)
    requires '+' in s
    ensures ' ' in FormUrlencoded.PlusAsSpace(s)
  {
    var i :| 0 <= i < |s| && s[i] == '+';
    assert FormUrlencoded.PlusAsSpace(s)[i] == ' ';
  }


  /** As written, a link whose signature holds a `+` never validates: the parser hands back a
      space in its place, and no base64 signature has a space. */
  lemma PlusInSignatureRejected(data: Json.Json, env: Env, now: int, later: int, codec: Json.Codec,
                                crypto: Crypto, decode: seq<FormUrlencoded.Byte> -> string)
    requires FormUrlencoded.Utf8Lawful(decode) && Shaped(crypto)
    requires '+' in Signature(data, env, codec, crypto)
    ensures !ValidateSecureLink(CreateSecureLink(data, env, now, codec, crypto), env, later, codec, crypto, decode).Valid?
  {
    ReadCreatedLink(data, env, now, codec, crypto, decode);
    var b := crypto.base64Encode(Payload(data, codec));
    var sig := Signature(data, env, codec, crypto);
    ReadSignatureHasSpace(b, sig);
    SpacedSignatureRejected(FormUrlencoded.PlusAsSpace(b + "." + sig), Some(NumberText(ExpiryTimestamp(env, now))),
                            Secret(env), later, codec, crypto);
  }

  // --- Properties of the decision order ----------------------------------------------------

  /** The expiry is not covered by the signature: two expiry texts that both pass the expiry
      check lead to the same verdict. */
  lemma ExpiresNotSigned(encoded: string, e1: string, e2: string, secret: string, now: int,
                         codec: Json.Codec, crypto: Crypto)
    requires encoded != "" && e1 != "" && e2 != ""
    ensures (JsNumber.ParseInt(e1).Some? ==> now <= JsNumber.ParseInt(e1).value)
            && (JsNumber.ParseInt(e2).Some? ==> now <= JsNumber.ParseInt(e2).value)
            ==> Check(Some(encoded), Some(e1), secret, now, codec, crypto)
                == Check(Some(encoded), Some(e2), secret, now, codec, crypto)
  {
  }

  /** Expiry is checked before the payload: an expired link reports expiry whatever its token. */
  lemma ExpiredBeforeSignature(encoded: string, e: string, secret: string, now: int,
                               codec: Json.Codec, crypto: Crypto)
    requires encoded != "" && e != ""
    requires JsNumber.ParseInt(e).Some? && now > JsNumber.ParseInt(e).value
    ensures Check(Some(encoded), Some(e), secret, now, codec, crypto) == Invalid(ExpiredError)
  {
  }

  /** A link is still good at the very millisecond of its expiry, and an expiry that does not
      parse (`NaN`) never expires. */
  lemma ExpiryBoundary(encoded: string, e: string, secret: string, now: int, codec: Json.Codec, crypto: Crypto)
    requires encoded != "" && e != ""
    requires JsNumber.ParseInt(e).None? || JsNumber.ParseInt(e) == Some(now)
    ensures Check(Some(encoded), Some(e), secret, now, codec, crypto) != Invalid(ExpiredError)
  {
  }

  /** A token without a `.` never validates: it fails in the payload or at the signature. */
  lemma DotlessTokenRejected(encoded: string, e: string, secret: string, now: int,
                             codec: Json.Codec, crypto: Crypto)
    requires '.' !in encoded
    ensures !Check(Some(encoded), Some(e), secret, now, codec, crypto).Valid?
  {
  }

  /** A replaced or garbled token whose payload does not decode to JSON is answered with the
      catch-all "Token validation failed", not with the signature error. */
  lemma GarbageTokenFails(encoded: string, e: string, secret: string, now: int,
                          codec: Json.Codec, crypto: Crypto)
    requires encoded != "" && e != "" && !Expired(e, now)
    requires codec.parse(crypto.base64Decode(encoded)).None?
    ensures Check(Some(encoded), Some(e), secret, now, codec, crypto) == Invalid(FailedError)
  {
  }

  /** A payload that parses but whose second piece is not its HMAC is a signature error. */
  lemma MismatchIsSignatureError(encoded: string, e: string, secret: string, now: int,
                                 codec: Json.Codec, crypto: Crypto)
    requires encoded != "" && e != "" && !Expired(e, now)
    requires codec.parse(crypto.base64Decode(encoded)).Some?
    requires SecondPiece(encoded) != Some(crypto.hmacBase64(secret, crypto.base64Decode(encoded)))
    ensures Check(Some(encoded), Some(e), secret, now, codec, crypto) == Invalid(SignatureError)
  {
  }
}

=== FILE: store.dfy ===
/** The quiz's answer record and the store's `set` / `reset` (web/lib/store.ts). */
module Store {
  import opened Wrappers

  datatype Segment = RealEstate | Consulting | PersonalBrand | Agency | Finance | Construction | Other

  /** The string a segment is stored and looked up under. */
  function SegmentKey(s: Segment): string {
    match s
    case RealEstate => "real_estate"
    case Consulting => "consulting"
    case PersonalBrand => "personal_brand"
    case Agency => "agency"
    case Finance => "finance"
    case Construction => "construction"
    case Other => "other"
  }

  datatype TeamSize = Solo | TwoToFive | SixToTwenty | TwentyOnePlus

  datatype Sentiment = Excited | Curious | Overwhelmed | Skeptical | Daily | Starting

  datatype Urgency = Asap | ThirtyDays | Quarter | Research

  /** Every field is optional until the quiz step that sets it. */
  datatype Answers = Answers(
    segment: Option<Segment>,
    teamSize: Option<TeamSize>,
    sentiment: Option<Sentiment>,
    tools: Option<seq<string>>,
    pain: Option<string>,
    painOther: Option<string>,
    valuePerMonth: Option<int>,
    urgency: Option<Urgency>,
    email: Option<string>,
    name: Option<string>)

  /** The names of the record's fields: the `K` of `set<K extends keyof Answers>`. */
  datatype Field =
    | SegmentField | TeamSizeField | SentimentField | ToolsField | PainField
    | PainOtherField | ValuePerMonthField | UrgencyField | EmailField | NameField

  /** A value for one field, tagged with that field: the pair `(k, v)` with `v: Answers[K]`. */
  datatype Value =
    | SegmentValue(segment: Option<Segment>)
    | TeamSizeValue(teamSize: Option<TeamSize>)
    | SentimentValue(sentiment: Option<Sentiment>)
    | ToolsValue(tools: Option<seq<string>>)
    | PainValue(pain: Option<string>)
    | PainOtherValue(painOther: Option<string>)
    | ValuePerMonthValue(valuePerMonth: Option<int>)
    | UrgencyValue(urgency: Option<Urgency>)
    | EmailValue(email: Option<string>)
    | NameValue(name: Option<string>)

  function FieldOf(v: Value): Field {
    match v
    case SegmentValue(_) => SegmentField
    case TeamSizeValue(_) => TeamSizeField
    case SentimentValue(_) => SentimentField
    case ToolsValue(_) => ToolsField
    case PainValue(_) => PainField
    case PainOtherValue(_) => PainOtherField
    case ValuePerMonthValue(_) => ValuePerMonthField
    case UrgencyValue(_) => UrgencyField
    case EmailValue(_) => EmailField
    case NameValue(_) => NameField
  }

  /** Reading field `f` of `a`. */
  function Get(a: Answers, f: Field): (v: Value)
    ensures FieldOf(v) == f
  {
    match f
    case SegmentField => SegmentValue(a.segment)
    case TeamSizeField => TeamSizeValue(a.teamSize)
    case SentimentField => SentimentValue(a.sentiment)
    case ToolsField => ToolsValue(a.tools)
    case PainField => PainValue(a.pain)
    case PainOtherField => PainOtherValue(a.painOther)
    case ValuePerMonthField => ValuePerMonthValue(a.valuePerMonth)
    case UrgencyField => UrgencyValue(a.urgency)
    case EmailField => EmailValue(a.email)
    case NameField => NameValue(a.name)
  }

  /** The value of field `f` when it has not been answered. */
  function Absent(f: Field): (v: Value)
    ensures FieldOf(v) == f
  {
    match f
    case SegmentField => SegmentValue(None)
    case TeamSizeField => TeamSizeValue(None)
    case SentimentField => SentimentValue(None)
    case ToolsField => ToolsValue(None)
    case PainField => PainValue(None)
    case PainOtherField => PainOtherValue(None)
    case ValuePerMonthField => ValuePerMonthValue(None)
    case UrgencyField => UrgencyValue(None)
    case EmailField => EmailValue(None)
    case NameField => NameValue(None)
  }

  /** The store's initial record `{}`: every field absent. */
  function Initial(): (a: Answers)
    ensures forall f :: Get(a, f) == Absent(f)
  {
    Answers(None, None, None, None, None, None, None, None, None, None)
  }

  /** `set(k, v)`: the record `{...a, [k]: v}`. */
  function Set(a: Answers, v: Value): (r: Answers)
    ensures Get(r, FieldOf(v)) == v
    ensures forall f :: f != FieldOf(v) ==> Get(r, f) == Get(a, f)
  {
    match v
    case SegmentValue(x) => a.(segment := x)
    case TeamSizeValue(x) => a.(teamSize := x)
    case SentimentValue(x) => a.(sentiment := x)
    case ToolsValue(x) => a.(tools := x)
    case PainValue(x) => a.(pain := x)
    case PainOtherValue(x) => a.(painOther := x)
    case ValuePerMonthValue(x) => a.(valuePerMonth := x)
    case UrgencyValue(x) => a.(urgency := x)
    case EmailValue(x) => a.(email := x)
    case NameValue(x) => a.(name := x)
  }

  /** `reset()`: back to the empty record, whatever was answered before. */
  function Reset(a: Answers): (r: Answers)
    ensures forall f :: Get(r, f) == Absent(f)
  {
    Initial()
  }

  /** Two records that agree on every field are the same record. */
  lemma Extensionality(a: Answers, b: Answers)
    requires forall f :: Get(a, f) == Get(b, f)
    ensures a == b
  {
    assert Get(a, SegmentField) == Get(b, SegmentField);
    assert Get(a, TeamSizeField) == Get(b, TeamSizeField);
    assert Get(a, SentimentField) == Get(b, SentimentField);
    assert Get(a, ToolsField) == Get(b, ToolsField);
    assert Get(a, PainField) == Get(b, PainField);
    assert Get(a, PainOtherField) == Get(b, PainOtherField);
    assert Get(a, ValuePerMonthField) == Get(b, ValuePerMonthField);
    assert Get(a, UrgencyField) == Get(b, UrgencyField);
    assert Get(a, EmailField) == Get(b, EmailField);
    assert Get(a, NameField) == Get(b, NameField);
  }

  /** Setting a field twice to the same value is the same as setting it once. */
  lemma {:induction false} SetIdempotent(a: Answers, v: Value)
    ensures Set(Set(a, v), v) == Set(a, v)
  {
    var once := Set(a, v);
    var twice := Set(once, v);
    forall f ensures Get(twice, f) == Get(once, f) {
      if f != FieldOf(v) {
        assert Get(twice, f) == Get(once, f);
      }
    }
    Extensionality(twice, once);
  }

  /** Setting two different fields gives the same record in either order. */
  lemma {:induction false} SetCommutes(a: Answers, v: Value, w: Value)
    requires FieldOf(v) != FieldOf(w)
    ensures Set(Set(a, v), w) == Set(Set(a, w), v)
  {
    var vw := Set(Set(a, v), w);
    var wv := Set(Set(a, w), v);
    forall f ensures Get(vw, f) == Get(wv, f) {
    }
    Extensionality(vw, wv);
  }

  /** A later `set` of the same field overrides an earlier one. */
  lemma {:induction false} SetOverrides(a: Answers, v: Value, w: Value)
    requires FieldOf(v) == FieldOf(w)
    ensures Set(Set(a, v), w) == Set(a, w)
  {
    var vw := Set(Set(a, v), w);
    var justW := Set(a, w);
    forall f ensures Get(vw, f) == Get(justW, f) {
    }
    Extensionality(vw, justW);
  }
}

=== FILE: submit_email.dfy ===
/** The email-capture endpoint (web/app/api/submit-email/route.ts): it checks the form, creates
    the signed report link, posts the lead to an external webhook once if one is configured, asks
    the report endpoint to send the email, and answers with the link.

    The two outgoing requests are returned as data. The webhook's outcome is not an input: the
    route catches whatever that request throws and never reads its response. The report request
    is an input only through whether it throws, since its response is never read either. */
module SubmitEmail {
  import opened Wrappers
  import Json
  import Validation
  import SecureLink
  import Email
  import EmailReport

  /** What the endpoint answers. */
  datatype SubmitResponse = Submitted(secureLink: string) | SubmitError(status: int, error: string)

  function Status(r: SubmitResponse): int {
    match r
    case Submitted(_) => 200
    case SubmitError(status, _) => status
  }

  const MissingFields := "Missing required fields"
  const InvalidEmail := "Invalid email format"
  const SendFailed := "Failed to send email"
  const InternalError := "Internal server error"
  const SuccessMessage := "Email submitted successfully"
  const Source := "email_capture_form"
  const DefaultWebhookSecret := "default-secret"

  /** `EXTERNAL_WEBHOOK_URL` and `WEBHOOK_SECRET_KEY`, next to the secure link's own settings. */
  datatype RouteEnv = RouteEnv(webhookUrl: Option<string>, webhookSecret: Option<string>, link: SecureLink.Env)

  /** A POST to the external webhook: its address, its `X-Webhook-Signature` header and its body. */
  datatype WebhookPost = WebhookPost(url: string, signature: string, body: string)

  /** Everything one call does: the answer, and the requests it made on the way. */
  datatype Run = Run(response: SubmitResponse, webhookPosts: seq<WebhookPost>, reportRequests: seq<Json.Json>)

  /** The clock is read three times: for the link's data, inside `createSecureLink` for the
      base of the link's expiry, and for the webhook payload. The readings need not agree. */
  datatype Clock = Clock(linkTime: int, expiryTime: int, payloadTime: int)

  /** An object literal: a property whose value is `undefined` is left out, as `JSON.stringify`
      leaves it out. */
  function Object(props: seq<(string, Option<Json.Json>)>): (o: map<string, Json.Json>)
    ensures forall k :: k in o <==> (exists i :: 0 <= i < |props| && props[i].0 == k && props[i].1.Some?)
  {
    if props == [] then map[]
    else
      var rest := Object(props[1..]);
      if props[0].1.Some? then rest[props[0].0 := props[0].1.value] else rest
  }

  /** `createWebhookSignature(payload)`: base64 of the payload followed by the secret. */
  function WebhookSignature(payload: string, env: RouteEnv, crypto: SecureLink.Crypto): string {
    crypto.base64Encode(payload + TextOr(env.webhookSecret, DefaultWebhookSecret))
  }

  /** Decoding undoes encoding. */
  ghost predicate Reversible(c: SecureLink.Crypto) {
    forall s :: c.base64Decode(c.base64Encode(s)) == s
  }

  /** The signature is no keyed hash: whoever sees a request can decode its signature header into
      the body followed by the secret, unset or empty secrets being `default-secret`. */
  lemma SignatureDisclosesSecret(payload: string, env: RouteEnv, crypto: SecureLink.Crypto)
    requires Reversible(crypto)
    ensures var d := crypto.base64Decode(WebhookSignature(payload, env, crypto));
      |d| >= |payload| && d[..|payload|] == payload
      && d[|payload|..] == TextOr(env.webhookSecret, DefaultWebhookSecret)
    ensures TextOr(env.webhookSecret, "") == "" ==>
      crypto.base64Decode(WebhookSignature(payload, env, crypto)) == payload + "default-secret"
  {
    var secret := TextOr(env.webhookSecret, DefaultWebhookSecret);
    assert crypto.base64Decode(crypto.base64Encode(payload + secret)) == payload + secret;
  }

  /** The form fields read from the body. */
  datatype Form = Form(name: Option<Json.Json>, email: Option<Json.Json>, optInEmails: Option<Json.Json>,
                       acceptPrivacy: Option<Json.Json>, segment: Option<Json.Json>)

  function Destructure(body: Json.Json): Form
    requires !body.JNull?
  {
    Form(Json.Get(body, "name"), Json.Get(body, "email"), Json.Get(body, "optInEmails"),
         Json.Get(body, "acceptPrivacy"), Json.Get(body, "segment"))
  }

  /** The data the secure link signs: email, segment and the time of creation. */
  function LinkData(f: Form, clock: Clock): Json.Json {
    Json.JObj(Object([("email", f.email), ("segment", f.segment), ("timestamp", Some(Json.JNum(clock.linkTime)))]))
  }

  /** The webhook payload: the lead without the consent flag, stamped and labelled with its source. */
  function WebhookPayload(f: Form, clock: Clock): Json.Json {
    Json.JObj(Object([("name", f.name), ("email", f.email), ("optInEmails", f.optInEmails),
                      ("segment", f.segment), ("timestamp", Some(Json.JNum(clock.payloadTime))),
                      ("source", Some(Json.JStr(Source)))]))
  }

  /** The body of the request to the report endpoint. */
  function ReportRequest(f: Form, secureLink: string): Json.Json {
    Json.JObj(Object([("to", f.email), ("name", f.name), ("secureLink", Some(Json.JStr(secureLink))),
                      ("segment", f.segment)]))
  }

  /** The webhook requests made: one when a URL is configured, none otherwise. */
  function WebhookPosts(f: Form, env: RouteEnv, clock: Clock, codec: Json.Codec, crypto: SecureLink.Crypto)
    : (posts: seq<WebhookPost>)
    ensures |posts| == (if TextOr(env.webhookUrl, "") == "" then 0 else 1)
    ensures forall p :: p in posts ==>
      p.url == env.webhookUrl.value && p.body == codec.stringify(WebhookPayload(f, clock))
      && p.signature == WebhookSignature(p.body, env, crypto)
  {
    if TextOr(env.webhookUrl, "") == "" then []
    else
      var payload := codec.stringify(WebhookPayload(f, clock));
      [WebhookPost(env.webhookUrl.value, WebhookSignature(payload, env, crypto), payload)]
  }

  /** `POST` on the request body (`None` where `request.json()` throws); `reportThrows` says whether
      the request to the report endpoint throws. */
  function Post(body: Option<Json.Json>, env: RouteEnv, clock: Clock, codec: Json.Codec,
                crypto: SecureLink.Crypto, reportThrows: Json.Json -> bool): (run: Run)
    ensures (body.None? || body == Some(Json.JNull)) ==> run == Run(SubmitError(500, InternalError), [], [])
    ensures body.Some? && !body.value.JNull? ==>
      var f := Destructure(body.value);
      && (!(Json.Truthy(f.name) && Json.Truthy(f.email) && Json.Truthy(f.acceptPrivacy)) ==>
            run == Run(SubmitError(400, MissingFields), [], []))
      && ((Json.Truthy(f.name) && Json.Truthy(f.email) && Json.Truthy(f.acceptPrivacy)
           && !Validation.EmailRule(f.email)) ==> run == Run(SubmitError(400, InvalidEmail), [], []))
    ensures run.response.Submitted? ==>
      |run.reportRequests| == 1 && !reportThrows(run.reportRequests[0])
    ensures |run.webhookPosts| <= 1 && |run.reportRequests| <= 1
  {
    match body
    case None => Run(SubmitError(500, InternalError), [], [])
    case Some(b) =>
      if b.JNull? then Run(SubmitError(500, InternalError), [], [])
      else
        var f := Destructure(b);
        if !(Json.Truthy(f.name) && Json.Truthy(f.email) && Json.Truthy(f.acceptPrivacy)) then
          Run(SubmitError(400, MissingFields), [], [])
        else if !Validation.EmailRule(f.email) then
          Run(SubmitError(400, InvalidEmail), [], [])
        else
          var link := SecureLink.CreateSecureLink(LinkData(f, clock), env.link, clock.expiryTime, codec, crypto);
          var posts := WebhookPosts(f, env, clock, codec, crypto);
          var request := ReportRequest(f, link);
          if reportThrows(request) then Run(SubmitError(500, SendFailed), posts, [request])
          else Run(Submitted(link), posts, [request])
  }

  /** An accepted form: present, with a truthy name and consent, and an email of the right shape. */
  predicate Accepted(body: Json.Json) {
    !body.JNull? &&
    var f := Destructure(body);
    Json.Truthy(f.name) && Json.Truthy(f.email) && Json.Truthy(f.acceptPrivacy) && Validation.EmailRule(f.email)
  }

  /** Once the form is accepted the webhook's fate never changes the answer, and the answer is
      success exactly when the report request does not throw; the link answered is the one sent
      to the report endpoint. */
  lemma AcceptedForm(body: Json.Json, env: RouteEnv, clock: Clock, codec: Json.Codec,
                     crypto: SecureLink.Crypto, reportThrows: Json.Json -> bool)
    requires Accepted(body)
    ensures var run := Post(Some(body), env, clock, codec, crypto, reportThrows);
      && |run.reportRequests| == 1
      && (run.response.Submitted? <==> !reportThrows(run.reportRequests[0]))
      && (run.response.SubmitError? ==> run.response == SubmitError(500, SendFailed))
      && (run.response.Submitted? ==>
            run.reportRequests[0] == ReportRequest(Destructure(body), run.response.secureLink))
      && |run.webhookPosts| == (if TextOr(env.webhookUrl, "") == "" then 0 else 1)
  {
  }

  /** The answered link is the secure link over the submitted email and segment and the time of
      creation. */
  lemma AnsweredLink(body: Json.Json, env: RouteEnv, clock: Clock, codec: Json.Codec,
                     crypto: SecureLink.Crypto, reportThrows: Json.Json -> bool)
    requires Accepted(body)
    ensures var response := Post(Some(body), env, clock, codec, crypto, reportThrows).response;
      response.Submitted? ==> response.secureLink == SecureLink.CreateSecureLink(LinkData(Destructure(body), clock), env.link, clock.expiryTime, codec, crypto)
  {
  }

  /** Missing fields are reported before the email's shape is looked at. */
  lemma MissingBeforeFormat(body: Json.Json, env: RouteEnv, clock: Clock, codec: Json.Codec,
                            crypto: SecureLink.Crypto, reportThrows: Json.Json -> bool)
    requires !body.JNull? && !Json.Truthy(Destructure(body).email)
    ensures Post(Some(body), env, clock, codec, crypto, reportThrows).response == SubmitError(400, MissingFields)
  {
  }

  /** A form without a segment is answered as submitted, although the report endpoint refuses the
      request it is sent for lack of that field. */
  lemma NoSegmentStillSubmitted(body: Json.Json, env: RouteEnv, clock: Clock, codec: Json.Codec,
                                crypto: SecureLink.Crypto, reportThrows: Json.Json -> bool,
                                reportEnv: Email.EmailEnv, layouts: Email.Layouts,
                                send: Email.ResendRequest -> Email.SendOutcome)
    requires Accepted(body) && Destructure(body).segment.None?
    requires forall r :: !reportThrows(r)
    ensures var run := Post(Some(body), env, clock, codec, crypto, reportThrows);
      run.response.Submitted?
      && EmailReport.Status(EmailReport.Post(Some(run.reportRequests[0]), reportEnv, layouts, send)) == 400
  {
    AcceptedForm(body, env, clock, codec, crypto, reportThrows);
    var run := Post(Some(body), env, clock, codec, crypto, reportThrows);
    var req := run.reportRequests[0];
    ReportRequestSegment(Destructure(body), run.response.secureLink);
    assert EmailReport.Destructure(req).segment.None?;
  }

  /** The report request carries a segment exactly when the form did. */
  lemma ReportRequestSegment(f: Form, secureLink: string)
    ensures var req := ReportRequest(f, secureLink);
      req.JObj? && ("segment" in req.fields <==> f.segment.Some?)
  {
    var props := [("to", f.email), ("name", f.name), ("secureLink", Some(Json.JStr(secureLink))), ("segment", f.segment)];
    assert props[3].0 == "segment";
    if f.segment.None? {
      assert forall i :: 0 <= i < 3 ==> props[i].0 != "segment";
    }
  }
}

=== FILE: text.dfy ===
/** Character classes and small string builders shared by the whole model. */
module Text {

  /** The characters of ECMAScript's WhiteSpace and LineTerminator productions:
      the class `\s` of a regular expression, and what `String.prototype.trim` strips. */
  predicate IsJsWhitespace(c: char) {
    c == '\t' || c == '\n' || c == '\U{000B}' || c == '\U{000C}' || c == '\r' || c == ' '
    || c == '\U{00A0}' || c == '\U{1680}' || ('\U{2000}' <= c <= '\U{200A}') || c == '\U{2028}'
    || c == '\U{2029}' || c == '\U{202F}' || c == '\U{205F}' || c == '\U{3000}' || c == '\U{FEFF}'
  }

  predicate IsAsciiDigit(c: char) { '0' <= c <= '9' }

  predicate IsAsciiLetter(c: char) { ('a' <= c <= 'z') || ('A' <= c <= 'Z') }

  predicate IsAscii(s: string) {
    forall i :: 0 <= i < |s| ==> s[i] as int < 128
  }

  /** `s` occurs somewhere inside `t` (JavaScript's `t.includes(s)`). */
  predicate IsInfix(s: string, t: string) {
    exists i | 0 <= i <= |t| :: OccursAt(s, t, i)
  }

  /** `s` occurs in `t` starting at index `i`. */
  predicate OccursAt(s: string, t: string, i: int) {
    0 <= i <= |t| - |s| && t[i..i + |s|] == s
  }

  /** `t` ends with `s` (JavaScript's `t.endsWith(s)`). */
  predicate EndsWith(t: string, s: string) {
    |s| <= |t| && t[|t| - |s|..] == s
  }

  /** A concatenation starts with its first part and ends with its second. */
  lemma ConcatEnds(a: string, b: string)
    ensures (a + b)[..|a|] == a && EndsWith(a + b, b)
  {
  }

  /** `a + (b + c)` holds `b + c` and ends with `c`. */
  lemma TailParts(a: string, b: string, c: string)
    ensures IsInfix(b + c, a + (b + c)) && EndsWith(a + (b + c), c)
  {
    assert OccursAt(b + c, a + (b + c), |a|);
  }

  lemma InfixOfConcat(a: string, s: string, b: string)
    ensures IsInfix(s, a + s + b)
  {
    var t := a + s + b;
    assert OccursAt(s, t, |a|);
  }

  /** Removes leading JavaScript whitespace. */
  function TrimStart(s: string): (r: string)
    ensures |r| <= |s| && r == s[|s| - |r|..]
    ensures |r| > 0 ==> !IsJsWhitespace(r[0])
    ensures forall i :: 0 <= i < |s| - |r| ==> IsJsWhitespace(s[i])
  {
    if |s| > 0 && IsJsWhitespace(s[0]) then TrimStart(s[1..]) else s
  }

  /** Removes trailing JavaScript whitespace. */
  function TrimEnd(s: string): (r: string)
    ensures |r| <= |s| && r == s[..|r|]
    ensures |r| > 0 ==> !IsJsWhitespace(r[|r| - 1])
    ensures forall i :: |r| <= i < |s| ==> IsJsWhitespace(s[i])
  {
    if |s| > 0 && IsJsWhitespace(s[|s| - 1]) then TrimEnd(s[..|s| - 1]) else s
  }

  /** `String.prototype.trim`. */
  function Trim(s: string): string {
    TrimEnd(TrimStart(s))
  }

  /** ASCII lower-casing (`toLowerCase` restricted to the ASCII letters). */
  function AsciiLower(s: string): (r: string)
    ensures |r| == |s|
    ensures forall i :: 0 <= i < |s| ==>
      r[i] == (if 'A' <= s[i] <= 'Z' then (s[i] as int + 32) as char else s[i])
  {
    if |s| == 0 then []
    else [if 'A' <= s[0] <= 'Z' then (s[0] as int + 32) as char else s[0]] + AsciiLower(s[1..])
  }

  /** Every `from` replaced by `to`, character by character. */
  function ReplaceChar(s: string, from: char, to: char): (r: string)
    ensures |r| == |s|
    ensures forall i :: 0 <= i < |s| ==> r[i] == if s[i] == from then to else s[i]
  {
    if |s| == 0 then "" else [if s[0] == from then to else s[0]] + ReplaceChar(s[1..], from, to)
  }

  /** `parts.join(sep)`. */
  function Join(parts: seq<string>, sep: string): string {
    if |parts| == 0 then ""
    else if |parts| == 1 then parts[0]
    else parts[0] + sep + Join(parts[1..], sep)
  }

  function DigitChar(d: nat): char
    requires d < 10
  {
    "0123456789"[d]
  }

  /** Decimal digits of a natural number, most significant first, no leading zeros. */
  function NatToDecimal(n: nat): (r: string)
    ensures |r| > 0
    ensures forall i :: 0 <= i < |r| ==> IsAsciiDigit(r[i])
    ensures |r| > 1 ==> r[0] != '0'
  {
    if n < 10 then [DigitChar(n)] else NatToDecimal(n / 10) + [DigitChar(n % 10)]
  }

  /** How JavaScript prints an integral number: an optional `-` and its decimal digits. */
  function IntToDecimal(n: int): string {
    if n < 0 then "-" + NatToDecimal(-n) else NatToDecimal(n)
  }

  /** The pieces of `s` between occurrences of `d`, as `String.prototype.split` returns them. */
  function Split(s: string, d: char): (r: seq<string>)
    ensures |r| >= 1
    ensures forall i :: 0 <= i < |r| ==> d !in r[i]
  {
    if |s| == 0 then [""]
    else if s[0] == d then [""] + Split(s[1..], d)
    else
      var rest := Split(s[1..], d);
      [[s[0]] + rest[0]] + rest[1..]
  }

  /** A string without the separator is its own single piece. */
  lemma {:induction false} SplitWithout(s: string, d: char)
    requires d !in s
    ensures Split(s, d) == [s]
    decreases |s|
  {
    if |s| > 0 {
      assert s[0] in s;
      assert forall c :: c in s[1..] ==> c in s;
      SplitWithout(s[1..], d);
      assert [s[0]] + s[1..] == s;
    }
  }

  /** Splitting distributes over a separator placed after a piece without one. */
  lemma {:induction false} SplitPrefix(a: string, d: char, b: string)
    requires d !in a
    ensures Split(a + [d] + b, d) == [a] + Split(b, d)
    decreases |a|
  {
    if |a| == 0 {
      assert a + [d] + b == [d] + b;
      assert ([d] + b)[1..] == b;
    } else {
      var s := a + [d] + b;
      assert s[0] == a[0];
      assert s[1..] == a[1..] + [d] + b;
      assert a[0] in a;
      assert forall c :: c in a[1..] ==> c in a;
      SplitPrefix(a[1..], d, b);
      assert [a[0]] + a[1..] == a;
    }
  }
}

=== FILE: urls.dfy ===
/** The community invitation link (web/lib/urls.ts). */
module Urls {
  import opened Wrappers
  import Store
  import Scoring
  import FormUrlencoded

  const SkoolBase := "https://www.skool.com/citizen-developer-1179/about"
  const SkoolRef := "44c264a6664e4f4c9e5bd6b756d4d956"

  /** `segment_pain`, with `unknown` and `na` standing in for a missing answer. */
  function UtmContent(a: Store.Answers): (r: string)
    ensures a.segment.Some? && a.pain.Some? ==> r == Store.SegmentKey(a.segment.value) + "_" + a.pain.value
    ensures a.segment.Some? && a.pain.None? ==> r == Store.SegmentKey(a.segment.value) + "_na"
    ensures a.segment.None? && a.pain.Some? ==> r == "unknown_" + a.pain.value
    ensures a.segment.None? && a.pain.None? ==> r == "unknown_na"
  {
    var seg := match a.segment case None => "unknown" case Some(s) => Store.SegmentKey(s);
    seg + "_" + a.pain.GetOr("na")
  }

  /** The query parameters, in the order the object literal lists them. */
  function SkoolParams(a: Store.Answers, s: Scoring.ScoreProfile, leadId: string, joinCode: string)
    : (ps: seq<FormUrlencoded.Pair>)
    ensures |ps| == 9
    ensures ps[0] == ("ref", SkoolRef)
    ensures ps[1] == ("utm_source", "quiz") && ps[2] == ("utm_medium", "web")
    ensures ps[3] == ("utm_campaign", "skool_onboarding") && ps[4] == ("utm_content", UtmContent(a))
    ensures ps[5] == ("lead", leadId) && ps[6] == ("code", joinCode)
    ensures ps[7] == ("tier", Scoring.TierName(s.tier)) && ps[8] == ("offer", Scoring.OfferName(s.offer))
  {
    [("ref", SkoolRef),
     ("utm_source", "quiz"),
     ("utm_medium", "web"),
     ("utm_campaign", "skool_onboarding"),
     ("utm_content", UtmContent(a)),
     ("lead", leadId),
     ("code", joinCode),
     ("tier", Scoring.TierName(s.tier)),
     ("offer", Scoring.OfferName(s.offer))]
  }

  /** `buildSkoolLink`: the base address, `?`, and the serialized parameters. */
  function BuildSkoolLink(a: Store.Answers, s: Scoring.ScoreProfile, leadId: string, joinCode: string)
    : (r: string)
    ensures |r| > |SkoolBase| + 1 && r[..|SkoolBase|] == SkoolBase && r[|SkoolBase|] == '?'
  {
    var q := FormUrlencoded.Serialize(SkoolParams(a, s, leadId, joinCode));
    PrefixOfConcat(SkoolBase, "?" + q);
    SkoolBase + ("?" + q)
  }

  lemma PrefixOfConcat(x: string, y: string)
    ensures (x + y)[..|x|] == x && (x + y)[|x|..] == y
  {
  }

  /** The query of the link. */
  function QueryOf(link: string): string
    requires |link| > |SkoolBase|
  {
    link[|SkoolBase|..]
  }

  /** Reading the link's query back with `URLSearchParams` recovers every parameter exactly,
      whatever characters the lead id, join code or answers contain. */
  lemma SkoolLinkRoundTrip(a: Store.Answers, s: Scoring.ScoreProfile, leadId: string, joinCode: string,
                           decode: seq<FormUrlencoded.Byte> -> string)
    requires FormUrlencoded.Utf8Lawful(decode)
    ensures FormUrlencoded.FromString(QueryOf(BuildSkoolLink(a, s, leadId, joinCode)), decode)
            == SkoolParams(a, s, leadId, joinCode)
  {
    var ps := SkoolParams(a, s, leadId, joinCode);
    var q := FormUrlencoded.Serialize(ps);
    PrefixOfConcat(SkoolBase, "?" + q);
    assert ("?" + q)[1..] == q;
    FormUrlencoded.ParseSerialize(ps, decode);
  }

  /** The names the link carries, in order. */
  const ParamNames := ["ref", "utm_source", "utm_medium", "utm_campaign", "utm_content",
                       "lead", "code", "tier", "offer"]

  /** No name is listed twice. */
  lemma ParamNamesDistinct(a: Store.Answers, s: Scoring.ScoreProfile, leadId: string, joinCode: string)
    ensures var ps := SkoolParams(a, s, leadId, joinCode);
      (forall i :: 0 <= i < 9 ==> ps[i].0 == ParamNames[i])
      && forall i, j :: 0 <= i < j < 9 ==> ps[i].0 != ps[j].0
  {
    assert ParamNames[5] != ParamNames[6] by { assert ParamNames[5][0] != ParamNames[6][0]; }
    assert ParamNames[7] != ParamNames[5] by { assert ParamNames[7][0] != ParamNames[5][0]; }
    assert ParamNames[7] != ParamNames[6] by { assert ParamNames[7][0] != ParamNames[6][0]; }
    assert ParamNames[1] != ParamNames[2] by { assert ParamNames[1][4] != ParamNames[2][4]; }
  }

  /** Each parameter, the lead id, join code, tier and offer among them, reads back as given. */
  lemma SkoolLinkFields(a: Store.Answers, s: Scoring.ScoreProfile, leadId: string, joinCode: string,
                        decode: seq<FormUrlencoded.Byte> -> string, k: int)
    requires FormUrlencoded.Utf8Lawful(decode)
    requires 0 <= k < 9
    ensures FormUrlencoded.Get(FormUrlencoded.FromString(QueryOf(BuildSkoolLink(a, s, leadId, joinCode)), decode),
                               ParamNames[k])
            == Some(SkoolParams(a, s, leadId, joinCode)[k].1)
  {
    SkoolLinkRoundTrip(a, s, leadId, joinCode, decode);
    ParamNamesDistinct(a, s, leadId, joinCode);
    FormUrlencoded.GetDistinct(SkoolParams(a, s, leadId, joinCode), k);
  }
}

=== FILE: validation.dfy ===
/** The field and form validators of the original questionnaire (`ValidationManager`). Every rule
    is a total function over a possibly-undefined JavaScript value; a rule that would throw a
    `TypeError` gives `None`, and a throw anywhere in a validation makes the whole result `None`. */
module Validation {
  import opened Wrappers
  import Text
  import Json

  // --- The rules

  /** The `required` rule: anything but `null`, `undefined` and the empty string. */
  predicate Required(v: Option<Json.Json>) {
    v != None && v != Some(Json.JNull) && v != Some(Json.JStr(""))
  }

  /** A character of the class `[^\s@]`. */
  predicate EmailChar(c: char) {
    !Text.IsJsWhitespace(c) && c != '@'
  }

  predicate AllEmailChars(s: string) {
    forall i :: 0 <= i < |s| ==> EmailChar(s[i])
  }

  predicate NoBlank(s: string) {
    forall i :: 0 <= i < |s| ==> !Text.IsJsWhitespace(s[i])
  }

  /** Index of the first `@` of `s`, or `|s|` when there is none. */
  function FirstAt(s: string): (k: nat)
    ensures k <= |s| && '@' !in s[..k]
    ensures k < |s| ==> s[k] == '@'
  {
    if |s| == 0 then 0
    else if s[0] == '@' then 0
    else
      var k := FirstAt(s[1..]);
      assert s[..k + 1] == [s[0]] + s[1..][..k];
      k + 1
  }

  /** A `.` that is neither the first nor the last character. */
  predicate InnerDot(d: string) {
    |d| >= 3 && '.' in d[1..|d| - 1]
  }

  /** The email rule as a character check: no whitespace anywhere, exactly one `@`, with
      something before it, and a dot strictly inside the part after it. */
  predicate ValidEmail(s: string) {
    var k := FirstAt(s);
    0 < k < |s| && NoBlank(s) && '@' !in s[k + 1..] && InnerDot(s[k + 1..])
  }

  /** The pattern `^[^\s@]+@[^\s@]+\.[^\s@]+$` read literally: three non-empty runs of
      characters other than whitespace and `@`, joined by `@` and by `.`. */
  ghost predicate EmailPattern(s: string) {
    exists i, j :: 0 < i && i + 1 < j && j + 1 < |s| && s[i] == '@' && s[j] == '.'
      && AllEmailChars(s[..i]) && AllEmailChars(s[i + 1..j]) && AllEmailChars(s[j + 1..])
  }

  /** The `email` rule; `RegExp.prototype.test` converts its argument with `String(...)`. */
  predicate EmailRule(v: Option<Json.Json>) {
    ValidEmail(Json.ToJsString(v))
  }

  /** A character the name pattern `[a-zA-Z\s\-']` accepts. */
  predicate NameChar(c: char) {
    Text.IsAsciiLetter(c) || Text.IsJsWhitespace(c) || c == '-' || c == '\''
  }

  /** The pattern `^[a-zA-Z\s\-']{2,}$`. */
  predicate ValidName(t: string) {
    |t| >= 2 && forall i :: 0 <= i < |t| ==> NameChar(t[i])
  }

  /** The `name` rule: trims its argument, which throws unless it is a string. */
  function NameRule(v: Option<Json.Json>): (r: Option<bool>)
    ensures r.Some? <==> v.Some? && v.value.JStr?
    ensures r.Some? ==> r.value == ValidName(Text.Trim(v.value.s))
  {
    match v
    case Some(JStr(s)) => Some(ValidName(Text.Trim(s)))
    case _ => None
  }

  /** The `consent` rule: strict equality with `true`. */
  predicate Consent(v: Option<Json.Json>) {
    v == Some(Json.JBool(true))
  }

  /** Characters the phone rule deletes before matching: `[\s\-\(\)]`. */
  predicate PhoneSeparator(c: char) {
    Text.IsJsWhitespace(c) || c == '-' || c == '(' || c == ')'
  }

  /** `phone.replace(/[\s\-\(\)]/g, '')`. */
  function StripPhone(s: string): (r: string)
    ensures |r| <= |s|
    ensures forall i :: 0 <= i < |r| ==> !PhoneSeparator(r[i]) && r[i] in s
    ensures (forall i :: 0 <= i < |s| ==> !PhoneSeparator(s[i])) ==> r == s
  {
    if |s| == 0 then ""
    else if PhoneSeparator(s[0]) then StripPhone(s[1..])
    else [s[0]] + StripPhone(s[1..])
  }

  predicate AllDigits(s: string) {
    forall i :: 0 <= i < |s| ==> Text.IsAsciiDigit(s[i])
  }

  /** The pattern `^[\+]?[1-9][\d]{0,15}$`. */
  predicate PhonePattern(p: string) {
    var digits := if |p| > 0 && p[0] == '+' then p[1..] else p;
    1 <= |digits| <= 16 && '1' <= digits[0] <= '9' && AllDigits(digits)
  }

  /** The `phone` rule: a falsy value passes; otherwise it must be a string (`replace` throws on
      anything else) whose separators stripped leave a phone number. */
  function PhoneRule(v: Option<Json.Json>): (r: Option<bool>)
    ensures !Json.Truthy(v) ==> r == Some(true)
    ensures Json.Truthy(v) ==> (r.Some? <==> v.value.JStr?)
    ensures r == Some(false) ==> v.Some? && v.value.JStr? && !PhonePattern(StripPhone(v.value.s))
  {
    if !Json.Truthy(v) then Some(true)
    else match v.value
      case JStr(s) => Some(PhonePattern(StripPhone(s)))
      case _ => None
  }

  // --- Field validation

  datatype Rule = RequiredRule | EmailRuleName | NameRuleName | ConsentRule | PhoneRuleName

  /** The rule table's lookup by name; an unknown name finds no function, and calling it throws. */
  function RuleNamed(name: string): Option<Rule> {
    match name
    case "required" => Some(RequiredRule)
    case "email" => Some(EmailRuleName)
    case "name" => Some(NameRuleName)
    case "consent" => Some(ConsentRule)
    case "phone" => Some(PhoneRuleName)
    case _ => None
  }

  /** The table knows exactly the five rule names. */
  lemma KnownRules(name: string)
    ensures RuleNamed(name).Some? <==> name in {"required", "email", "name", "consent", "phone"}
  {
  }

  /** Applies one rule; `None` where the rule throws. */
  function Check(rule: Rule, v: Option<Json.Json>): (r: Option<bool>)
    ensures rule != NameRuleName && rule != PhoneRuleName ==> r.Some?
  {
    match rule
    case RequiredRule => Some(Required(v))
    case EmailRuleName => Some(EmailRule(v))
    case NameRuleName => NameRule(v)
    case ConsentRule => Some(Consent(v))
    case PhoneRuleName => PhoneRule(v)
  }

  const FieldLabels: map<string, string> := map[
    "name" := "Full name",
    "email" := "Email address",
    "acceptPrivacy" := "Privacy policy acceptance",
    "phone" := "Phone number",
    "company" := "Company name"
  ]

  /** `getFieldLabel`: the friendly label, or the raw field name when there is none (every label
      is truthy, so `||` only falls back for unknown names). */
  function FieldLabel(field: string): (r: string)
    ensures field in FieldLabels ==> r == FieldLabels[field] && r != ""
    ensures field !in FieldLabels ==> r == field
  {
    if field in FieldLabels then FieldLabels[field] else field
  }

  const EmailMessage := "Please enter a valid email address"
  const NameMessage := "Please enter a valid name (letters, spaces, hyphens only)"
  const ConsentMessage := "You must accept to proceed"
  const PhoneMessage := "Please enter a valid phone number"

  function RequiredMessage(field: string): string {
    FieldLabel(field) + " is required"
  }

  /** The message pushed when `rule` fails on `field`. */
  function Message(rule: Rule, field: string): string {
    match rule
    case RequiredRule => RequiredMessage(field)
    case EmailRuleName => EmailMessage
    case NameRuleName => NameMessage
    case ConsentRule => ConsentMessage
    case PhoneRuleName => PhoneMessage
  }

  /** The named rule exists and does not throw on `v`. */
  predicate Evaluates(name: string, v: Option<Json.Json>) {
    RuleNamed(name).Some? && Check(RuleNamed(name).value, v).Some?
  }

  predicate Passes(name: string, v: Option<Json.Json>) {
    Evaluates(name, v) && Check(RuleNamed(name).value, v).value
  }

  /** The outcome of one rule: no message when it passes, its message when it fails, `None` when
      it throws or is not in the table. */
  function RuleOutcome(field: string, v: Option<Json.Json>, name: string): (r: Option<seq<string>>)
    ensures r.Some? <==> Evaluates(name, v)
    ensures r.Some? ==> |r.value| <= 1 && (r.value == [] <==> Passes(name, v))
  {
    match RuleNamed(name)
    case None => None
    case Some(rule) =>
      match Check(rule, v)
      case None => None
      case Some(ok) => Some(if ok then [] else [Message(rule, field)])
  }

  /** Joins the outcomes of two validations run one after the other. */
  function Both(a: Option<seq<string>>, b: Option<seq<string>>): (r: Option<seq<string>>)
    ensures r.Some? <==> a.Some? && b.Some?
    ensures r.Some? ==> r.value == a.value + b.value
  {
    if a.Some? && b.Some? then Some(a.value + b.value) else None
  }

  /** `validateField`: every rule, in order and without short-circuit, pushes its message when it
      fails; a rule that throws (or is unknown) makes the whole call throw. */
  function ValidateField(field: string, v: Option<Json.Json>, rules: seq<string>): (r: Option<seq<string>>)
    ensures r.Some? <==> forall i :: 0 <= i < |rules| ==> Evaluates(rules[i], v)
    ensures r.Some? ==> |r.value| <= |rules|
    ensures r.Some? ==> (r.value == [] <==> forall i :: 0 <= i < |rules| ==> Passes(rules[i], v))
  {
    if |rules| == 0 then Some([])
    else
      assert forall i :: 1 <= i < |rules| ==> rules[i] == rules[1..][i - 1];
      Both(RuleOutcome(field, v, rules[0]), ValidateField(field, v, rules[1..]))
  }

  /** No short-circuit: validating against `a + b` is validating against `a`, then against `b`. */
  lemma {:induction false} ValidateFieldConcat(field: string, v: Option<Json.Json>, a: seq<string>, b: seq<string>)
    ensures ValidateField(field, v, a + b) == Both(ValidateField(field, v, a), ValidateField(field, v, b))
    decreases |a|
  {
    if |a| > 0 {
      assert (a + b)[0] == a[0];
      assert (a + b)[1..] == a[1..] + b;
      ValidateFieldConcat(field, v, a[1..], b);
      var x, y, z := RuleOutcome(field, v, a[0]), ValidateField(field, v, a[1..]), ValidateField(field, v, b);
      if x.Some? && y.Some? && z.Some? {
        assert x.value + (y.value + z.value) == (x.value + y.value) + z.value;
      }
    } else {
      assert a + b == b;
      if ValidateField(field, v, b).Some? {
        assert [] + ValidateField(field, v, b).value == ValidateField(field, v, b).value;
      }
    }
  }

  /** One rule yields no message when it passes and exactly its own message when it fails. */
  lemma SingleRule(field: string, v: Option<Json.Json>, rule: Rule, name: string)
    requires RuleNamed(name) == Some(rule) && Check(rule, v).Some?
    ensures ValidateField(field, v, [name]) == Some(if Check(rule, v).value then [] else [Message(rule, field)])
  {
    OneRuleField(field, v, name);
  }

  /** Validating against a single rule gives that rule's outcome. */
  lemma OneRuleField(field: string, v: Option<Json.Json>, name: string)
    ensures ValidateField(field, v, [name]) == RuleOutcome(field, v, name)
  {
    assert [name][1..] == [];
    var m := RuleOutcome(field, v, name);
    if m.Some? {
      assert m.value + [] == m.value;
    }
  }

  // --- The email capture form

  datatype FormResult = FormResult(valid: bool, errors: map<string, string>)

  /** Records the first message of a field, if it has any. */
  function KeepFirst(messages: seq<string>, key: string, errors: map<string, string>): (r: map<string, string>)
    ensures |messages| > 0 ==> r == errors[key := messages[0]]
    ensures |messages| == 0 ==> r == errors
  {
    if |messages| > 0 then errors[key := messages[0]] else errors
  }

  const NameRules: seq<string> := ["required", "name"]
  const EmailRules: seq<string> := ["required", "email"]
  const ConsentRules: seq<string> := ["consent"]

  /** `validateEmailCaptureForm(formData)`: `formData.x` throws on `null`; the name rule throws
      unless the name is a string, so a form without a name throws instead of reporting it. */
  function ValidateEmailCaptureForm(form: Json.Json): (r: Option<FormResult>)
    ensures r.Some? <==> !form.JNull? && Json.Get(form, "name").Some? && Json.Get(form, "name").value.JStr?
    ensures r.Some? ==> (r.value.valid <==> r.value.errors == map[])
    ensures r.Some? ==> r.value.errors.Keys <= {"name", "email", "acceptPrivacy"}
  {
    if form.JNull? then None
    else
      var nameValue := Json.Get(form, "name");
      var emailValue := Json.Get(form, "email");
      var consentValue := Json.Get(form, "acceptPrivacy");
      var name := ValidateField("name", nameValue, NameRules);
      var email := ValidateField("email", emailValue, EmailRules);
      var consent := ValidateField("acceptPrivacy", consentValue, ConsentRules);
      NameRuleMessages(nameValue);
      EmailRuleMessages(emailValue);
      ConsentRuleMessages(consentValue);
      if name.None? || email.None? || consent.None? then None
      else
        var errors := KeepFirst(consent.value, "acceptPrivacy",
                        KeepFirst(email.value, "email", KeepFirst(name.value, "name", map[])));
        Some(FormResult(|errors| == 0, errors))
  }

  /** The name entry is reported exactly when the trimmed name fails the name pattern, with the
      `required` message for an empty name and the name message otherwise. */
  lemma NameError(form: Json.Json)
    requires ValidateEmailCaptureForm(form).Some?
    ensures var errors := ValidateEmailCaptureForm(form).value.errors;
      var name := Json.Get(form, "name").value.s;
      ("name" in errors <==> !ValidName(Text.Trim(name)))
      && ("name" in errors ==> errors["name"] == if name == "" then RequiredMessage("name") else NameMessage)
  {
    var n, e, c := FormMessages(form);
    NameRuleMessages(Json.Get(form, "name"));
    KeepFirstOther(c, "acceptPrivacy", KeepFirst(e, "email", KeepFirst(n, "name", map[])), "name");
    KeepFirstOther(e, "email", KeepFirst(n, "name", map[]), "name");
  }

  /** The email entry is reported exactly when the email rule fails, with the `required` message
      for a missing, null or empty email and the email message otherwise. */
  lemma EmailError(form: Json.Json)
    requires ValidateEmailCaptureForm(form).Some?
    ensures var errors := ValidateEmailCaptureForm(form).value.errors;
      var email := Json.Get(form, "email");
      ("email" in errors <==> !EmailRule(email))
      && ("email" in errors ==> errors["email"] == if Required(email) then EmailMessage else RequiredMessage("email"))
  {
    var n, e, c := FormMessages(form);
    EmailRuleMessages(Json.Get(form, "email"));
    KeepFirstOther(c, "acceptPrivacy", KeepFirst(e, "email", KeepFirst(n, "name", map[])), "email");
  }

  /** The consent entry is reported exactly when `acceptPrivacy` is not `true`. */
  lemma ConsentError(form: Json.Json)
    requires ValidateEmailCaptureForm(form).Some?
    ensures var errors := ValidateEmailCaptureForm(form).value.errors;
      ("acceptPrivacy" in errors <==> !Consent(Json.Get(form, "acceptPrivacy")))
      && ("acceptPrivacy" in errors ==> errors["acceptPrivacy"] == ConsentMessage)
  {
    var n, e, c := FormMessages(form);
    ConsentRuleMessages(Json.Get(form, "acceptPrivacy"));
    OnlyNameAndEmail(n, e);
    KeepFirstOwn(c, "acceptPrivacy", KeepFirst(e, "email", KeepFirst(n, "name", map[])));
  }

  /** The three fields' messages, and the error map the form builds from them. */
  lemma FormMessages(form: Json.Json) returns (n: seq<string>, e: seq<string>, c: seq<string>)
    requires ValidateEmailCaptureForm(form).Some?
    ensures ValidateField("name", Json.Get(form, "name"), NameRules) == Some(n)
    ensures ValidateField("email", Json.Get(form, "email"), EmailRules) == Some(e)
    ensures ValidateField("acceptPrivacy", Json.Get(form, "acceptPrivacy"), ConsentRules) == Some(c)
    ensures ValidateEmailCaptureForm(form).value.errors
      == KeepFirst(c, "acceptPrivacy", KeepFirst(e, "email", KeepFirst(n, "name", map[])))
  {
    n := ValidateField("name", Json.Get(form, "name"), NameRules).value;
    e := ValidateField("email", Json.Get(form, "email"), EmailRules).value;
    c := ValidateField("acceptPrivacy", Json.Get(form, "acceptPrivacy"), ConsentRules).value;
  }

  /** Before the consent is checked, only the name and the email can have entries. */
  lemma OnlyNameAndEmail(n: seq<string>, e: seq<string>)
    ensures "acceptPrivacy" !in KeepFirst(e, "email", KeepFirst(n, "name", map[]))
  {
    KeepFirstOther(e, "email", KeepFirst(n, "name", map[]), "acceptPrivacy");
    KeepFirstOther(n, "name", map[], "acceptPrivacy");
  }

  /** Recording one field's first message leaves every other field's entry as it was. */
  lemma KeepFirstOther(messages: seq<string>, key: string, errors: map<string, string>, other: string)
    requires other != key
    ensures other in KeepFirst(messages, key, errors) <==> other in errors
    ensures other in errors ==> KeepFirst(messages, key, errors)[other] == errors[other]
  {
  }

  /** A field's entry is there exactly when the field has a message, and it is the first one. */
  lemma KeepFirstOwn(messages: seq<string>, key: string, errors: map<string, string>)
    requires key !in errors
    ensures key in KeepFirst(messages, key, errors) <==> |messages| > 0
    ensures |messages| > 0 ==> KeepFirst(messages, key, errors)[key] == messages[0]
  {
  }

  /** The messages of the consent field. */
  lemma ConsentRuleMessages(v: Option<Json.Json>)
    ensures ValidateField("acceptPrivacy", v, ConsentRules) == Some(if Consent(v) then [] else [ConsentMessage])
  {
    SingleRule("acceptPrivacy", v, ConsentRule, "consent");
  }

  /** The messages of the name field for a string value. */
  lemma NameRuleMessages(v: Option<Json.Json>)
    ensures ValidateField("name", v, NameRules).Some? <==> v.Some? && v.value.JStr?
    ensures v.Some? && v.value.JStr? ==>
      var m := ValidateField("name", v, NameRules).value;
      (|m| > 0 <==> !ValidName(Text.Trim(v.value.s)))
      && (|m| > 0 ==> m[0] == if v.value.s == "" then RequiredMessage("name") else NameMessage)
  {
    TwoRules("name", v, "required", "name");
    RequiredOutcome("name", v);
    NameOutcome(v);
    if v.Some? && v.value.JStr? {
      NameCases(v);
    }
  }

  /** Validating against two rules joins their two outcomes. */
  lemma TwoRules(field: string, v: Option<Json.Json>, a: string, b: string)
    ensures ValidateField(field, v, [a, b]) == Both(RuleOutcome(field, v, a), RuleOutcome(field, v, b))
  {
    ValidateFieldConcat(field, v, [a], [b]);
    assert [a, b] == [a] + [b];
    OneRuleField(field, v, a);
    OneRuleField(field, v, b);
  }

  /** The outcome of `required` on any field. */
  lemma RequiredOutcome(field: string, v: Option<Json.Json>)
    ensures RuleOutcome(field, v, "required") == Some(if Required(v) then [] else [RequiredMessage(field)])
  {
    assert RuleNamed("required") == Some(RequiredRule);
  }

  /** The outcome of the name rule: it throws unless the value is a string. */
  lemma NameOutcome(v: Option<Json.Json>)
    ensures !(v.Some? && v.value.JStr?) ==> RuleOutcome("name", v, "name").None?
    ensures v.Some? && v.value.JStr? ==>
      RuleOutcome("name", v, "name") == Some(if ValidName(Text.Trim(v.value.s)) then [] else [NameMessage])
  {
    assert RuleNamed("name") == Some(NameRuleName);
  }

  /** The outcome of the email rule. */
  lemma EmailOutcome(field: string, v: Option<Json.Json>)
    ensures RuleOutcome(field, v, "email") == Some(if EmailRule(v) then [] else [EmailMessage])
  {
    assert RuleNamed("email") == Some(EmailRuleName);
  }

  lemma NameCases(v: Option<Json.Json>)
    requires v.Some? && v.value.JStr?
    ensures v.value.s == "" ==> !ValidName(Text.Trim(v.value.s))
    ensures ValidName(Text.Trim(v.value.s)) ==> Required(v)
  {
    if v.value.s == "" {
      assert Text.Trim(v.value.s) == "";
    } else {
      ValidNameIsRequired(v);
    }
  }

  /** A name that passes the name rule also passes `required`. */
  lemma ValidNameIsRequired(v: Option<Json.Json>)
    requires v.Some? && v.value.JStr?
    ensures ValidName(Text.Trim(v.value.s)) ==> Required(v)
  {
    var s := v.value.s;
    assert |Text.Trim(s)| <= |Text.TrimStart(s)| <= |s|;
  }

  /** The messages of the email field. */
  lemma EmailRuleMessages(v: Option<Json.Json>)
    ensures ValidateField("email", v, EmailRules).Some?
    ensures var m := ValidateField("email", v, EmailRules).value;
      (|m| > 0 <==> !EmailRule(v))
      && (|m| > 0 ==> m[0] == if Required(v) then EmailMessage else RequiredMessage("email"))
  {
    TwoRules("email", v, "required", "email");
    RequiredOutcome("email", v);
    EmailOutcome("email", v);
    EmailRuleIsRequired(v);
  }

  /** Whatever passes the email rule also passes `required`: `undefined`, `null` and the empty
      string all print as text without an `@`. */
  lemma EmailRuleIsRequired(v: Option<Json.Json>)
    ensures EmailRule(v) ==> Required(v)
  {
    if v == None {
      assert Json.ToJsString(v) == "undefined";
      assert FirstAt("undefined") == 9;
    } else if v == Some(Json.JNull) {
      assert Json.ToJsString(v) == "null";
      assert FirstAt("null") == 4;
    }
  }

  /** The form is valid exactly when the name passes the name rule, the email the email rule
      and the consent is `true`. */
  lemma FormValidIff(form: Json.Json)
    requires ValidateEmailCaptureForm(form).Some?
    ensures ValidateEmailCaptureForm(form).value.valid <==>
      ValidName(Text.Trim(Json.Get(form, "name").value.s)) && EmailRule(Json.Get(form, "email"))
      && Consent(Json.Get(form, "acceptPrivacy"))
  {
    var errors := ValidateEmailCaptureForm(form).value.errors;
    NameError(form);
    EmailError(form);
    ConsentError(form);
    if errors == map[] {
      assert "name" !in errors && "email" !in errors && "acceptPrivacy" !in errors;
    } else {
      var k :| k in errors;
    }
  }

  // --- The email rule, against its pattern

  /** The character check and the literal pattern accept the same strings. */
  lemma {:induction false} ValidEmailIsPattern(s: string)
    ensures ValidEmail(s) <==> EmailPattern(s)
  {
    if ValidEmail(s) {
      EmailMatchesPattern(s);
    }
    if EmailPattern(s) {
      PatternIsEmail(s);
    }
  }

  lemma EmailMatchesPattern(s: string)
    requires ValidEmail(s)
    ensures EmailPattern(s)
  {
    var k := FirstAt(s);
    var d := s[k + 1..];
    var m :| 1 <= m < |d| - 1 && d[m] == '.';
    var j := k + 1 + m;
    assert s[j] == '.';
    assert s[..k] == s[..k];
    assert AllEmailChars(s[..k]) by {
      forall i | 0 <= i < k ensures EmailChar(s[..k][i]) {
        assert s[..k][i] == s[i] && s[i] in s[..k];
      }
    }
    var host := s[k + 1..j];
    assert AllEmailChars(host) by {
      forall i | 0 <= i < |host| ensures EmailChar(host[i]) {
        assert host[i] == d[i] && d[i] in d;
      }
    }
    var top := s[j + 1..];
    assert AllEmailChars(top) by {
      forall i | 0 <= i < |top| ensures EmailChar(top[i]) {
        assert top[i] == d[m + 1 + i] && d[m + 1 + i] in d;
      }
    }
  }

  lemma PatternIsEmail(s: string)
    requires EmailPattern(s)
    ensures ValidEmail(s)
  {
    var i, j :| 0 < i && i + 1 < j && j + 1 < |s| && s[i] == '@' && s[j] == '.'
      && AllEmailChars(s[..i]) && AllEmailChars(s[i + 1..j]) && AllEmailChars(s[j + 1..]);
    PiecesAreEmailChars(s, i, j);
    FirstAtIs(s, i);
    PatternRest(s, i, j);
  }

  /** What follows the pattern's `@` holds no other `@` and an inner dot, and no character of
      the whole text is blank. */
  lemma PatternRest(s: string, i: int, j: int)
    requires 0 < i && i + 1 < j && j + 1 < |s| && s[i] == '@' && s[j] == '.'
    requires forall x :: 0 <= x < |s| && x != i && x != j ==> EmailChar(s[x])
    ensures '@' !in s[i + 1..] && InnerDot(s[i + 1..]) && NoBlank(s)
  {
    var d := s[i + 1..];
    forall x | 0 <= x < |d| ensures d[x] != '@' {
      assert d[x] == s[i + 1 + x];
    }
    forall x | 0 <= x < |s| ensures !Text.IsJsWhitespace(s[x]) {
      if x != i && x != j {
        assert EmailChar(s[x]);
      }
    }
    assert d[1..|d| - 1][j - i - 2] == '.';
  }

  /** Every character of the pattern's three runs, read in `s` itself. */
  lemma PiecesAreEmailChars(s: string, i: int, j: int)
    requires 0 < i < j < |s|
    requires AllEmailChars(s[..i]) && AllEmailChars(s[i + 1..j]) && AllEmailChars(s[j + 1..])
    ensures forall x :: 0 <= x < |s| && x != i && x != j ==> EmailChar(s[x])
  {
    forall x | 0 <= x < |s| && x != i && x != j ensures EmailChar(s[x]) {
      if x < i {
        assert s[x] == s[..i][x];
      } else if x < j {
        assert s[x] == s[i + 1..j][x - i - 1];
      } else {
        assert s[x] == s[j + 1..][x - j - 1];
      }
    }
  }

  /** The first `@` is the one with no `@` before it. */
  lemma FirstAtIs(s: string, i: int)
    requires 0 <= i < |s| && s[i] == '@' && '@' !in s[..i]
    ensures FirstAt(s) == i
  {
  }

  // --- Properties of the other rules

  /** A phone entry made only of separators is truthy text that strips to nothing, so the phone
      rule rejects it although an empty entry passes. */
  lemma BlankPhoneRejected(s: string)
    requires s != "" && forall i :: 0 <= i < |s| ==> PhoneSeparator(s[i])
    ensures PhoneRule(Some(Json.JStr(s))) == Some(false)
    ensures PhoneRule(Some(Json.JStr(""))) == Some(true)
  {
    StripAllSeparators(s);
  }

  lemma {:induction false} StripAllSeparators(s: string)
    requires forall i :: 0 <= i < |s| ==> PhoneSeparator(s[i])
    ensures StripPhone(s) == ""
    decreases |s|
  {
    if |s| > 0 {
      assert forall i :: 0 <= i < |s| - 1 ==> s[1..][i] == s[i + 1];
      StripAllSeparators(s[1..]);
    }
  }

  /** Stripping separators is idempotent, so formatting a number beforehand never changes the
      phone rule's verdict unless nothing but separators was entered. */
  lemma PhoneFormattingIrrelevant(s: string)
    requires StripPhone(s) != ""
    ensures PhoneRule(Some(Json.JStr(StripPhone(s)))) == PhoneRule(Some(Json.JStr(s)))
  {
    assert s != "";
  }

  /** A phone number accepted by the rule has between one and sixteen digits, the first of them
      not zero, and at most one leading `+`. */
  lemma PhoneShape(p: string)
    requires PhonePattern(p)
    ensures 1 <= |p| <= 17 && p[|p| - 1] != '+'
    ensures forall i :: 1 <= i < |p| ==> Text.IsAsciiDigit(p[i])
  {
    var digits := if |p| > 0 && p[0] == '+' then p[1..] else p;
    assert forall i :: 1 <= i < |p| ==> p[i] == digits[i - |p| + |digits|];
  }

  // --- Pages

  datatype PageResult = PageResult(valid: bool, errors: map<string, string>)

  const EmailCaptureKey := "emailCaptureData"
  const NoDataMessage := "No data found"
  const InvalidSavedMessage := "Invalid saved data"

  /** `validateEmailPage`: validates the form saved in storage. An absent or empty entry is
      "No data found"; a parse failure, or a throw while validating, is "Invalid saved data". */
  function ValidateEmailPage(storage: map<string, string>, codec: Json.Codec): (r: PageResult)
    ensures (EmailCaptureKey !in storage || storage[EmailCaptureKey] == "") ==>
      r == PageResult(false, map["general" := NoDataMessage])
    ensures r.valid ==> EmailCaptureKey in storage && r.errors == map[]
    ensures "general" in r.errors ==> !r.valid
  {
    if EmailCaptureKey !in storage || storage[EmailCaptureKey] == "" then
      PageResult(false, map["general" := NoDataMessage])
    else match codec.parse(storage[EmailCaptureKey])
      case None => PageResult(false, map["general" := InvalidSavedMessage])
      case Some(form) =>
        match ValidateEmailCaptureForm(form)
        case None => PageResult(false, map["general" := InvalidSavedMessage])
        case Some(result) =>
          assert result.valid ==> "general" !in result.errors;
          PageResult(result.valid, result.errors)
  }

  /** `validatePage(n)`: only page 9, the email capture page, does any checking; pages 1 to 5 and
      every other number are valid with no errors. */
  function ValidatePage(page: int, storage: map<string, string>, codec: Json.Codec): (r: PageResult)
    ensures page != 9 ==> r == PageResult(true, map[])
    ensures page == 9 ==> r == ValidateEmailPage(storage, codec)
  {
    if page == 9 then ValidateEmailPage(storage, codec) else PageResult(true, map[])
  }

  /** Page 9 re-validates exactly the form that was saved, when the codec is lawful and the saved
      text is not empty: the form's own verdict, or "Invalid saved data" when validating it throws. */
  lemma EmailPageUsesSavedForm(form: Json.Json, storage: map<string, string>, codec: Json.Codec)
    requires Json.Lawful(codec)
    requires EmailCaptureKey in storage && storage[EmailCaptureKey] == codec.stringify(form) != ""
    ensures ValidatePage(9, storage, codec) == match ValidateEmailCaptureForm(form)
      case None => PageResult(false, map["general" := InvalidSavedMessage])
      case Some(result) => PageResult(result.valid, result.errors)
  {
  }
}

=== FILE: webhook.dfy ===
/** The webhook test script's delivery and retry policy (test-webhook.js): one POST is classified
    by its status code, and `testWebhookWithRetry` repeats it a bounded number of times with a
    growing pause. The network is a parameter giving what each numbered attempt met; the pauses
    are returned as data instead of being slept. */
module Webhook {
  import Text

  /** What the response to one request said. */
  datatype Response = Response(statusCode: int, statusMessage: string, data: string)

  /** What one attempt met: a response, a request error, or the ten-second timeout. */
  datatype Attempt = Answered(response: Response) | RequestError(message: string) | TimedOut

  /** How `sendWebhook` settles: resolved with the status and body, or rejected with an error. */
  datatype Delivery = Delivered(statusCode: int, data: string) | Rejected(message: string)

  const TimeoutMessage := "Request timeout"
  const DefaultMaxRetries := 3
  const PauseUnitMs := 1000

  /** `sendWebhook(url, payload)`: only a status in [200, 300) is a success. */
  function SendWebhook(a: Attempt): (d: Delivery)
    ensures d.Delivered? <==> a.Answered? && 200 <= a.response.statusCode < 300
    ensures d.Delivered? ==> d == Delivered(a.response.statusCode, a.response.data)
    ensures a.TimedOut? ==> d == Rejected(TimeoutMessage)
    ensures a.RequestError? ==> d == Rejected(a.message)
  {
    match a
    case Answered(r) =>
      if 200 <= r.statusCode < 300 then Delivered(r.statusCode, r.data)
      else Rejected("HTTP " + Text.IntToDecimal(r.statusCode) + ": " + r.statusMessage)
    case RequestError(message) => Rejected(message)
    case TimedOut => Rejected(TimeoutMessage)
  }

  /** A redirect or an error status is a failure like a broken connection. */
  lemma ErrorStatusRejected(r: Response)
    requires r.statusCode < 200 || r.statusCode >= 300
    ensures SendWebhook(Answered(r)) == Rejected("HTTP " + Text.IntToDecimal(r.statusCode) + ": " + r.statusMessage)
  {
  }

  predicate Delivers(a: Attempt) {
    SendWebhook(a).Delivered?
  }

  /** How `testWebhookWithRetry` ends: with the delivery's result, by throwing the last error, or
      (when no attempt is allowed) with `undefined`. */
  datatype Outcome = Returned(statusCode: int, data: string) | Threw(message: string) | ReturnedUndefined

  /** `testWebhookWithRetry(payload, maxRetries)`: attempt `k` (from 1) meets `network(k)`. It
      returns the outcome, the payloads sent and the pauses taken, in milliseconds. The attempts
      stop at the first delivery; after `maxRetries` failures the last error is thrown; after a
      failed attempt `k` that is not the last, the pause is `k` seconds. */
  method TestWebhookWithRetry(payload: string, maxRetries: int, network: nat -> Attempt)
    returns (outcome: Outcome, sent: seq<string>, pauses: seq<int>)
    ensures maxRetries <= 0 ==> outcome == ReturnedUndefined && sent == [] && pauses == []
    ensures maxRetries > 0 ==> 1 <= |sent| <= maxRetries && !outcome.ReturnedUndefined?
    ensures forall i :: 0 <= i < |sent| ==> sent[i] == payload
    ensures forall k :: 1 <= k < |sent| ==> !Delivers(network(k))
    ensures outcome.Returned? <==> |sent| >= 1 && Delivers(network(|sent|))
    ensures outcome.Returned? ==>
      SendWebhook(network(|sent|)) == Delivered(outcome.statusCode, outcome.data)
    ensures outcome.Threw? ==>
      |sent| == maxRetries && SendWebhook(network(maxRetries)) == Rejected(outcome.message)
    ensures |pauses| == (if sent == [] then 0 else |sent| - 1)
    ensures forall i :: 0 <= i < |pauses| ==> pauses[i] == (i + 1) * PauseUnitMs
  {
    sent, pauses := [], [];
    outcome := ReturnedUndefined;
    var attempt := 1;
    while attempt <= maxRetries
      invariant 1 <= attempt
      invariant maxRetries >= 1 ==> attempt <= maxRetries
      invariant attempt == 1 || maxRetries >= 1
      invariant |sent| == attempt - 1 && |pauses| == attempt - 1
      invariant forall i :: 0 <= i < |sent| ==> sent[i] == payload
      invariant forall k :: 1 <= k < attempt ==> !Delivers(network(k))
      invariant forall i :: 0 <= i < |pauses| ==> pauses[i] == (i + 1) * PauseUnitMs
      decreases maxRetries - attempt
    {
      sent := sent + [payload];
      var delivery := SendWebhook(network(attempt));
      if delivery.Delivered? {
        outcome := Returned(delivery.statusCode, delivery.data);
        return;
      }
      if attempt == maxRetries {
        outcome := Threw(delivery.message);
        return;
      }
      pauses := pauses + [attempt * PauseUnitMs];
      attempt := attempt + 1;
    }
  }

  /** Two failures and then a success, with the default limit: three attempts of the same payload,
      pauses of one and two seconds, and the third attempt's result. */
  method TwoFailuresThenSuccess(payload: string, first: Attempt, second: Attempt, third: Response)
    returns (outcome: Outcome, sent: seq<string>, pauses: seq<int>)
    requires !Delivers(first) && !Delivers(second) && 200 <= third.statusCode < 300
    ensures outcome == Returned(third.statusCode, third.data)
    ensures sent == [payload, payload, payload]
    ensures pauses == [1000, 2000]
  {
    var network := (k: nat) => if k == 1 then first else if k == 2 then second else Answered(third);
    outcome, sent, pauses := TestWebhookWithRetry(payload, DefaultMaxRetries, network);
    assert Delivers(network(3));
  }

  /** Every attempt fails: the default limit makes three attempts and throws the third error. */
  method AlwaysFailing(payload: string, failure: Attempt)
    returns (outcome: Outcome, sent: seq<string>, pauses: seq<int>)
    requires !Delivers(failure)
    ensures outcome == Threw(SendWebhook(failure).message)
    ensures |sent| == 3 && pauses == [1000, 2000]
  {
    outcome, sent, pauses := TestWebhookWithRetry(payload, DefaultMaxRetries, (k: nat) => failure);
  }
}

=== FILE: wrappers.dfy ===
/** Optional values: the model's stand-in for JavaScript's `undefined`. */
module Wrappers {

  datatype Option<+T> = None | Some(value: T) {

    /** The wrapped value, or `default` when there is none (JavaScript's `x ?? default`). */
    function GetOr(default: T): T {
      match this
      case Some(v) => v
      case None => default
    }
  }

  /** JavaScript's `v || fallback` for a text that may be missing: a missing or empty text gives
      the fallback. */
  function TextOr(v: Option<string>, fallback: string): (r: string)
    ensures v.Some? && v.value != "" ==> r == v.value
    ensures v.None? || v == Some("") ==> r == fallback
  {
    match v
    case Some(s) => if s == "" then fallback else s
    case None => fallback
  }
}
